=== FILE: README.md ===
# nanobot (clopbot) turn engine and tools, modelled in Dafny

This project models the core of the nanobot Telegram assistant. Everything is a pure function
over immutable data, and the proofs are about that model.

- **Agent loop** (`agent.dfy`). One turn per inbound bus message:
  - "system" messages are routed back to their origin chat;
  - the text is rewritten before the model sees it: a channel post gets a fixed frame, a group message gets a speaker tag, and a YouTube link gets a transcript appended;
  - model calls and sequential tool runs alternate for at most `max_iterations` (20) rounds;
  - a timeout gives fixed text, and so does an exhausted budget;
  - exactly one user/assistant pair is stored;
  - the reply carries the voice flag, the reply target and the inline request id.

  The language model and the tools are oracles. Each is a function from the call's position in the turn to its outcome.
- **Message assembly** (`context.py`, in `context.dfy`): the system prompt's section order, the bootstrap files, the media gate in the user content, and the append helpers.
- **Channel gates** (`base.py` and the pure parts of `telegram.py`, in `channels.dfy`, `telegram.dfy` and `telegram_html.dfy`): the allow list, sender ids, the chat whitelist, the group-chat decision, media extensions, inline-answer capping, and the escaping and code protection of the Markdown-to-HTML converter.
- **Tools**:
  - the channel-history reader (`channel_history.dfy`);
  - the admin-only export importer (`import_history.dfy`);
  - the history ingester (`ingest.dfy`);
  - the reminder time parser on an integer seconds clock (`reminder.dfy`);
  - the admin-only context clearer over the session map (`clear_context.dfy`);
  - YouTube id extraction and transcript truncation (`youtube.dfy`);
  - the memory and persona tools (`memory_tools.dfy`).

JSON and JSONL arrive as already-decoded values. The `Json` datatype (`json.dfy`) carries the Python semantics the code relies on: truthiness, `dict.get`, iteration, `str()` and the type names in error messages. The string helpers in `strings.dfy` model `lower`, `strip`, `split`, `in`, `join` and `int()` on ASCII digits.

## Model

| member | source | states |
|---|---|---|
| Channels.IsAllowed | nanobot/channels/base.py:59-89 | An empty allow list admits everyone and an exact listing admits; a sender id without '\|' is admitted by those two rules only. |
| Channels.AllowedComposite | nanobot/channels/base.py:78-89 | A sender "a\|b" is admitted exactly when the list is empty, the whole id is listed, or one of its non-empty parts is listed. |
| Channels.HandleMessage | nanobot/channels/base.py:91-134 | Exactly one message is published iff the check is skipped or the sender is allowed. It carries the channel name, the ids and the content; its media is the list given or [] when none is, and its metadata the dict given or {} when none is. What was on the bus is untouched. |
| Telegram.SenderIdAllowed | nanobot/channels/telegram.py:649-651 | The "id\|username" sender id of a Telegram user is admitted exactly when the list is empty, or it lists the full id, the numeric id, or the username. |
| Telegram.FirstWordTrigger | nanobot/channels/telegram.py:202-208 | The trigger found is the first one, in list order, that occurs as a whole word; none is found only when no trigger occurs as a word. |
| Telegram.ShouldRespondInGroup | nanobot/channels/telegram.py:183-218 | Empty text gives (False, "no_text"). A mention gives (True, "direct_mention") before any trigger. Otherwise the first whole-word direct trigger answers with "trigger_<t>". Without one, the answer is yes iff some context trigger occurs and its random draw succeeds. A yes carries "random_context_<t>" for the first such trigger t, and a no carries "no_trigger". |
| Telegram.RespondWithoutLuck | nanobot/channels/telegram.py:193-218 | When every random draw fails, a non-empty unmentioned message is answered iff some direct trigger occurs in it as a whole word. |
| Telegram.GetExtension | nanobot/channels/telegram.py:923-934 | A mapped mime type wins; otherwise the media-type default applies; an unknown type gives "". |
| Telegram.ExtensionRange | nanobot/channels/telegram.py:923-934 | Every extension is one of .jpg, .png, .gif, .ogg, .mp3, .m4a or "". |
| Telegram.CapInlineAnswer | nanobot/channels/telegram.py:582-583 | An answer of at most 500 characters is unchanged; a longer one becomes its first 500 characters plus "...", 503 in all. |
| Telegram.CapIdempotent | nanobot/channels/telegram.py:582-583 | Capping a capped answer changes nothing. |
| Telegram.NoWordCharsNotMeaningful | nanobot/channels/telegram.py:777-780 | A text with no word character has fewer than three characters left after punctuation and emoji are removed. |
| Telegram.HasMention | nanobot/channels/telegram.py:800-808 | The bot is mentioned iff some "mention" entity's slice of the text, lowercased, contains the bot's handle (the corrected handle, see Findings). |
| Telegram.HasMentionAsWritten | nanobot/channels/telegram.py:800-808 | The same test with the handle as the code spells it, "cloptbot_bot". |
| Telegram.MentionTypoMissesBot | nanobot/channels/telegram.py:806 | A message consisting of "@clopbot_bot" with its mention entity is not a mention for the code as written, and is one for the corrected handle. |
| Telegram.MessageContent | nanobot/channels/telegram.py:706-753 | The content is the text and the caption joined by "\n" (either alone when the other is empty), followed on its own line by the media note when there is media; it is the media note alone when there is no text or caption, and "[empty message]" when there is nothing at all. It is never empty and starts with the text when there is one. |
| Telegram.OnMessage | nanobot/channels/telegram.py:757-878 | At most one message is published and the bus prefix is kept. A chat outside a non-empty whitelist publishes nothing. A group message is published iff the group rule answers it; a private one iff its sender is allowed. The published message carries the channel, chat id, sender id, content, the downloaded media paths and the built metadata. |
| Telegram.Metadata | nanobot/channels/telegram.py:842-857 | The metadata holds exactly message_id, user_id, username (None when empty), first_name, chat_id, is_group and is_admin, each with the update's value. A channel post also has is_channel_post, channel_title (the sender chat's title or None) and reply_to, the post's own message id, and no other message has those three keys. |
| Telegram.EmojiReplyDropped | nanobot/channels/telegram.py:777-793 | In a group, a reply to the bot with no word character in it is dropped. |
| TelegramHtml.ChainedReplaceIsEscape | nanobot/channels/telegram.py:53 | Replacing & first, then < and >, escapes each character independently (no entity is escaped twice). |
| TelegramHtml.EscapeHasNoAngles | nanobot/channels/telegram.py:53 | Escaped text contains no raw '<' or '>'. |
| TelegramHtml.UnescapeEscape | nanobot/channels/telegram.py:53 | Escaping loses nothing: reading the three entities back gives the original text. |
| TelegramHtml.ProtectionLosesNothing | nanobot/channels/telegram.py:31-44 | Cutting out the fenced blocks and then the inline code spans keeps every character of the text, in order. |
| TelegramHtml.ExtractBlocksText | nanobot/channels/telegram.py:31-38 | The fenced-block pass alone keeps the text. |
| TelegramHtml.FirstBlockLeftmost | nanobot/channels/telegram.py:36 | A fenced block found opens at the leftmost ``` and its code holds no ``` (the lazy match). |
| TelegramHtml.UnclosedFenceNoBlock | nanobot/channels/telegram.py:36 | When the first ``` opens no block, no ``` follows it at all, so no later fence could open one either. |
| TelegramHtml.InlineSpansClean | nanobot/channels/telegram.py:40-44 | Every inline code span found is non-empty and holds no backtick. |
| TelegramHtml.PlainTextIsEscaped | nanobot/channels/telegram.py:23-81 | In the modelled pass of the converter (code protection, escaping and restoring only), text without backticks converts to its HTML escape, which has no raw '<' or '>'. |
| TelegramHtml.FencedBlock | nanobot/channels/telegram.py:72-76 | A lone fenced block converts to its code, escaped, inside `<pre><code>`. |
| Context.Sections | nanobot/agent/context.py:31-82 | The prompt's sections start with the identity block; each optional section is present iff its source is non-empty; the order is persona, bootstrap, memory, active skills, skills summary. |
| Context.PromptStartsWithIdentity | nanobot/agent/context.py:31-82 | The system prompt starts with the identity block, and is exactly that block when nothing else is present. |
| Context.BootstrapSections | nanobot/agent/context.py:214-225 | Each bootstrap section is "## name\n\ncontent", one per file, in the order of the file list. |
| Context.BootstrapEmptyIffNoFiles | nanobot/agent/context.py:214-225 | The bootstrap text is "" iff none of the five files exists. |
| Context.ExistingFilesInOrder | nanobot/agent/context.py:216-222 | The files loaded are exactly those of the bootstrap list that exist, picked at their increasing positions in the list. |
| Context.PositionsOfExisting | nanobot/agent/context.py:216-222 | The positions scanned are strictly increasing, and a position is picked iff the file named there exists. |
| Context.BuildMessages | nanobot/agent/context.py:227-260 | The list is one system message with the prompt, the history verbatim and in order, then exactly one user message; its length is the history's plus 2. |
| Context.BuildUserContent | nanobot/agent/context.py:295-345 | With no media, or no analysis keyword, the content is the plain text. A part list holds at least one media part and ends with the text. |
| Context.UserContentParts | nanobot/agent/context.py:313-345 | The content is a part list iff an analysis keyword occurs and some media file was inlined, and then it has one part per inlined file plus the text. |
| Context.AsWrittenAgreesWithoutAudio | nanobot/agent/context.py:313-345 | Without audio or video files, the code as written builds the same content as the corrected one. |
| Context.AudioAloneRaises | nanobot/agent/context.py:333-338 | An analysed message whose only media is an audio file raises, because `b64` was never assigned. |
| Context.AudioAfterImageCarriesImage | nanobot/agent/context.py:328-337 | An audio file after an image is sent with the image's bytes as written; the corrected content carries the audio's own bytes. |
| Context.AddToolResult | nanobot/agent/context.py:347-372 | Exactly one tool result with the call's id, name and content is appended; the prefix is unchanged. |
| Context.AddAssistantMessage | nanobot/agent/context.py:374-397 | Exactly one assistant message is appended: None content becomes "", and the tool calls are attached iff the list is non-empty. |
| YouTube.ExtractVideoId | nanobot/agent/tools/youtube.py:43-55 | An extracted id is non-empty and has no '&', '?', '#' or newline; there is none iff neither pattern matches anywhere. |
| YouTube.WatchBeforeShorts | nanobot/agent/tools/youtube.py:45-53 | When the watch/youtu.be/embed/v pattern matches, its first match gives the id, whatever the shorts pattern would give. |
| YouTube.ShortLinkRoundTrip | nanobot/agent/tools/youtube.py:46 | The id of "youtu.be/" + id is that id, for any id of allowed characters. |
| YouTube.FindLink | nanobot/agent/loop.py:226-231 | A detected link starts with one of the four link prefixes and has an id after it; none is detected iff the pattern matches nowhere. |
| YouTube.DetectedLinkHasId | nanobot/agent/loop.py:227-238 | Every link the loop detects yields a video id in the tool. |
| YouTube.TruncateTranscript | nanobot/agent/tools/youtube.py:98-101 | A transcript of at most 16000 characters is unchanged; a longer one is its first 16000 plus the truncation note. |
| YouTube.TruncationBounds | nanobot/agent/tools/youtube.py:98-101 | The result starts with the first 16000 characters and is never longer than 16000 plus the note. |
| YouTube.Answer | nanobot/agent/tools/youtube.py:84-105 | Segments are joined by single spaces under the "YouTube Video Transcript (ID: id)" heading; a missing transcript and a failed fetch become "Error: …" texts. |
| YouTube.Execute | nanobot/agent/tools/youtube.py:57-109 | Without the library, and for a URL with no id, the tool answers with the fixed errors; otherwise it answers for the fetched transcript. |
| YouTube.ExecuteAnswersOrExplains | nanobot/agent/tools/youtube.py:57-109 | Every answer is a transcript or starts with "Error: "; nothing is raised. |
| Agent.ScopeFor | nanobot/agent/loop.py:304-318 | The user context is set only for the two admin-only tools and the chat context only for the three per-chat tools, and only in a normal turn. |
| Agent.RoundResults | nanobot/agent/loop.py:300-329 | A round yields one tool result per call, in issue order, with the call's id and name; a raising tool yields "Error executing tool: <e>". |
| Agent.ExecuteRound | nanobot/agent/loop.py:300-329 | Running the calls one by one appends exactly the round's results to the messages, and reports a clearing exactly when some call of the round emptied the sessions. |
| Agent.RunLoop | nanobot/agent/loop.py:256-337 | The model is called at most max_iterations times; a finished loop only appends to the message list; the loop reports a clearing only when some tool call of some round emptied the sessions. |
| Agent.AgentLoop | nanobot/agent/loop.py:256-337 | The while loop computes the same outcome as the recursive definition. |
| Agent.AllToolCallsExhaustBudget | nanobot/agent/loop.py:260-262 | When every response asks for tools, the loop calls the model exactly max_iterations times and ends with no final text. |
| Agent.DirectAnswerEndsLoop | nanobot/agent/loop.py:330-334 | A first response without tool calls ends the loop after one call, with that content. |
| Agent.FrameKeepsPost | nanobot/agent/loop.py:189-199 | The channel-post frame embeds the original text verbatim between a fixed head and tail. |
| Agent.ChannelTitle | nanobot/agent/loop.py:190-194 | A missing title is "Unknown"; a string title is used; any other value raises the concatenation TypeError. |
| Agent.TurnContent | nanobot/agent/loop.py:189-199 | A channel post's content is replaced by the frame around it; other content is kept. |
| Agent.GroupPrefix | nanobot/agent/loop.py:216-223 | Only group messages are tagged: "[Admin/Owner] " for the admin, "[Community member: <username, first name or User>] " for anyone else. |
| Agent.TranscriptNote | nanobot/agent/loop.py:225-247 | A text with a YouTube link gets the tool's answer for the link's URL appended under the auto-extract marker; others get nothing. |
| Agent.ReplyMetadata | nanobot/agent/loop.py:344-369 | "voice" is set iff a listed phrase occurs in the lowercased content; inline_request_id is copied iff it is truthy; nothing else is set. |
| Agent.InitialMessages | nanobot/agent/loop.py:249-254 | The model sees the system prompt first and one user message built from the rewritten text last, with exactly the session's stored entries between them. |
| Agent.InitialMessagesHistory | nanobot/agent/loop.py:249-254 | Every stored entry of the session appears between the system prompt and the new user message, verbatim and in order. |
| Agent.ProcessUserMessage | nanobot/agent/loop.py:114-379 | A reply goes to the message's channel and chat, replies to its message_id and carries the reply metadata. The session map keeps its keys plus the turn's key. Either the turn's session gains exactly ("user", stored content) then ("assistant", reply) and no other session changes, or a clear_context call of the turn, which shares the session manager, emptied every session, and then the turn's session holds just that pair and every other one is empty. A failed turn stores no pair. |
| Agent.EndUserTurn | nanobot/agent/loop.py:336-379 | Once the loop is over, a crash stores no pair and leaves the session map as created or as the clearing left it. An answer, or the fallback, is stored as a turn of the message's session and sent to its chat, replying to its message_id with the reply metadata. |
| Agent.Origin | nanobot/agent/loop.py:390-398 | A chat id with ':' splits at the first ':' and the two parts rebuild it; one without ':' routes to ("cli", chat id). |
| Agent.RoutedSessionKey | nanobot/agent/loop.py:390-402 | The origin's session key is the system message's chat id itself. |
| Agent.ProcessSystemMessage | nanobot/agent/loop.py:381-490 | The reply goes to the origin with no reply target or metadata. The origin's session gains ("user", "[System: sender] content") and the reply, with the same two cases as a user turn: nothing else changes, or a clearing tool call left every other session empty. |
| Agent.Handle | nanobot/agent/loop.py:144-160 | Every message gets exactly one outbound: the turn's reply, or "Sorry, I encountered an error: <e>" to the same channel and chat. |
| Agent.RunAll | nanobot/agent/loop.py:131-162 | The queue yields one outbound per message, and the session map ends as handling the messages one after the other, in queue order, leaves it. The workspace and the tool oracle are fixed for the whole queue. |
| Agent.DriveInOrder | nanobot/agent/loop.py:135-160 | For any handler, the consume loop's k-th reply is the handler's reply to the k-th message in the state the earlier messages left. |
| Agent.RunAllInOrder | nanobot/agent/loop.py:131-162 | The k-th outbound is what handling the k-th message gives in the session map the first k messages left (the workspace is fixed for the whole queue), and a non-system message's reply goes to its own channel and chat. |
| Agent.ProcessDirect | nanobot/agent/loop.py:492-511 | A direct call works on the "cli:direct" session whatever key is passed, adds only that key, and stores its content and answer there as a turn does. |
| Agent.TimeoutStillAnswers | nanobot/agent/loop.py:276-279 | When the first model call times out, the turn still answers with the fixed timeout text and stores it. |
| Agent.EndlessToolsGiveFallback | nanobot/agent/loop.py:336-337 | When every response asks for tools, the answer is "I've completed processing but have no response to give.". |
| Agent.GroupTagNotStored | nanobot/agent/loop.py:217-247 | The model sees the "[Admin/Owner] " tag and the transcript, but the stored user entry is the bare content. |
| Agent.TurnWithoutClearingKeepsOtherSessions | nanobot/agent/loop.py:204-342 | When no tool call can empty the sessions, a turn changes its own session only: it gains exactly the pair, every other session is untouched, and a failed turn leaves the map as it was or with the new empty session. |
| Agent.ClearingTurnEmptiesOtherChats | nanobot/agent/loop.py:114-342 | When the first model call asks for one clear_context call that empties the sessions and the second answers, the reply is that answer, the turn's session holds only the new pair, and every other chat's history is empty. |
| ChannelHistory.SafeChatId | nanobot/agent/tools/channel_history.py:54 | The sanitised id has no '-' and no '\|'. |
| ChannelHistory.HistoryFile | nanobot/agent/tools/channel_history.py:47-55 | Without a chat id the default file is used; otherwise the name starts "channel_histories/chat_" and holds no '-' or '\|'. |
| ChannelHistory.SafeNumericIdRoundTrip | nanobot/agent/tools/channel_history.py:54 | A numeric chat id can be read back from its sanitised form. |
| ChannelHistory.DistinctChatsDistinctFiles | nanobot/agent/tools/channel_history.py:53-55 | Two different numeric chats never share a history file. |
| ChannelHistory.ReadPosts | nanobot/agent/tools/channel_history.py:66-75 | Reading keeps at most one post per line, and keeps every line exactly when each is non-blank and decodes. |
| ChannelHistory.ReadPostsConcat | nanobot/agent/tools/channel_history.py:66-75 | Reading two stretches of lines gives their posts one after the other: the order is kept. |
| ChannelHistory.Filter | nanobot/agent/tools/channel_history.py:83 | Search keeps exactly the posts whose lowercased content contains the lowercased term. |
| ChannelHistory.FilterConcat | nanobot/agent/tools/channel_history.py:83 | Search keeps the posts' order. |
| ChannelHistory.Search | nanobot/agent/tools/channel_history.py:81-83 | Search succeeds iff every post is a dict with string content, and then yields the filtered posts. |
| ChannelHistory.Window | nanobot/agent/tools/channel_history.py:89 | The posts shown are a suffix of the filtered posts. |
| ChannelHistory.WindowIsLastPosts | nanobot/agent/tools/channel_history.py:89 | For limit ≥ 1 the last min(limit, n) posts are shown, in order. |
| ChannelHistory.WindowZeroShowsAll | nanobot/agent/tools/channel_history.py:89 | limit = 0 shows every post. |
| ChannelHistory.WindowNegativeDropsFirst | nanobot/agent/tools/channel_history.py:89 | A negative limit drops the first \|limit\| posts. |
| ChannelHistory.Preview | nanobot/agent/tools/channel_history.py:97-105 | String content is cut to 300 characters and flagged iff it was longer. A list is flagged iff it has more than 300 items. Any other content raises. |
| ChannelHistory.PostLines | nanobot/agent/tools/channel_history.py:95-106 | A post prints four lines, or five with "*(truncated)*" exactly when the content was cut; the content line is the preview. |
| ChannelHistory.Execute | nanobot/agent/tools/channel_history.py:57-113 | A missing file and an empty history give the fixed messages; otherwise the listing of the posts read. |
| ChannelHistory.ReadableHistoryHasHeader | nanobot/agent/tools/channel_history.py:92 | A readable history's answer starts with the header counting the posts shown and the total. |
| ChannelHistory.NoMatchIsReported | nanobot/agent/tools/channel_history.py:85-86 | A search nothing matches answers "No posts found matching '<term>'.". |
| ChannelHistory.UnreadablePostIsReported | nanobot/agent/tools/channel_history.py:111-113 | A post that is not a dict makes the answer an "Error reading channel history: " text; nothing is raised. |
| ImportHistory.SetUserContext | nanobot/agent/tools/import_channel_history.py:52-54 | Setting the user context sets the admin flag and leaves the chat as it was. |
| ImportHistory.MessageText | nanobot/agent/tools/import_channel_history.py:88-104 | A list text is first concatenated with `str()` of each item. A truthy text is returned as its `str()`. A falsy text falls back to the joined "text" fields of the dict entities when the message has text_entities, raises when those cannot be iterated, and is "" when there are none. |
| ImportHistory.MakePost | nanobot/agent/tools/import_channel_history.py:108-119 | A post's missing fields default to id 0, date "Unknown", the channel name, and a timestamp equal to the date or "". |
| ImportHistory.Item | nanobot/agent/tools/import_channel_history.py:81-120 | Non-dict and service items give nothing. For any other message, a raising text raises the same error, a blank text gives nothing, and a non-blank text gives exactly the one post built from the message with that text. |
| ImportHistory.QualifyingMessageBecomesPost | nanobot/agent/tools/import_channel_history.py:79-120 | Every dict, non-service message whose text is not blank contributes its post to the posts of the export. |
| ImportHistory.PostComesFromMessage | nanobot/agent/tools/import_channel_history.py:79-120 | Every post of the export is the one post some message's item yields. |
| ImportHistory.Normalize | nanobot/agent/tools/import_channel_history.py:79-120 | Filtering succeeds iff no item raises, and then gives the posts of the messages in order. |
| ImportHistory.PostsConcat | nanobot/agent/tools/import_channel_history.py:79-120 | The posts of two stretches of messages are those of the first followed by those of the second. |
| ImportHistory.ImportedPostReadable | nanobot/agent/tools/import_channel_history.py:113-119 | Every imported post is readable by the history reader, which sees its content. |
| ImportHistory.Execute | nanobot/agent/tools/import_channel_history.py:56-142 | The target file is the reader's file for the same chat. A non-admin gets the owner-only error. A missing export, undecodable JSON, an export without "messages", a non-iterable message list and a raising message each give their error and write nothing. Otherwise the appended lines are exactly the posts of the messages, in order, and with no posts the "no posts" reply is given. |
| ImportHistory.FreshToolRefuses | nanobot/agent/tools/import_channel_history.py:35 | A new tool is not admin: it refuses and writes nothing. |
| ImportHistory.AdminImportAppendsPosts | nanobot/agent/tools/import_channel_history.py:122-136 | An admin import appends one line per post, in order, and reports their number; with no posts it writes nothing. |
| Ingest.RawMessages | nanobot/agent/tools/ingest.py:47-55 | A top-level list is the message list; a dict with "messages" gives that field; anything else gives none. |
| Ingest.MessageItems | nanobot/agent/tools/ingest.py:57 | Only values with a length can be counted; a list gives its items. |
| Ingest.Item | nanobot/agent/tools/ingest.py:62-83 | Non-dict and service items give nothing. For any other message, a raising text raises the same error, a non-blank string text gives exactly one kept message with the message's date (or "Unknown date") and that text, and any other text gives nothing. |
| Ingest.RawText | nanobot/agent/tools/ingest.py:70-78 | A truthy text, or one without text_entities, is taken as it is. A falsy text falls back to the "".join of the dict entities' "text" fields, raising when the entities cannot be iterated or when a joined text is not a string. |
| Ingest.JoinEntityTexts | nanobot/agent/tools/ingest.py:74-78 | The join succeeds exactly when every dict entity with a "text" field has a string there. |
| Ingest.EntitiesNotIterableRaise | nanobot/agent/tools/ingest.py:71-79 | A message with a falsy text whose text_entities cannot be iterated raises, and that error ends the filtering. |
| Ingest.TextMessages | nanobot/agent/tools/ingest.py:59-83 | Filtering succeeds iff no item raises, and then gives the kept messages. |
| Ingest.QualifyingMessageKept | nanobot/agent/tools/ingest.py:59-83 | Every dict, non-service message whose text is a non-blank string is kept, with its date and text. |
| Ingest.KeptComesFromItem | nanobot/agent/tools/ingest.py:59-83 | Every kept message is the one message some item yields. |
| Ingest.KeptConcat | nanobot/agent/tools/ingest.py:59-83 | Filtering keeps the export's order. |
| Ingest.Sample | nanobot/agent/tools/ingest.py:95 | A sample of k is k draws without replacement from the kept messages. |
| Ingest.LastTen | nanobot/agent/tools/ingest.py:92 | The recent messages are the last min(10, n), in order. |
| Ingest.Execute | nanobot/agent/tools/ingest.py:37-124 | A missing file and invalid JSON give their fixed errors. A message list without a length gives the len() TypeError text, a raising message gives its error, no kept message gives "No text messages found in the file.", and a negative sample size gives the sampling error. Otherwise the answer is the summary of the kept messages and a sample of min(sample_size, total) of them. |
| Ingest.UnknownFormatHasNoMessages | nanobot/agent/tools/ingest.py:47-86 | An export that is neither a list nor a dict with "messages" gives "No text messages found in the file.". |
| Ingest.SummaryShape | nanobot/agent/tools/ingest.py:88-117 | The summary opens with the number of kept messages, and the sample holds min(sample_size, total) of them, drawn without replacement. |
| Ingest.ListTextDropped | nanobot/agent/tools/ingest.py:80-83 | A message whose text is a non-empty list is not kept, unlike in the importer. |
| Reminder.NextClock | nanobot/agent/tools/reminder.py:61-72 | A clock time is set today, or tomorrow when already past, so now ≤ result < now + 1 day, at that time of day. |
| Reminder.SearchRelativeLeftmost | nanobot/agent/tools/reminder.py:79-94 | The "через N <unit>" match found is the leftmost one; none is found only when it matches nowhere. |
| Reminder.SearchClockLeftmost | nanobot/agent/tools/reminder.py:97 | The HH:MM match found is the leftmost one; none is found only when it matches nowhere. |
| Reminder.Classify | nanobot/agent/tools/reminder.py:60-107 | The rules apply in order: evening, morning, tomorrow, N hours, N minutes, N seconds, HH:MM, default; each applies only when all earlier ones do not. |
| Reminder.TimeOf | nanobot/agent/tools/reminder.py:60-107 | Evening is 18:00 and morning 09:00 within the next day. Tomorrow is the next calendar day at 09:00. Relative forms add N hours, minutes or seconds, and the default adds one hour. Only an out-of-range HH:MM fails. |
| Reminder.ParseTime | nanobot/agent/tools/reminder.py:55-107 | A parsed time is never before now. Parsing fails exactly when the HH:MM rule applies and its hour is past 23 or its minute past 59. |
| Reminder.TomorrowMorningIsMorning | nanobot/agent/tools/reminder.py:60-76 | "завтра утром" is read as morning: the next 09:00, within a day. |
| Reminder.OutOfRangeHourReported | nanobot/agent/tools/reminder.py:97-155 | An hour past 23 is reported as "❌ Failed to create reminder: hour must be in 0..23" even without a chat, since parsing comes first. |
| Reminder.SetChatContext | nanobot/agent/tools/reminder.py:51-53 | Setting the chat context changes the chat and nothing else. |
| Reminder.TargetChat | nanobot/agent/tools/reminder.py:121 | An explicit chat id wins over the context; there is no chat only when neither is truthy. |
| Reminder.Execute | nanobot/agent/tools/reminder.py:109-155 | Without cron: the fixed error, before parsing. A parse failure and a missing chat give their errors. A job is added exactly on success, for the target chat, at the parsed time in milliseconds, with the reminder text; the existing jobs are kept. On success the reply is "✅ Reminder created! I'll send this message at <time>:" followed by the message. |
| ClearContext.SetUserContext | nanobot/agent/tools/context_management.py:41-44 | Setting the user context records the flag and the user. |
| ClearContext.ClearAll | nanobot/agent/tools/context_management.py:62-64 | Clearing keeps every session key and empties every history. |
| ClearContext.Cleared | nanobot/agent/tools/context_management.py:58-97 | With a manager every session is emptied; without one there is nothing to clear. |
| ClearContext.Execute | nanobot/agent/tools/context_management.py:46-122 | A non-admin is refused before confirm or action are read. confirm false and an unknown action change nothing. "session", "today" and "all" empty every session and report the count; "session" without a manager warns. A failed backup gives "Error clearing context: …". |
| ClearContext.FreshToolRefuses | nanobot/agent/tools/context_management.py:49-52 | Before any user context is set, the tool refuses and changes nothing. |
| ClearContext.ClearTwiceIsClearOnce | nanobot/agent/tools/context_management.py:58-97 | A second confirmed clear leaves the sessions as the first left them. |
| ClearContext.SessionClearsOtherChats | nanobot/agent/tools/context_management.py:58-67 | "session" empties another chat's history too, not only the caller's. |
| MemoryTools.AddToMemory | nanobot/agent/tools/memory_tools.py:28-32 | An empty memory becomes "- content". Otherwise the old memory is kept as a prefix, followed by "\n\n- content". The reply is always the fixed success text. |
| MemoryTools.AddAllFromEmpty | nanobot/agent/tools/memory_tools.py:28-32 | Starting from an empty memory, successive adds leave one "- " bullet per call, in call order, separated by blank lines. |
| MemoryTools.AddAllOnto | nanobot/agent/tools/memory_tools.py:30-31 | Successive adds onto a non-empty memory append their bullets after it. |
| MemoryTools.GetPersona | nanobot/agent/persona.py:14-18 | A missing persona file reads as ""; otherwise its content is read. |
| MemoryTools.PersonaRoundTrip | nanobot/agent/persona.py:14-22 | After an update the persona reads back as the content, and the next system prompt has a persona section iff that content is non-empty. |

## Left out

- File and network I/O are parameters. This covers reading and appending history files, reading exports, the Telegram API, the transcript service, the cron service, and the memory and persona files.
- The language model and the tool registry are oracles. `asyncio` timeouts become the `TimedOut` outcome. The polling loop's scheduling and the bus are a list of messages.
- The message and spawn tools' contexts are left out: they hold no logic in the turn engine. The SessionManager is a map from session key to entries, and `save` is not modelled.
- Agent.InitialMessages: nanobot/session/manager.py is not part of this model. The window `session.get_history()` returns is taken to be the whole stored session, so a bounded retrieval is not modelled.
- Agent.TranscriptNote: the "Failed to extract YouTube transcript" note is not modelled. The YouTube tool returns every failure as text, so that branch cannot be reached. The tool is taken to be registered.
- Agent.ProcessUserMessage: a provider error other than a timeout ends the turn as `Failed`, and `run` answers it. Any session created by `get_or_create` stays, but no entry is stored.
- Agent.ProcessUserMessage: the turn builds the user content with the corrected Context.BuildUserContent (see Findings). As written, an analysed message whose only media are audio or video files raises UnboundLocalError (Context.AudioAloneRaises), and an audio file after an image is sent with the image's bytes (Context.AudioAfterImageCarriesImage); the turn's contract does not carry either.
- Agent.ProcessUserMessage: once a clear_context call of the turn empties the shared session manager, the history the turn's session held before is not promised to survive. Only the pair just stored is.
- Telegram.OnMessage: the group rule uses the corrected handle of Telegram.HasMention (see Findings). As written, a group message that only mentions "@clopbot_bot" is not a mention (Telegram.MentionTypoMissesBot), so, unless it replies to the bot, it is answered only when a direct trigger occurs or a context trigger's draw succeeds. The contract states the corrected rule.
- Json: floats are not represented, so a float `id`, `date`, `limit` or content in an export or a history line has no model. A dict is a list of fields, and `Json.Lookup` returns the first field with the key. A value `json.loads` produces never repeats a key, because it keeps the last duplicate; a `JObj` with a repeated key is not such a value and is read differently.
- Json.PyStr and Json.PyRepr: `repr` of a string always uses single quotes and escapes nothing. Python switches to double quotes for a string that contains a single quote and escapes backslashes and control characters. This affects the list content shown by nanobot/agent/tools/channel_history.py:97 and the `str()` of a non-string text in nanobot/agent/tools/import_channel_history.py:92.
- YouTube.Execute: a transcript entry without a "text" field makes the source answer "Error extracting YouTube transcript: …" (nanobot/agent/tools/youtube.py:107-109). The transcript is a list of segment texts here, so that branch is not modelled.
- ChannelHistory.Preview: the error text for slicing a dict content is "unhashable type: 'slice'", the wording before Python 3.12. Python 3.12 and later raise a KeyError whose text is the slice's repr.
- Regular expressions are hand-written for each pattern. `\d`, `\w` and `str.lower` cover ASCII and Cyrillic only, and `\w` also covers Latin-1 letters. Python's Unicode digits, the word characters of other scripts and other scripts' case mappings are not modelled. This affects the word boundaries of the group triggers (nanobot/channels/telegram.py:202-208), the "meaningful text" test (nanobot/channels/telegram.py:777-780) and the fence language tag (nanobot/channels/telegram.py:36).
- Reminder.ParseTime: time runs on an integer clock of seconds with 86400-second days, with no time zone or DST. Sub-second parts of "now" are not modelled, so a clock time equal to now is kept for today. `timedelta` overflow past year 9999 is not modelled.
- Reminder.Execute: the strftime text is a parameter, and the job name is not modelled. An exception raised by the cron service is not modelled.
- ClearContext.Execute: the memory-file backup is its result, a count or an exception. The backup file names are not modelled. `hasattr` checks on the session manager are taken as true.
- Ingest.Sample: `random.sample` is an oracle that picks a position at each draw.
- Ingest.Execute: the drawn sample is an oracle, and the summary layout is stated by Ingest.SummaryShape. A non-integer `sample_size` is not modelled.
- ChannelHistory.Execute: a non-integer `limit` and file permission errors are not modelled.
- Telegram `_markdown_to_telegram_html`: only code protection, escaping and restoring are modelled. Headers, quotes, links, bold, italic, strike-through and bullets (steps 3-4 and 6-10) are not.
- TelegramHtml.PlainTextIsEscaped: the property is about the modelled pass only. It does not hold for the full converter. Steps 3-4 strip leading "# " and "> ", steps 6-9 emit `<a href>`, `<b>`, `<i>` and `<s>` tags, and step 10 turns list dashes into "• ".
- Telegram I/O is not modelled: sending, voice synthesis, reactions, downloads, the inline query's model and search calls, `_save_channel_post`, `_on_channel_post`, and the history-upload state of `_on_message`.
- Telegram.ShouldRespondInGroup: the 20% random branch is an oracle on each context trigger.
- Agent.RunAll: the workspace (memory file, persona file, bootstrap files) is fixed for the whole queue. A memory or persona write by `add_to_memory` or `update_persona`, and the memory backup of `clear_context`, in one turn do not reach the system prompt of later turns; only the session map is threaded from turn to turn. The tool oracle is also indexed by (round, position) within a turn, so it sees the same indices in every turn.
- Image compression, base64 encoding, `mimetypes` and file reads in `_build_user_content` are a probe oracle for each path.
- The identity block, with its `datetime.now()`, is an opaque string.
- nanobot/agent/tools/music.py is a fixed text template, and scripts/ingest_channel.py is an interactive network client. Neither is modelled.

## Findings

| source | as written | input that shows it | evidently intended | confidence | as-written member | corrected member |
|---|---|---|---|---|---|---|
| nanobot/agent/context.py:333-338 | The audio/video branch embeds `b64`, which only the image branch assigns. | Text "опиши" with only an audio file raises UnboundLocalError; an image followed by an MP3 sends the image's bytes as the MP3. | Each audio or video file is sent with its own base64 bytes. | high, not executed | Context.AudioAloneRaises | Context.BuildUserContent |
| nanobot/channels/telegram.py:806 | The mention test looks for "cloptbot_bot". | A group message "@clopbot_bot" with its mention entity, using the handle the bot announces elsewhere (lines 403 and 444), is not seen as a mention. | The test looks for the bot's own handle, "clopbot_bot". | medium, not executed | Telegram.MentionTypoMissesBot | Telegram.HasMention |

=== FILE: agent.dfy ===
/** The agent loop: one turn per inbound message. A turn rewrites the text for the model,
    alternates model calls and sequential tool runs for at most `maxIterations` rounds,
    falls back to fixed text on timeout or when the budget runs out, stores exactly one
    user/assistant pair, and builds the outbound reply. The model and the tools are oracles. */
module Agent {
  import opened Strings
  import opened Json
  import opened Events
  import opened Context
  import YouTube
  import ClearContext

  // ---------------------------------------------------------------- oracles

  datatype ChatResponse = ChatResponse(content: Option<string>, toolCalls: seq<ToolCall>)

  /** What one model call does: time out, raise, or answer. */
  datatype ProviderOutcome = TimedOut | ProviderRaised(error: string) | Responded(response: ChatResponse)

  /** The model: the outcome of its i-th call in a turn (from 0) on the given messages. */
  type Provider = (nat, seq<ChatMessage>) -> ProviderOutcome

  datatype ToolOutcome = Returned(text: string) | ToolRaised(error: string)

  /** One tool call: its outcome, and whether it emptied every cached session on the way
      (the tools share the loop's session manager; `clear_context` empties them all, see
      `ClearContext.Execute`, and no other tool touches them). */
  datatype ToolRun = ToolRun(outcome: ToolOutcome, clearsSessions: bool)

  /** The context the loop hands a tool just before running it: (user id, admin flag) for
      the admin-only tools, the chat id for the per-chat tools. */
  datatype ToolScope = ToolScope(user: Option<(string, Json)>, chat: Option<string>)

  /** The tools: what the call at (round, position in the round) does. */
  type Tools = (nat, nat, ToolCall, ToolScope) -> ToolRun

  datatype Env = Env(
    provider: Provider,
    tools: Tools,
    maxIterations: nat,
    workspace: Workspace,
    probe: string -> MediaFile,
    youtubeInstalled: bool,
    transcripts: (string, bool) -> YouTube.FetchOutcome)

  const DefaultMaxIterations := 20

  const FallbackReply := "I've completed processing but have no response to give."
  const TimeoutReply := "⏳ Бро, я немного задумался (таймаут LLM). "
    + "Спроси еще раз через пару минут, я перезагрузил нейронку."
  const SystemTimeoutReply := "Sorry, the request took too long to process."
  const SystemFallbackReply := "Background task completed."

  // ---------------------------------------------------------------- tool rounds

  /** Which contexts a normal turn sets before a call; system turns set none. */
  datatype Scoping = PerMessage(metadata: Metadata, senderId: string) | Unscoped

  const AdminTools: seq<string> := ["clear_context", "import_channel_history"]
  const ChatTools: seq<string> := ["read_channel_history", "import_channel_history", "create_reminder"]

  function ScopeFor(scoping: Scoping, name: string): (r: ToolScope)
    ensures scoping.Unscoped? ==> r == ToolScope(None, None)
    ensures r.user.Some? <==> scoping.PerMessage? && name in AdminTools
    ensures r.chat.Some? <==> scoping.PerMessage? && name in ChatTools
  {
    match scoping
    case Unscoped => ToolScope(None, None)
    case PerMessage(md, sender) =>
      ToolScope(
        if name in AdminTools then
          Some((PyStr(if "user_id" in md then md["user_id"] else JStr("unknown")),
                if "is_admin" in md then md["is_admin"] else JBool(false)))
        else None,
        if name in ChatTools then Some(PyStr(if "chat_id" in md then md["chat_id"] else JStr(sender)))
        else None)
  }

  /** A tool's text, with a raised exception turned into an error text. */
  function ResultText(o: ToolOutcome): string
  {
    match o
    case Returned(t) => t
    case ToolRaised(e) => "Error executing tool: " + e
  }

  /** The run of the k-th call of a round, in the context the loop sets for it. */
  function CallRun(tools: Tools, round: nat, calls: seq<ToolCall>, scoping: Scoping, k: nat): ToolRun
    requires k < |calls|
  {
    tools(round, k, calls[k], ScopeFor(scoping, calls[k].name))
  }

  /** The tool-result messages of one round: one per call, in issue order, each carrying
      its call's id and name. */
  function RoundResults(tools: Tools, round: nat, calls: seq<ToolCall>, scoping: Scoping): (r: seq<ChatMessage>)
    ensures |r| == |calls|
    ensures forall k: nat :: k < |calls| ==>
      && r[k].ToolResult? && r[k].callId == calls[k].id && r[k].name == calls[k].name
      && r[k].result == ResultText(CallRun(tools, round, calls, scoping, k).outcome)
  {
    seq(|calls|, (k: nat) requires k < |calls| =>
      ToolResult(calls[k].id, calls[k].name, ResultText(CallRun(tools, round, calls, scoping, k).outcome)))
  }

  /** One of the round's first n calls emptied the sessions. */
  predicate ClearsBefore(tools: Tools, round: nat, calls: seq<ToolCall>, scoping: Scoping, n: nat)
  {
    exists k: nat :: k < n && k < |calls| && CallRun(tools, round, calls, scoping, k).clearsSessions
  }

  /** Some call of the round emptied the sessions. */
  predicate RoundClears(tools: Tools, round: nat, calls: seq<ToolCall>, scoping: Scoping)
  {
    ClearsBefore(tools, round, calls, scoping, |calls|)
  }

  lemma ClearsBeforeNext(tools: Tools, round: nat, calls: seq<ToolCall>, scoping: Scoping, i: nat)
    requires i < |calls|
    ensures ClearsBefore(tools, round, calls, scoping, i + 1)
        <==> ClearsBefore(tools, round, calls, scoping, i) || CallRun(tools, round, calls, scoping, i).clearsSessions
  {
    if ClearsBefore(tools, round, calls, scoping, i + 1) {
      var k: nat :| k < i + 1 && k < |calls| && CallRun(tools, round, calls, scoping, k).clearsSessions;
      if k < i { assert ClearsBefore(tools, round, calls, scoping, i); }
    }
  }

  /** The first i + 1 results are the first i followed by call i's result. */
  lemma RoundResultsStep(tools: Tools, round: nat, calls: seq<ToolCall>, scoping: Scoping, i: nat)
    requires i < |calls|
    ensures RoundResults(tools, round, calls, scoping)[..i + 1]
      == RoundResults(tools, round, calls, scoping)[..i]
         + [ToolResult(calls[i].id, calls[i].name, ResultText(CallRun(tools, round, calls, scoping, i).outcome))]
  {
  }

  /** The round as the loop runs it: each call's result is appended as soon as it is known,
      and a raising tool does not stop the round. */
  method ExecuteRound(tools: Tools, round: nat, calls: seq<ToolCall>, scoping: Scoping, messages: seq<ChatMessage>)
    returns (r: seq<ChatMessage>, cleared: bool)
    ensures r == messages + RoundResults(tools, round, calls, scoping)
    ensures cleared <==> RoundClears(tools, round, calls, scoping)
  {
    r := messages;
    cleared := false;
    var i := 0;
    while i < |calls|
      invariant 0 <= i <= |calls|
      invariant r == messages + RoundResults(tools, round, calls, scoping)[..i]
      invariant cleared <==> ClearsBefore(tools, round, calls, scoping, i)
    {
      var call := calls[i];
      var scope := ScopeFor(scoping, call.name);
      var run := tools(round, i, call, scope);
      assert run == CallRun(tools, round, calls, scoping, i);
      var result := ResultText(run.outcome);
      ClearsBeforeNext(tools, round, calls, scoping, i);
      cleared := cleared || run.clearsSessions;
      RoundResultsStep(tools, round, calls, scoping, i);
      r := AddToolResult(r, call.id, call.name, result);
      i := i + 1;
    }
    assert RoundResults(tools, round, calls, scoping)[..i] == RoundResults(tools, round, calls, scoping);
  }

  // ---------------------------------------------------------------- the loop

  /** How the loop ended; `cleared` records whether some tool call emptied the sessions. */
  datatype LoopOutcome =
    | Finished(final: Option<string>, messages: seq<ChatMessage>, modelCalls: nat, cleared: bool)
    | Crashed(error: string, modelCalls: nat, cleared: bool)

  /** The messages after a tool-call answer: the assistant message with all calls, then
      the round's results. */
  function AfterRound(tools: Tools, round: nat, resp: ChatResponse, scoping: Scoping, messages: seq<ChatMessage>): seq<ChatMessage>
  {
    AddAssistantMessage(messages, resp.content, resp.toolCalls) + RoundResults(tools, round, resp.toolCalls, scoping)
  }

  /** `r` with the clearing done before it added. */
  function AfterClearing(r: LoopOutcome, earlier: bool): LoopOutcome
  {
    r.(cleared := earlier || r.cleared)
  }

  /** The loop from model call `i` on. A timeout ends it with the timeout text, another
      exception escapes, an answer without tool calls ends it with its content, and an
      answer with tool calls runs them and goes round again while the budget lasts. */
  function RunLoop(provider: Provider, tools: Tools, scoping: Scoping, timeoutText: string,
                   maxIterations: nat, i: nat, messages: seq<ChatMessage>): (r: LoopOutcome)
    ensures i <= maxIterations ==> i <= r.modelCalls <= maxIterations
    ensures r.Finished? ==> Extends(messages, r.messages)
    ensures r.cleared ==> exists n: nat, m, k: nat ::
      i <= n < maxIterations && provider(n, m).Responded? && k < |provider(n, m).response.toolCalls|
      && CallRun(tools, n, provider(n, m).response.toolCalls, scoping, k).clearsSessions
    decreases maxIterations - i
  {
    if i >= maxIterations then Finished(None, messages, i, false)
    else match provider(i, messages)
      case TimedOut => Finished(Some(timeoutText), messages, i + 1, false)
      case ProviderRaised(e) => Crashed(e, i + 1, false)
      case Responded(resp) =>
        if resp.toolCalls == [] then Finished(resp.content, messages, i + 1, false)
        else
          var next := AfterRound(tools, i, resp, scoping, messages);
          var r := RunLoop(provider, tools, scoping, timeoutText, maxIterations, i + 1, next);
          assert r.Finished? ==> Extends(messages, r.messages) by {
            if r.Finished? {
              assert Extends(messages, next);
              PrefixTransitive(messages, next, r.messages);
            }
          }
          AfterClearing(r, RoundClears(tools, i, resp.toolCalls, scoping))
  }

  /** `b` starts with `a`: the loop only ever appends to its message list. */
  ghost predicate Extends<T>(a: seq<T>, b: seq<T>)
  {
    |a| <= |b| && b[..|a|] == a
  }

  lemma PrefixTransitive<T>(a: seq<T>, b: seq<T>, c: seq<T>)
    requires Extends(a, b) && Extends(b, c)
    ensures Extends(a, c)
  {
    assert c[..|a|] == c[..|b|][..|a|];
  }

  /** One pass of the loop body at model call `i`: either the loop stops here with the
      returned outcome, or it goes on with the extended messages after a round that may
      have cleared the sessions. */
  method LoopStep(provider: Provider, tools: Tools, scoping: Scoping, timeoutText: string,
                  maxIterations: nat, i: nat, messages: seq<ChatMessage>)
    returns (stop: Option<LoopOutcome>, next: seq<ChatMessage>, roundCleared: bool)
    requires i < maxIterations
    ensures stop.Some? ==> stop.value == RunLoop(provider, tools, scoping, timeoutText, maxIterations, i, messages)
    ensures stop.None? ==>
      RunLoop(provider, tools, scoping, timeoutText, maxIterations, i, messages)
        == AfterClearing(RunLoop(provider, tools, scoping, timeoutText, maxIterations, i + 1, next), roundCleared)
  {
    RunLoopStep(provider, tools, scoping, timeoutText, maxIterations, i, messages);
    var outcome := provider(i, messages);
    if outcome.TimedOut? {
      return Some(Finished(Some(timeoutText), messages, i + 1, false)), messages, false;
    }
    if outcome.ProviderRaised? {
      return Some(Crashed(outcome.error, i + 1, false)), messages, false;
    }
    var resp := outcome.response;
    if resp.toolCalls == [] {
      return Some(Finished(resp.content, messages, i + 1, false)), messages, false;
    }
    next := AddAssistantMessage(messages, resp.content, resp.toolCalls);
    next, roundCleared := ExecuteRound(tools, i, resp.toolCalls, scoping, next);
    assert next == AfterRound(tools, i, resp, scoping, messages);
    stop := None;
  }

  /** The loop as written, with its counter and early exits. */
  method AgentLoop(provider: Provider, tools: Tools, scoping: Scoping, timeoutText: string,
                   maxIterations: nat, initial: seq<ChatMessage>) returns (r: LoopOutcome)
    ensures r == RunLoop(provider, tools, scoping, timeoutText, maxIterations, 0, initial)
  {
    var messages := initial;
    var iteration := 0;
    var cleared := false;
    while iteration < maxIterations
      invariant iteration <= maxIterations
      invariant AfterClearing(RunLoop(provider, tools, scoping, timeoutText, maxIterations, iteration, messages), cleared)
             == RunLoop(provider, tools, scoping, timeoutText, maxIterations, 0, initial)
      decreases maxIterations - iteration
    {
      var stop, next, roundCleared := LoopStep(provider, tools, scoping, timeoutText, maxIterations, iteration, messages);
      if stop.Some? {
        return AfterClearing(stop.value, cleared);
      }
      AfterClearingTwice(RunLoop(provider, tools, scoping, timeoutText, maxIterations, iteration + 1, next),
                         roundCleared, cleared);
      messages := next;
      cleared := cleared || roundCleared;
      iteration := iteration + 1;
    }
    return Finished(None, messages, iteration, cleared);
  }

  lemma AfterClearingTwice(r: LoopOutcome, first: bool, second: bool)
    ensures AfterClearing(AfterClearing(r, first), second) == AfterClearing(r, second || first)
  {
  }

  /** One unfolding of the loop at model call `i`. */
  lemma RunLoopStep(provider: Provider, tools: Tools, scoping: Scoping, timeoutText: string,
                    maxIterations: nat, i: nat, messages: seq<ChatMessage>)
    requires i < maxIterations
    ensures var t := RunLoop(provider, tools, scoping, timeoutText, maxIterations, i, messages);
      var o := provider(i, messages);
      && (o.TimedOut? ==> t == Finished(Some(timeoutText), messages, i + 1, false))
      && (o.ProviderRaised? ==> t == Crashed(o.error, i + 1, false))
      && (o.Responded? && o.response.toolCalls == [] ==> t == Finished(o.response.content, messages, i + 1, false))
      && (o.Responded? && o.response.toolCalls != [] ==>
            t == AfterClearing(RunLoop(provider, tools, scoping, timeoutText, maxIterations, i + 1,
                                       AfterRound(tools, i, o.response, scoping, messages)),
                               RoundClears(tools, i, o.response.toolCalls, scoping)))
  {
  }

  /** When every answer asks for tools, the loop spends the whole budget and ends without
      a final text, so the turn answers with the fallback. */
  lemma {:induction false} AllToolCallsExhaustBudget(provider: Provider, tools: Tools, scoping: Scoping,
                                                     timeoutText: string, maxIterations: nat, i: nat,
                                                     messages: seq<ChatMessage>)
    requires i <= maxIterations
    requires forall n: nat, m :: provider(n, m).Responded? && provider(n, m).response.toolCalls != []
    ensures RunLoop(provider, tools, scoping, timeoutText, maxIterations, i, messages).Finished?
    ensures RunLoop(provider, tools, scoping, timeoutText, maxIterations, i, messages).final.None?
    ensures RunLoop(provider, tools, scoping, timeoutText, maxIterations, i, messages).modelCalls == maxIterations
    decreases maxIterations - i
  {
    if i < maxIterations {
      var resp := provider(i, messages).response;
      AllToolCallsExhaustBudget(provider, tools, scoping, timeoutText, maxIterations, i + 1,
                                AfterRound(tools, i, resp, scoping, messages));
    }
  }

  /** An answer without tool calls ends the loop after that one call, with its content. */
  lemma DirectAnswerEndsLoop(provider: Provider, tools: Tools, scoping: Scoping, timeoutText: string,
                             maxIterations: nat, messages: seq<ChatMessage>, content: Option<string>)
    requires maxIterations > 0
    requires provider(0, messages) == Responded(ChatResponse(content, []))
    ensures RunLoop(provider, tools, scoping, timeoutText, maxIterations, 0, messages) == Finished(content, messages, 1, false)
  {
  }

  /** Tools that never clear leave the loop's clearing flag down. */
  lemma NeverClearsLoop(provider: Provider, tools: Tools, scoping: Scoping, timeoutText: string,
                        maxIterations: nat, i: nat, messages: seq<ChatMessage>)
    requires NeverClears(tools)
    ensures !RunLoop(provider, tools, scoping, timeoutText, maxIterations, i, messages).cleared
  {
  }

  /** A first answer asking for one clearing call, then a direct answer: the loop ends with
      that answer after two model calls, with the clearing flag up. */
  lemma ClearThenAnswer(provider: Provider, tools: Tools, scoping: Scoping, timeoutText: string,
                        maxIterations: nat, messages: seq<ChatMessage>, call: ToolCall, answer: string)
    requires maxIterations >= 2
    requires forall m :: provider(0, m) == Responded(ChatResponse(None, [call]))
    requires forall m :: provider(1, m) == Responded(ChatResponse(Some(answer), []))
    requires tools(0, 0, call, ScopeFor(scoping, call.name)).clearsSessions
    ensures var r := RunLoop(provider, tools, scoping, timeoutText, maxIterations, 0, messages);
      r.Finished? && r.final == Some(answer) && r.cleared
  {
    var next := AfterRound(tools, 0, ChatResponse(None, [call]), scoping, messages);
    assert RunLoop(provider, tools, scoping, timeoutText, maxIterations, 1, next) == Finished(Some(answer), next, 2, false);
    assert CallRun(tools, 0, [call], scoping, 0).clearsSessions;
    assert RoundClears(tools, 0, [call], scoping);
  }

  // ---------------------------------------------------------------- rewriting the text

  function FrameHead(title: string): string
  {
    "SYSTEM: You are commenting on a channel post in '" + title + "'. "
    + "This is a PUBLIC comment visible to all channel subscribers. "
    + "Respond directly to the post as a community member, "
    + "not as an analyst reporting to someone.\n\n"
    + "POST CONTENT:\n"
  }

  const FrameTail := "\n\n" + "Write your public comment below (keep it concise and engaging):"

  /** The text a channel post is replaced with. */
  function Frame(title: string, original: string): string
  {
    FrameHead(title) + original + FrameTail
  }

  /** The framed post can be read back out of the frame. */
  lemma FrameKeepsPost(title: string, original: string)
    ensures var f := Frame(title, original);
      |f| == |FrameHead(title)| + |original| + |FrameTail|
      && f[|FrameHead(title)|..|f| - |FrameTail|] == original
  {
  }

  datatype Text = Text(value: string) | TextRaised(error: string)

  /** `msg.metadata.get("channel_title", "Unknown")` used in a string concatenation. */
  function ChannelTitle(md: Metadata): (r: Text)
    ensures "channel_title" !in md ==> r == Text("Unknown")
    ensures "channel_title" in md && md["channel_title"].JStr? ==> r == Text(md["channel_title"].s)
    ensures r.TextRaised? <==> "channel_title" in md && !md["channel_title"].JStr?
  {
    match Meta(md, "channel_title")
    case None => Text("Unknown")
    case Some(JStr(s)) => Text(s)
    case Some(other) => TextRaised("can only concatenate str (not \"" + TypeName(other) + "\") to str")
  }

  /** The content of the turn: a channel post is replaced by its frame. */
  function TurnContent(msg: InboundMessage): (r: Text)
    ensures !MetaFlag(msg.metadata, "is_channel_post") ==> r == Text(msg.content)
    ensures MetaFlag(msg.metadata, "is_channel_post") && ChannelTitle(msg.metadata).Text? ==>
      r == Text(Frame(ChannelTitle(msg.metadata).value, msg.content))
  {
    if !MetaFlag(msg.metadata, "is_channel_post") then Text(msg.content)
    else match ChannelTitle(msg.metadata)
      case TextRaised(e) => TextRaised(e)
      case Text(title) => Text(Frame(title, msg.content))
  }

  /** `metadata.get("username") or metadata.get("first_name") or "User"`. */
  function SpeakerName(md: Metadata): Json
  {
    if MetaFlag(md, "username") then md["username"]
    else if MetaFlag(md, "first_name") then md["first_name"]
    else JStr("User")
  }

  /** The speaker tag the model sees in group chats. */
  function GroupPrefix(md: Metadata): (r: string)
    ensures !MetaFlag(md, "is_group") ==> r == ""
    ensures MetaFlag(md, "is_group") && MetaFlag(md, "is_admin") ==> r == "[Admin/Owner] "
    ensures MetaFlag(md, "is_group") && !MetaFlag(md, "is_admin") ==>
      r == "[Community member: " + PyStr(SpeakerName(md)) + "] "
  {
    if !MetaFlag(md, "is_group") then ""
    else if MetaFlag(md, "is_admin") then "[Admin/Owner] "
    else "[Community member: " + PyStr(SpeakerName(md)) + "] "
  }

  /** The note added after a YouTube link: the tool's text, which is never an exception. */
  function TranscriptNote(env: Env, content: string): (r: string)
    ensures YouTube.FindLink(content).None? ==> r == ""
    ensures YouTube.FindLink(content).Some? ==>
      r == "\n\n[SYSTEM: Auto-extracted transcript below]\n"
           + YouTube.Execute(env.youtubeInstalled, YouTube.FindLink(content).value, env.transcripts)
  {
    match YouTube.FindLink(content)
    case None => ""
    case Some(link) =>
      "\n\n[SYSTEM: Auto-extracted transcript below]\n" + YouTube.Execute(env.youtubeInstalled, link, env.transcripts)
  }

  /** The text the model is given for a turn whose content is `content`. */
  function ModelText(env: Env, md: Metadata, content: string): string
  {
    GroupPrefix(md) + content + TranscriptNote(env, content)
  }

  // ---------------------------------------------------------------- the reply

  const VoicePhrases: seq<string> := [
    "ответь голосовым", "ответит голосовым", "ответить голосовым", "отправь голосовым",
    "голосом ответь", " голосом", " голосовым", "голосом.", "голосовым.",
    "send voice", "voice message", "голосовое сообщение"]

  /** The reply's metadata: the voice flag when asked for, and a truthy inline request id. */
  function ReplyMetadata(md: Metadata, content: string): (r: Metadata)
    ensures "voice" in r <==> ContainsAny(Lower(content), VoicePhrases)
    ensures "voice" in r ==> r["voice"] == JBool(true)
    ensures "inline_request_id" in r <==> MetaFlag(md, "inline_request_id")
    ensures "inline_request_id" in r ==> r["inline_request_id"] == md["inline_request_id"]
    ensures r.Keys <= {"voice", "inline_request_id"}
  {
    var voice: Metadata := if ContainsAny(Lower(content), VoicePhrases) then map["voice" := JBool(true)] else map[];
    if MetaFlag(md, "inline_request_id") then voice["inline_request_id" := md["inline_request_id"]] else voice
  }

  function FinalText(final: Option<string>, fallback: string): string
  {
    if final.Some? then final.value else fallback
  }

  // ---------------------------------------------------------------- turns

  datatype TurnOutcome = Replied(reply: OutboundMessage) | Failed(error: string)
  datatype Turn = Turn(sessions: Sessions, outcome: TurnOutcome)

  /** The session cache once the loop is over: emptied when a tool call cleared it. */
  function AfterTools(s: Sessions, cleared: bool): Sessions
  {
    if cleared then ClearContext.ClearAll(s) else s
  }

  /** `after` is `before` with one stored turn: the pair (user, answer) was appended to the
      session `key`, and either nothing else changed, or a tool of the turn had emptied every
      session first, so that the pair is all the store still holds. */
  predicate StoresTurn(before: Sessions, after: Sessions, key: string, user: string, answer: string)
  {
    var pair := [Entry("user", user), Entry("assistant", answer)];
    && after.Keys == before.Keys + {key}
    && ((&& after[key] == (if key in before then before[key] else []) + pair
         && forall k :: k in before && k != key ==> after[k] == before[k])
     || (&& after[key] == pair
         && forall k :: k in after && k != key ==> after[k] == []))
  }

  /** Appending the pair after the tools ran is a stored turn. */
  lemma TurnStored(sessions: Sessions, key: string, cleared: bool, user: string, answer: string)
    ensures StoresTurn(sessions, AddTurn(AfterTools(GetOrCreate(sessions, key), cleared), key, user, answer),
                       key, user, answer)
  {
  }

  /** The messages of the first model call of a normal turn. */
  function InitialMessages(env: Env, sessions: Sessions, msg: InboundMessage, content: string): (r: seq<ChatMessage>)
    requires SessionKey(msg.channel, msg.chatId) in sessions
    ensures |r| == |sessions[SessionKey(msg.channel, msg.chatId)]| + 2
    ensures r[0] == System(BuildSystemPrompt(env.workspace))
    ensures r[|r| - 1] == User(BuildUserContent(ModelText(env, msg.metadata, content),
                                                if msg.media == [] then None else Some(msg.media), env.probe))
  {
    BuildMessages(env.workspace, sessions[SessionKey(msg.channel, msg.chatId)],
                  ModelText(env, msg.metadata, content),
                  if msg.media == [] then None else Some(msg.media), env.probe)
  }

  /** The model sees the session's stored entries verbatim and in order, between the system
      prompt and the new user message. */
  lemma InitialMessagesHistory(env: Env, sessions: Sessions, msg: InboundMessage, content: string)
    requires SessionKey(msg.channel, msg.chatId) in sessions
    ensures var r := InitialMessages(env, sessions, msg, content);
      var h := sessions[SessionKey(msg.channel, msg.chatId)];
      forall k :: 0 <= k < |h| ==> r[k + 1] == Stored(h[k])
  {
  }

  /** `_process_message` for a non-system message. */
  function ProcessUserMessage(env: Env, sessions: Sessions, msg: InboundMessage): (r: Turn)
    ensures r.outcome.Replied? ==>
      var key := SessionKey(msg.channel, msg.chatId);
      && TurnContent(msg).Text?
      && r.outcome.reply.channel == msg.channel && r.outcome.reply.chatId == msg.chatId
      && r.outcome.reply.replyTo == Meta(msg.metadata, "message_id")
      && r.outcome.reply.metadata == ReplyMetadata(msg.metadata, TurnContent(msg).value)
      && StoresTurn(sessions, r.sessions, key, TurnContent(msg).value, r.outcome.reply.content)
    ensures r.outcome.Failed? ==>
      var s1 := GetOrCreate(sessions, SessionKey(msg.channel, msg.chatId));
      r.sessions == sessions || r.sessions == s1 || r.sessions == ClearContext.ClearAll(s1)
  {
    match TurnContent(msg)
    case TextRaised(e) => Turn(sessions, Failed(e))
    case Text(content) =>
      var key := SessionKey(msg.channel, msg.chatId);
      var s1 := GetOrCreate(sessions, key);
      var initial := InitialMessages(env, s1, msg, content);
      EndUserTurn(sessions, msg, content,
                  RunLoop(env.provider, env.tools, PerMessage(msg.metadata, msg.senderId), TimeoutReply,
                          env.maxIterations, 0, initial))
  }

  /** The end of a user turn once the loop is over: a crash stores nothing; an answer (or the
      fallback) is stored in the message's session and sent back to its chat. */
  function EndUserTurn(sessions: Sessions, msg: InboundMessage, content: string, loop: LoopOutcome): (r: Turn)
    ensures var key := SessionKey(msg.channel, msg.chatId);
      && (r.outcome.Replied? ==>
        && r.outcome.reply.channel == msg.channel && r.outcome.reply.chatId == msg.chatId
        && r.outcome.reply.replyTo == Meta(msg.metadata, "message_id")
        && r.outcome.reply.metadata == ReplyMetadata(msg.metadata, content)
        && StoresTurn(sessions, r.sessions, key, content, r.outcome.reply.content))
      && (r.outcome.Failed? ==>
        r.sessions == GetOrCreate(sessions, key) || r.sessions == ClearContext.ClearAll(GetOrCreate(sessions, key)))
  {
    var key := SessionKey(msg.channel, msg.chatId);
    var s1 := GetOrCreate(sessions, key);
    match loop
    case Crashed(e, _, cleared) => Turn(AfterTools(s1, cleared), Failed(e))
    case Finished(final, _, _, cleared) =>
      var answer := FinalText(final, FallbackReply);
      TurnStored(sessions, key, cleared, content, answer);
      Turn(AddTurn(AfterTools(s1, cleared), key, content, answer),
           Replied(Outbound(msg.channel, msg.chatId, answer, Meta(msg.metadata, "message_id"),
                            ReplyMetadata(msg.metadata, content))))
  }

  /** The origin of a system message: "channel:chat" split at the first ':', else ("cli", id). */
  function Origin(chatId: string): (r: (string, string))
    ensures ':' !in chatId ==> r == ("cli", chatId)
    ensures ':' in chatId ==> r.0 + ":" + r.1 == chatId && ':' !in r.0
  {
    match Find(chatId, ":", 0)
    case None =>
      assert forall k: nat :: k < |chatId| ==> !OccursAt(chatId, ":", k);
      assert ':' !in chatId by {
        if ':' in chatId {
          var k :| 0 <= k < |chatId| && chatId[k] == ':';
          assert chatId[k..k + 1] == ":";
          assert OccursAt(chatId, ":", k);
        }
      }
      ("cli", chatId)
    case Some(i) =>
      assert chatId[i] == ':' by { assert chatId[i..i + 1] == ":"; }
      assert ':' !in chatId[..i] by {
        forall k | 0 <= k < i ensures chatId[..i][k] != ':' {
          if chatId[k] == ':' { assert chatId[k..k + 1] == ":"; assert OccursAt(chatId, ":", k); }
        }
      }
      assert chatId == chatId[..i] + ":" + chatId[i + 1..];
      (chatId[..i], chatId[i + 1..])
  }

  /** A routed system message uses its own chat id as the session key. */
  lemma RoutedSessionKey(chatId: string)
    requires ':' in chatId
    ensures SessionKey(Origin(chatId).0, Origin(chatId).1) == chatId
  {
  }

  /** `_process_system_message`. */
  function ProcessSystemMessage(env: Env, sessions: Sessions, msg: InboundMessage): (r: Turn)
    ensures var (ch, chat) := Origin(msg.chatId);
      var key := SessionKey(ch, chat);
      && (r.outcome.Replied? ==>
        && r.outcome.reply == Outbound(ch, chat, r.outcome.reply.content, None, map[])
        && StoresTurn(sessions, r.sessions, key, "[System: " + msg.senderId + "] " + msg.content,
                      r.outcome.reply.content))
      && (r.outcome.Failed? ==>
        r.sessions == GetOrCreate(sessions, key) || r.sessions == ClearContext.ClearAll(GetOrCreate(sessions, key)))
  {
    var (ch, chat) := Origin(msg.chatId);
    var key := SessionKey(ch, chat);
    var s1 := GetOrCreate(sessions, key);
    var initial := BuildMessages(env.workspace, s1[key], msg.content, None, env.probe);
    match RunLoop(env.provider, env.tools, Unscoped, SystemTimeoutReply, env.maxIterations, 0, initial)
    case Crashed(e, _, cleared) => Turn(AfterTools(s1, cleared), Failed(e))
    case Finished(final, _, _, cleared) =>
      var answer := FinalText(final, SystemFallbackReply);
      TurnStored(sessions, key, cleared, "[System: " + msg.senderId + "] " + msg.content, answer);
      Turn(AddTurn(AfterTools(s1, cleared), key, "[System: " + msg.senderId + "] " + msg.content, answer),
           Replied(Outbound(ch, chat, answer, None, map[])))
  }

  /** `_process_message`: system messages are routed to their origin. */
  function ProcessMessage(env: Env, sessions: Sessions, msg: InboundMessage): Turn
  {
    if msg.channel == "system" then ProcessSystemMessage(env, sessions, msg)
    else ProcessUserMessage(env, sessions, msg)
  }

  /** One step of `run`: exactly one outbound message per inbound one; an exception becomes
      an apology to the message's own channel and chat. */
  function Handle(env: Env, sessions: Sessions, msg: InboundMessage): (r: (Sessions, OutboundMessage))
    ensures ProcessMessage(env, sessions, msg).outcome.Replied? ==>
      r.1 == ProcessMessage(env, sessions, msg).outcome.reply
    ensures ProcessMessage(env, sessions, msg).outcome.Failed? ==>
      r.1 == Outbound(msg.channel, msg.chatId,
                      "Sorry, I encountered an error: " + ProcessMessage(env, sessions, msg).outcome.error, None, map[])
    ensures msg.channel != "system" ==> r.1.channel == msg.channel && r.1.chatId == msg.chatId
    ensures r.0 == ProcessMessage(env, sessions, msg).sessions
  {
    var t := ProcessMessage(env, sessions, msg);
    match t.outcome
    case Replied(out) => (t.sessions, out)
    case Failed(e) => (t.sessions, Outbound(msg.channel, msg.chatId, "Sorry, I encountered an error: " + e, None, map[]))
  }

  /** A handler of one inbound message: the cache after it and the reply. */
  type Handler = (Sessions, InboundMessage) -> (Sessions, OutboundMessage)

  /** The session cache after handling the messages one after the other. */
  function SessionsAfter(step: Handler, sessions: Sessions, queue: seq<InboundMessage>): Sessions
    decreases |queue|
  {
    if queue == [] then sessions else SessionsAfter(step, step(sessions, queue[0]).0, queue[1..])
  }

  /** The consume loop of `run` with any handler: one reply per message, in order. */
  function Drive(step: Handler, sessions: Sessions, queue: seq<InboundMessage>): (r: (Sessions, seq<OutboundMessage>))
    ensures |r.1| == |queue|
    ensures r.0 == SessionsAfter(step, sessions, queue)
    decreases |queue|
  {
    if queue == [] then (sessions, [])
    else
      var first := step(sessions, queue[0]);
      var rest := Drive(step, first.0, queue[1..]);
      (rest.0, [first.1] + rest.1)
  }

  /** The k-th reply is the one the k-th message gets in the cache the earlier messages
      left. */
  lemma {:induction false} DriveInOrder(step: Handler, sessions: Sessions, queue: seq<InboundMessage>, k: nat)
    requires k < |queue|
    ensures Drive(step, sessions, queue).1[k] == step(SessionsAfter(step, sessions, queue[..k]), queue[k]).1
    decreases k
  {
    var first := step(sessions, queue[0]);
    if k == 0 {
      assert queue[..k] == [];
    } else {
      DriveInOrder(step, first.0, queue[1..], k - 1);
      assert queue[..k][0] == queue[0] && queue[..k][1..] == queue[1..][..k - 1];
      assert queue[k] == queue[1..][k - 1];
    }
  }

  function HandleStep(env: Env): Handler
  {
    (s: Sessions, m: InboundMessage) => Handle(env, s, m)
  }

  /** `run` over a queue: the inbound messages are handled in order, one reply each, and the
      cache ends as they all leave it. */
  function RunAll(env: Env, sessions: Sessions, queue: seq<InboundMessage>): (r: (Sessions, seq<OutboundMessage>))
    ensures |r.1| == |queue|
    ensures r.0 == SessionsAfter(HandleStep(env), sessions, queue)
  {
    Drive(HandleStep(env), sessions, queue)
  }

  /** The k-th reply of `run` is what `Handle` gives the k-th message in the cache the
      earlier messages left, so it goes back to that message's own chat. */
  lemma RunAllInOrder(env: Env, sessions: Sessions, queue: seq<InboundMessage>, k: nat)
    requires k < |queue|
    ensures var before := SessionsAfter(HandleStep(env), sessions, queue[..k]);
      RunAll(env, sessions, queue).1[k] == Handle(env, before, queue[k]).1
    ensures queue[k].channel != "system" ==>
      RunAll(env, sessions, queue).1[k].channel == queue[k].channel
      && RunAll(env, sessions, queue).1[k].chatId == queue[k].chatId
  {
    DriveInOrder(HandleStep(env), sessions, queue, k);
  }

  datatype DirectResult = DirectReply(text: string) | DirectRaised(error: string)

  /** `process_direct`: the message cli/user/direct is processed; the session key argument
      is not used, so the turn always lands in "cli:direct". */
  function ProcessDirect(env: Env, sessions: Sessions, content: string, sessionKey: string): (r: (Sessions, DirectResult))
    ensures r.0.Keys == sessions.Keys + {"cli:direct"}
    ensures r.1.DirectReply? ==> StoresTurn(sessions, r.0, "cli:direct", content, r.1.text)
  {
    var msg := Inbound("cli", "user", "direct", content, [], map[]);
    assert SessionKey("cli", "direct") == "cli:direct";
    var t := ProcessUserMessage(env, sessions, msg);
    match t.outcome
    case Replied(out) => (t.sessions, DirectReply(out.content))
    case Failed(e) => (t.sessions, DirectRaised(e))
  }

  // ---------------------------------------------------------------- properties of a turn

  /** A timeout on the first model call still answers and stores the turn. */
  lemma TimeoutStillAnswers(env: Env, sessions: Sessions, msg: InboundMessage)
    requires msg.channel != "system" && !MetaFlag(msg.metadata, "is_channel_post")
    requires env.maxIterations > 0
    requires forall m :: env.provider(0, m) == TimedOut
    ensures var t := ProcessMessage(env, sessions, msg);
      var key := SessionKey(msg.channel, msg.chatId);
      && t.outcome == Replied(Outbound(msg.channel, msg.chatId, TimeoutReply,
                                        Meta(msg.metadata, "message_id"), ReplyMetadata(msg.metadata, msg.content)))
      && t.sessions[key] == (if key in sessions then sessions[key] else [])
           + [Entry("user", msg.content), Entry("assistant", TimeoutReply)]
  {
  }

  /** When every answer asks for tools, the reply is the fallback text. */
  lemma EndlessToolsGiveFallback(env: Env, sessions: Sessions, msg: InboundMessage)
    requires msg.channel != "system" && !MetaFlag(msg.metadata, "is_channel_post")
    requires forall n: nat, m :: env.provider(n, m).Responded? && env.provider(n, m).response.toolCalls != []
    ensures ProcessMessage(env, sessions, msg).outcome.Replied?
    ensures ProcessMessage(env, sessions, msg).outcome.reply.content == FallbackReply
  {
    var key := SessionKey(msg.channel, msg.chatId);
    var s1 := GetOrCreate(sessions, key);
    AllToolCallsExhaustBudget(env.provider, env.tools, PerMessage(msg.metadata, msg.senderId), TimeoutReply,
                              env.maxIterations, 0, InitialMessages(env, s1, msg, msg.content));
  }

  /** In a group, the model sees the speaker tag but the history stores the bare text. */
  lemma GroupTagNotStored(env: Env, sessions: Sessions, msg: InboundMessage)
    requires msg.channel != "system" && !MetaFlag(msg.metadata, "is_channel_post")
    requires MetaFlag(msg.metadata, "is_group") && MetaFlag(msg.metadata, "is_admin")
    requires ProcessMessage(env, sessions, msg).outcome.Replied?
    ensures var s1 := GetOrCreate(sessions, SessionKey(msg.channel, msg.chatId));
      var m := InitialMessages(env, s1, msg, msg.content);
      m[|m| - 1] == User(BuildUserContent("[Admin/Owner] " + msg.content + TranscriptNote(env, msg.content),
                                          if msg.media == [] then None else Some(msg.media), env.probe))
    ensures var key := SessionKey(msg.channel, msg.chatId);
      var h := ProcessMessage(env, sessions, msg).sessions[key];
      h[|h| - 2] == Entry("user", msg.content)
  {
  }

  /** No tool call ever empties the sessions. */
  ghost predicate NeverClears(tools: Tools)
  {
    forall n: nat, k: nat, c: ToolCall, sc: ToolScope :: !tools(n, k, c, sc).clearsSessions
  }

  /** Without a clearing tool call, a turn changes its own session only: it gains exactly
      the pair, and a failed turn stores nothing. */
  lemma TurnWithoutClearingKeepsOtherSessions(env: Env, sessions: Sessions, msg: InboundMessage)
    requires msg.channel != "system"
    requires NeverClears(env.tools)
    ensures var t := ProcessMessage(env, sessions, msg);
      var key := SessionKey(msg.channel, msg.chatId);
      && (t.outcome.Replied? ==>
        && t.sessions[key] == (if key in sessions then sessions[key] else [])
             + [Entry("user", TurnContent(msg).value), Entry("assistant", t.outcome.reply.content)]
        && forall k :: k in sessions && k != key ==> t.sessions[k] == sessions[k])
      && (t.outcome.Failed? ==> t.sessions == sessions || t.sessions == GetOrCreate(sessions, key))
  {
    if TurnContent(msg).Text? {
      var key := SessionKey(msg.channel, msg.chatId);
      var s1 := GetOrCreate(sessions, key);
      NeverClearsLoop(env.provider, env.tools, PerMessage(msg.metadata, msg.senderId), TimeoutReply,
                      env.maxIterations, 0, InitialMessages(env, s1, msg, TurnContent(msg).value));
    }
  }

  /** An admin turn whose one tool call clears the context: the pair is stored, but every
      other chat's history is now empty and the caller's own earlier history is gone. */
  lemma ClearingTurnEmptiesOtherChats(env: Env, sessions: Sessions, msg: InboundMessage, call: ToolCall, answer: string)
    requires msg.channel != "system" && !MetaFlag(msg.metadata, "is_channel_post")
    requires env.maxIterations >= 2
    requires forall m :: env.provider(0, m) == Responded(ChatResponse(None, [call]))
    requires forall m :: env.provider(1, m) == Responded(ChatResponse(Some(answer), []))
    requires env.tools(0, 0, call, ScopeFor(PerMessage(msg.metadata, msg.senderId), call.name)).clearsSessions
    ensures var t := ProcessMessage(env, sessions, msg);
      var key := SessionKey(msg.channel, msg.chatId);
      && t.outcome.Replied? && t.outcome.reply.content == answer
      && t.sessions[key] == [Entry("user", msg.content), Entry("assistant", answer)]
      && forall k :: k in sessions && k != key ==> t.sessions[k] == []
  {
    var key := SessionKey(msg.channel, msg.chatId);
    var s1 := GetOrCreate(sessions, key);
    var loop := RunLoop(env.provider, env.tools, PerMessage(msg.metadata, msg.senderId), TimeoutReply,
                        env.maxIterations, 0, InitialMessages(env, s1, msg, msg.content));
    ClearThenAnswer(env.provider, env.tools, PerMessage(msg.metadata, msg.senderId), TimeoutReply, env.maxIterations,
                    InitialMessages(env, s1, msg, msg.content), call, answer);
    assert ProcessMessage(env, sessions, msg).sessions == AddTurn(AfterTools(s1, true), key, msg.content, answer);
    ClearedTurnStore(sessions, key, msg.content, answer);
  }

  /** After a clearing turn, the turn's session holds the pair and every other one is empty. */
  lemma ClearedTurnStore(sessions: Sessions, key: string, user: string, answer: string)
    ensures var after := AddTurn(AfterTools(GetOrCreate(sessions, key), true), key, user, answer);
      && after[key] == [Entry("user", user), Entry("assistant", answer)]
      && forall k :: k in sessions && k != key ==> after[k] == []
  {
  }
}

=== FILE: channel_history.dfy ===
/** The `read_channel_history` tool: where a chat's history file lives, which stored posts
    survive decoding and the search filter, which window of them is shown, and how each is
    printed. A decoded post is a JSON value; the file is its lines plus a decoder. */
module ChannelHistory {
  import opened Strings
  import opened Json

  // ---------------------------------------------------------------- the history file

  const DefaultHistoryFile := "channel_history.jsonl"
  const HistoriesDir := "channel_histories/"

  /** The chat id as used in a file name: '-' becomes "neg", then '|' becomes '_'. */
  function SafeChatId(chatId: string): (r: string)
    ensures '-' !in r && '|' !in r
  {
    var s := ReplaceChar(chatId, '-', "neg");
    ReplaceCharFree(chatId, '-', "neg", '-');
    ReplaceCharFree(s, '|', "_", '-');
    ReplaceCharFree(s, '|', "_", '|');
    ReplaceChar(s, '|', "_")
  }

  /** The history file of the current chat, relative to the workspace; without a chat id
      (never set, or empty) the shared default file. */
  function HistoryFile(chatId: Option<string>): (r: string)
    ensures chatId.None? || chatId.value == "" ==> r == DefaultHistoryFile
    ensures chatId.Some? && chatId.value != "" ==>
      IsPrefix(HistoriesDir + "chat_", r) && '-' !in r[|HistoriesDir|..] && '|' !in r
  {
    if chatId.None? || chatId.value == "" then DefaultHistoryFile
    else
      ChatFileShape(SafeChatId(chatId.value));
      HistoriesDir + "chat_" + SafeChatId(chatId.value) + ".jsonl"
  }

  /** A per-chat file name keeps the directory and prefix, and a safe id adds no '-' or '|'. */
  lemma ChatFileShape(safe: string)
    requires '-' !in safe && '|' !in safe
    ensures var r := HistoriesDir + "chat_" + safe + ".jsonl";
      IsPrefix(HistoriesDir + "chat_", r) && '-' !in r[|HistoriesDir|..] && '|' !in r
  {
    var r := HistoriesDir + "chat_" + safe + ".jsonl";
    assert r == (HistoriesDir + "chat_") + (safe + ".jsonl");
    assert r[|HistoriesDir|..] == "chat_" + safe + ".jsonl";
    assert '-' !in "chat_" && '-' !in ".jsonl";
    assert '|' !in HistoriesDir && '|' !in "chat_" && '|' !in ".jsonl";
  }

  lemma {:induction false} ReplaceCharAbsent(s: string, c: char, r: string)
    requires c !in s
    ensures ReplaceChar(s, c, r) == s
    decreases |s|
  {
    if s != [] {
      assert s[1..] == s[1..] && c !in s[1..] by {
        forall x | x in s[1..] ensures x != c { assert x in s; }
      }
      ReplaceCharAbsent(s[1..], c, r);
    }
  }

  lemma DigitsAreSafe(d: string)
    requires forall k :: 0 <= k < |d| ==> IsDigit(d[k])
    ensures SafeChatId(d) == d
  {
    assert '-' !in d && '|' !in d by {
      forall x | x in d ensures x != '-' && x != '|' {
        var k :| 0 <= k < |d| && d[k] == x;
        assert IsDigit(d[k]);
      }
    }
    ReplaceCharAbsent(d, '-', "neg");
    ReplaceCharAbsent(d, '|', "_");
  }

  /** A Telegram chat id (an integer) gives "neg" and its digits when negative, else its digits. */
  lemma SafeNumericId(i: int)
    ensures SafeChatId(IntToString(i)) == (if i < 0 then "neg" else "") + NatToString(if i < 0 then -i else i)
  {
    var d := NatToString(if i < 0 then -i else i);
    if i < 0 {
      ReplaceCharConcat("-", d, '-', "neg");
      assert ReplaceChar("-", '-', "neg") == "neg";
      ReplaceCharAbsent(d, '-', "neg") by {
        forall x | x in d ensures x != '-' { var k :| 0 <= k < |d| && d[k] == x; assert IsDigit(d[k]); }
      }
      var s := "neg" + d;
      assert '|' !in s by {
        forall x | x in s ensures x != '|' {
          var k :| 0 <= k < |s| && s[k] == x;
          if k >= 3 { assert s[k] == d[k - 3]; assert IsDigit(d[k - 3]); }
        }
      }
      ReplaceCharAbsent(s, '|', "_");
    } else {
      DigitsAreSafe(d);
    }
  }

  predicate AllDigits(s: string)
  {
    forall k :: 0 <= k < |s| ==> IsDigit(s[k])
  }

  /** Reads a Telegram chat id back from its file-name form. */
  function ChatIdOfSafe(s: string): int
  {
    if |s| >= 3 && s[..3] == "neg" && AllDigits(s[3..]) then -(ParseNat(s[3..]) as int)
    else if AllDigits(s) then ParseNat(s)
    else 0
  }

  /** The file-name form of a Telegram chat id determines the chat id. */
  lemma SafeNumericIdRoundTrip(i: int)
    ensures ChatIdOfSafe(SafeChatId(IntToString(i))) == i
  {
    SafeNumericId(i);
    var m: nat := if i < 0 then -i else i;
    var d := NatToString(m);
    ParseNatToString(m);
    assert AllDigits(d);
    if i < 0 {
      var s := "neg" + d;
      assert SafeChatId(IntToString(i)) == s;
      assert s[..3] == "neg" && s[3..] == d;
      assert ChatIdOfSafe(s) == -(ParseNat(d) as int);
    } else {
      assert "" + d == d;
      assert SafeChatId(IntToString(i)) == d;
      assert |d| >= 3 ==> d[..3] != "neg" by {
        if |d| >= 3 { assert IsDigit(d[0]) && d[..3][0] == d[0]; }
      }
      assert ChatIdOfSafe(d) == ParseNat(d);
    }
  }

  /** Two different Telegram chats never share a history file. */
  lemma DistinctChatsDistinctFiles(i: int, j: int)
    requires i != j
    ensures HistoryFile(Some(IntToString(i))) != HistoryFile(Some(IntToString(j)))
  {
    SafeNumericIdRoundTrip(i);
    SafeNumericIdRoundTrip(j);
    var a := SafeChatId(IntToString(i));
    var b := SafeChatId(IntToString(j));
    assert IntToString(i) != "" && IntToString(j) != "";
    var pre := HistoriesDir + "chat_";
    var fi := pre + a + ".jsonl";
    var fj := pre + b + ".jsonl";
    assert a != b;
    assert fi[|pre|..|fi| - 6] == a && fj[|pre|..|fj| - 6] == b;
  }

  // ---------------------------------------------------------------- reading posts

  datatype History = Missing | Present(lines: seq<string>)

  /** A line that yields a post: not blank, and decodable. */
  predicate Kept(line: string, decode: string -> Option<Json>)
  {
    Strip(line) != "" && decode(line).Some?
  }

  /** The posts of a history file: blank lines and lines that do not decode are skipped. */
  function ReadPosts(lines: seq<string>, decode: string -> Option<Json>): (r: seq<Json>)
    ensures |r| <= |lines|
    ensures |r| == |lines| <==> forall i :: 0 <= i < |lines| ==> Kept(lines[i], decode)
  {
    if lines == [] then []
    else
      var rest := ReadPosts(lines[1..], decode);
      AllKeptCons(lines, decode);
      if Kept(lines[0], decode) then [decode(lines[0]).value] + rest else rest
  }

  /** Every line is kept exactly when the first one is and every later one is. */
  lemma AllKeptCons(lines: seq<string>, decode: string -> Option<Json>)
    requires lines != []
    ensures (forall i :: 0 <= i < |lines| ==> Kept(lines[i], decode))
        <==> Kept(lines[0], decode) && forall i :: 0 <= i < |lines[1..]| ==> Kept(lines[1..][i], decode)
  {
    if forall i :: 0 <= i < |lines[1..]| ==> Kept(lines[1..][i], decode) {
      forall i | 1 <= i < |lines| ensures Kept(lines[i], decode) { assert lines[i] == lines[1..][i - 1]; }
    }
  }

  /** Reading keeps the order of the file: the posts of two stretches of lines are the
      posts of the first followed by the posts of the second. */
  lemma {:induction false} ReadPostsConcat(a: seq<string>, b: seq<string>, decode: string -> Option<Json>)
    ensures ReadPosts(a + b, decode) == ReadPosts(a, decode) + ReadPosts(b, decode)
    decreases |a|
  {
    if a != [] {
      assert (a + b)[1..] == a[1..] + b;
      assert (a + b)[0] == a[0];
      ReadPostsConcat(a[1..], b, decode);
      var first: seq<Json> := if Kept(a[0], decode) then [decode(a[0]).value] else [];
      AppendAssoc(first, ReadPosts(a[1..], decode), ReadPosts(b, decode));
    } else {
      assert a + b == b;
    }
  }

  // ---------------------------------------------------------------- search

  /** `p.get("content", "").lower()`, which raises on a non-dict post or non-string content. */
  function ContentLower(p: Json): (r: Result<string>)
    ensures r.Ok? <==> p.JObj? && GetOr(p, "content", JStr("")).JStr?
    ensures r.Ok? ==> r.value == Lower(GetOr(p, "content", JStr("")).s)
  {
    match DictGet(p, "content", JStr(""))
    case Raised(e) => Raised(e)
    case Ok(JStr(s)) => Ok(Lower(s))
    case Ok(c) => Raised("'" + TypeName(c) + "' object has no attribute 'lower'")
  }

  predicate Matches(p: Json, term: string)
  {
    ContentLower(p).Ok? && Contains(ContentLower(p).value, Lower(term))
  }

  /** The posts whose lowercased content contains the lowercased term, in order. */
  function Filter(posts: seq<Json>, term: string): (r: seq<Json>)
    ensures forall k :: 0 <= k < |r| ==> r[k] in posts && Matches(r[k], term)
    ensures forall k :: 0 <= k < |posts| && Matches(posts[k], term) ==> posts[k] in r
  {
    if posts == [] then []
    else
      assert forall k :: 1 <= k < |posts| ==> posts[k] == posts[1..][k - 1];
      (if Matches(posts[0], term) then [posts[0]] else []) + Filter(posts[1..], term)
  }

  /** The error of the first post whose content cannot be lowercased. */
  function FirstUnreadable(posts: seq<Json>): (r: Option<string>)
    ensures r.None? <==> forall k :: 0 <= k < |posts| ==> ContentLower(posts[k]).Ok?
  {
    if posts == [] then None
    else if ContentLower(posts[0]).Raised? then Some(ContentLower(posts[0]).error)
    else
      assert forall k :: 1 <= k < |posts| ==> posts[k] == posts[1..][k - 1];
      FirstUnreadable(posts[1..])
  }

  /** The search as the tool runs it: the comprehension raises at the first post it cannot
      read, and otherwise keeps the matching posts. */
  function Search(posts: seq<Json>, term: string): (r: Result<seq<Json>>)
    ensures r.Ok? <==> forall k :: 0 <= k < |posts| ==> ContentLower(posts[k]).Ok?
    ensures r.Ok? ==> r.value == Filter(posts, term)
  {
    match FirstUnreadable(posts)
    case Some(e) => Raised(e)
    case None => Ok(Filter(posts, term))
  }

  /** The filter keeps the posts' order: filtering two stretches of posts is filtering
      each in turn. */
  lemma {:induction false} FilterConcat(a: seq<Json>, b: seq<Json>, term: string)
    ensures Filter(a + b, term) == Filter(a, term) + Filter(b, term)
    decreases |a|
  {
    if a != [] {
      assert (a + b)[0] == a[0] && (a + b)[1..] == a[1..] + b;
      FilterConcat(a[1..], b, term);
      var h: seq<Json> := if Matches(a[0], term) then [a[0]] else [];
      assert (h + Filter(a[1..], term)) + Filter(b, term) == h + (Filter(a[1..], term) + Filter(b, term));
    } else {
      assert a + b == b;
    }
  }

  /** When no post matches, the search finds nothing. */
  lemma {:induction false} FilterNothing(posts: seq<Json>, term: string)
    requires forall p :: p in posts ==> !Matches(p, term)
    ensures Filter(posts, term) == []
    decreases |posts|
  {
    if posts != [] {
      assert posts[0] in posts;
      assert forall p :: p in posts[1..] ==> p in posts;
      FilterNothing(posts[1..], term);
    }
  }

  // ---------------------------------------------------------------- the window

  /** Where Python's `s[start:]` begins for a sequence of length n. */
  function SliceStart(start: int, n: nat): (r: nat)
    ensures r <= n
  {
    if start < 0 then (if n + start < 0 then 0 else n + start)
    else if start > n then n else start
  }

  /** `posts[-min(limit, len(posts)):]`. */
  function Window(posts: seq<Json>, limit: int): (r: seq<Json>)
    ensures |r| <= |posts| && r == posts[|posts| - |r|..]
  {
    posts[SliceStart(-Min(limit, |posts|), |posts|)..]
  }

  /** With a positive limit the window is the last min(limit, n) posts, in file order. */
  lemma WindowIsLastPosts(posts: seq<Json>, limit: int)
    requires limit >= 1
    ensures |Window(posts, limit)| == Min(limit, |posts|)
    ensures Window(posts, limit) == posts[|posts| - Min(limit, |posts|)..]
  {
  }

  /** A zero limit slices from `-0`, that is from the start: every post is shown. */
  lemma WindowZeroShowsAll(posts: seq<Json>)
    ensures Window(posts, 0) == posts
  {
  }

  /** A negative limit drops the first -limit posts instead. */
  lemma WindowNegativeDropsFirst(posts: seq<Json>, limit: int)
    requires limit < 0
    ensures Window(posts, limit) == posts[Min(-limit, |posts|)..]
  {
  }

  /** How many posts the window shows out of n. */
  function Shown(limit: int, n: nat): nat
  {
    if limit >= 1 then Min(limit, n) else if limit == 0 then n else n - Min(-limit, n)
  }

  lemma WindowSize(posts: seq<Json>, limit: int)
    ensures |Window(posts, limit)| == Shown(limit, |posts|)
  {
  }

  // ---------------------------------------------------------------- printing

  const ContentLimit := 300
  const TruncatedMark := "*(truncated)*"

  /** `content[:300]` as printed, and whether the content is longer than 300. */
  function Preview(c: Json): (r: Result<(string, bool)>)
    ensures r.Ok? <==> c.JStr? || c.JArr?
    ensures c.JStr? ==> r == Ok((Take(c.s, ContentLimit), |c.s| > ContentLimit))
    ensures c.JArr? ==> r.value.1 == (|c.items| > ContentLimit)
  {
    match c
    case JStr(s) => Ok((Take(s, ContentLimit), |s| > ContentLimit))
    case JArr(items) =>
      Ok((PyStr(JArr(if |items| <= ContentLimit then items else items[..ContentLimit])), |items| > ContentLimit))
    case JObj(_) => Raised("unhashable type: 'slice'")
    case _ => Raised("'" + TypeName(c) + "' object is not subscriptable")
  }

  /** The lines printed for one post. */
  function PostLines(p: Json): (r: Result<seq<string>>)
    ensures r.Ok? <==> p.JObj? && Preview(GetOr(p, "content", JStr(""))).Ok?
    ensures r.Ok? ==>
      var (text, cut) := Preview(GetOr(p, "content", JStr(""))).value;
      && |r.value| == (if cut then 5 else 4)
      && r.value[2] == "**Content**: " + text
      && (TruncatedMark in r.value <==> cut)
      && r.value[|r.value| - 1] == ""
  {
    if !p.JObj? then Raised("'" + TypeName(p) + "' object has no attribute 'get'")
    else match Preview(GetOr(p, "content", JStr("")))
      case Raised(e) => Raised(e)
      case Ok((text, cut)) =>
        Ok(Card(PyStr(GetOr(p, "id", JStr("?"))), PyStr(GetOr(p, "date", JStr("Unknown"))),
                PyStr(GetOr(p, "from", JStr("Unknown"))), text, cut))
  }

  /** The header, author, content, optional truncation mark and blank line of one post. */
  function Card(id: string, date: string, from: string, text: string, cut: bool): (r: seq<string>)
    ensures |r| == (if cut then 5 else 4)
    ensures r[2] == "**Content**: " + text
    ensures TruncatedMark in r <==> cut
    ensures r[|r| - 1] == ""
  {
    var r := ["### Post #" + id + " (" + date + ")", "**From**: " + from, "**Content**: " + text]
             + (if cut then [TruncatedMark] else []) + [""];
    assert TruncatedMark != r[0] by { assert r[0][0] == '#' && TruncatedMark[0] == '*'; }
    assert TruncatedMark != r[1] by { assert r[1][1] == '*' && TruncatedMark[1] == '('; }
    assert TruncatedMark != r[2] by { assert r[2][1] == '*' && TruncatedMark[1] == '('; }
    r
  }

  /** The lines of all posts, in order; the first post that cannot be printed raises. */
  function PrintPosts(posts: seq<Json>): (r: Result<seq<string>>)
    ensures r.Ok? <==> forall k :: 0 <= k < |posts| ==> PostLines(posts[k]).Ok?
  {
    if posts == [] then Ok([])
    else match PostLines(posts[0])
      case Raised(e) => Raised(e)
      case Ok(lines) =>
        match PrintPosts(posts[1..])
        case Raised(e) =>
          assert !(forall k :: 0 <= k < |posts| ==> PostLines(posts[k]).Ok?) by {
            var k :| 0 <= k < |posts[1..]| && !PostLines(posts[1..][k]).Ok?;
            assert posts[k + 1] == posts[1..][k];
          }
          Raised(e)
        case Ok(rest) =>
          assert forall k :: 0 <= k < |posts| ==> PostLines(posts[k]).Ok? by {
            forall k | 0 <= k < |posts| ensures PostLines(posts[k]).Ok? {
              if k > 0 { assert posts[k] == posts[1..][k - 1]; }
            }
          }
          Ok(lines + rest)
  }

  function Header(shown: nat, total: nat): string
  {
    "## Recent Channel Posts (" + NatToString(shown) + " of " + NatToString(total) + " total)"
  }

  const ErrorPrefix := "Error reading channel history: "

  /** A post the tool can print: a dict whose content is a string. */
  predicate Readable(p: Json)
  {
    p.JObj? && GetOr(p, "content", JStr("")).JStr?
  }

  /** The listing of a filtered, non-empty set of posts: a header counting the window and
      all posts, a blank line, then each post of the window. */
  function Report(found: seq<Json>, limit: int): string
  {
    var recent := Window(found, limit);
    match PrintPosts(recent)
    case Raised(e) => ErrorPrefix + e
    case Ok(body) => Join([Header(|recent|, |found|), ""] + body, "\n")
  }

  /** Everything after reading the file: the optional search, then the listing. */
  function Listing(posts: seq<Json>, limit: int, search: Option<string>): string
    requires posts != []
  {
    var filtered := if search.Some? && search.value != "" then Search(posts, search.value) else Ok(posts);
    match filtered
    case Raised(e) => ErrorPrefix + e
    case Ok(found) =>
      if found == [] then "No posts found matching '" + search.value + "'."
      else Report(found, limit)
  }

  /** `execute(limit, search)` for the chat `chatId`; every failure becomes an error text. */
  function Execute(chatId: Option<string>, history: History, decode: string -> Option<Json>,
                   limit: int, search: Option<string>): (r: string)
    ensures history.Missing? ==>
      r == "No channel history available yet" + (if chatId.Some? && chatId.value != "" then " for this chat" else "")
           + ". History is built as posts are received."
    ensures history.Present? && ReadPosts(history.lines, decode) == [] ==> r == "No posts found in channel history."
    ensures history.Present? && ReadPosts(history.lines, decode) != [] ==>
      r == Listing(ReadPosts(history.lines, decode), limit, search)
  {
    match history
    case Missing =>
      "No channel history available yet" + (if chatId.Some? && chatId.value != "" then " for this chat" else "")
      + ". History is built as posts are received."
    case Present(lines) =>
      var posts := ReadPosts(lines, decode);
      if posts == [] then "No posts found in channel history."
      else Listing(posts, limit, search)
  }

  /** Readable posts are listed under a header that counts the shown window and all posts. */
  lemma ReadableReportHasHeader(found: seq<Json>, limit: int)
    requires forall p :: p in found ==> Readable(p)
    ensures IsPrefix(Header(Shown(limit, |found|), |found|), Report(found, limit))
  {
    var recent := Window(found, limit);
    WindowSize(found, limit);
    assert forall k :: 0 <= k < |recent| ==> PostLines(recent[k]).Ok? by {
      forall k | 0 <= k < |recent| ensures PostLines(recent[k]).Ok? {
        assert recent[k] == found[|found| - |recent| + k];
        assert recent[k] in found;
      }
    }
    var body := PrintPosts(recent).value;
    JoinPrefix([Header(|recent|, |found|), ""] + body, "\n");
  }

  /** Without a search, a history of readable posts is listed under its header. */
  lemma ReadableHistoryHasHeader(chatId: Option<string>, lines: seq<string>, decode: string -> Option<Json>, limit: int)
    requires ReadPosts(lines, decode) != []
    requires forall p :: p in ReadPosts(lines, decode) ==> Readable(p)
    ensures var n := |ReadPosts(lines, decode)|;
      IsPrefix(Header(Shown(limit, n), n), Execute(chatId, Present(lines), decode, limit, None))
  {
    ReadableReportHasHeader(ReadPosts(lines, decode), limit);
  }

  /** A search that matches nothing is reported with the term. */
  lemma NoMatchIsReported(posts: seq<Json>, limit: int, term: string)
    requires posts != [] && term != ""
    requires forall p :: p in posts ==> Readable(p) && !Matches(p, term)
    ensures Listing(posts, limit, Some(term)) == "No posts found matching '" + term + "'."
  {
    assert forall k :: 0 <= k < |posts| ==> ContentLower(posts[k]).Ok? by {
      forall k | 0 <= k < |posts| ensures ContentLower(posts[k]).Ok? { assert posts[k] in posts; }
    }
    FilterNothing(posts, term);
  }

  /** A post that is not a dict makes the tool answer with an error text, never raise. */
  lemma UnreadablePostIsReported(posts: seq<Json>, k: nat)
    requires k < |posts| && !posts[k].JObj?
    ensures IsPrefix(ErrorPrefix, Listing(posts, 0, None))
  {
    WindowZeroShowsAll(posts);
    assert !PostLines(posts[k]).Ok?;
  }
}

=== FILE: channels.dfy ===
/** The platform-independent channel gate: the allow-list rule and the publication of one
    inbound message onto the bus. */
module Channels {
  import opened Strings
  import opened Json
  import opened Events

  /** Some non-empty part of `parts` is listed. */
  predicate SomePartListed(parts: seq<string>, allowList: seq<string>)
  {
    exists k :: 0 <= k < |parts| && parts[k] != "" && parts[k] in allowList
  }

  function AnyPartListed(parts: seq<string>, allowList: seq<string>): (r: bool)
    ensures r <==> SomePartListed(parts, allowList)
  {
    if parts == [] then false
    else (parts[0] != "" && parts[0] in allowList) || AnyPartListed(parts[1..], allowList)
  }

  /** `BaseChannel.is_allowed`. */
  function IsAllowed(allowList: seq<string>, senderId: string): (r: bool)
    ensures allowList == [] ==> r
    ensures senderId in allowList ==> r
    ensures '|' !in senderId ==> (r <==> allowList == [] || senderId in allowList)
  {
    if allowList == [] then true
    else if senderId in allowList then true
    else if '|' in senderId then AnyPartListed(Split(senderId, '|'), allowList)
    else false
  }

  /** A composite "a|b" sender is allowed iff the list is empty, or lists the whole id,
      or lists one of its non-empty halves. */
  lemma AllowedComposite(allowList: seq<string>, a: string, b: string)
    requires '|' !in a && '|' !in b
    ensures IsAllowed(allowList, a + "|" + b) <==>
      allowList == [] || a + "|" + b in allowList
      || (a != "" && a in allowList) || (b != "" && b in allowList)
  {
    SplitAround(a, b);
    var s := a + "|" + b;
    assert s[|a|] == '|';
    assert '|' in s;
    var parts := [a, b];
    if a != "" && a in allowList { assert parts[0] == a; }
    if b != "" && b in allowList { assert parts[1] == b; }
    assert SomePartListed(parts, allowList) <==> (a != "" && a in allowList) || (b != "" && b in allowList);
  }

  /** `(a + "|" + b).split("|") == [a, b]` when neither half contains the separator. */
  lemma {:induction false} SplitAround(a: string, b: string)
    requires '|' !in a && '|' !in b
    ensures Split(a + "|" + b, '|') == [a, b]
    decreases |a|
  {
    if a == [] {
      assert a + "|" + b == ['|'] + b;
      assert (['|'] + b)[1..] == b;
      SplitNoSep(b, '|');
    } else {
      assert (a + "|" + b)[1..] == a[1..] + "|" + b;
      assert a[0] != '|' by { assert a[0] in a; }
      SplitAround(a[1..], b);
      assert [a[0]] + a[1..] == a;
    }
  }

  /** A string without the separator splits into itself. */
  lemma {:induction false} SplitNoSep(s: string, c: char)
    requires c !in s
    ensures Split(s, c) == [s]
    decreases |s|
  {
    if s != [] {
      assert s[0] in s;
      assert forall x :: x in s[1..] ==> x in s;
      SplitNoSep(s[1..], c);
      assert [s[0]] + s[1..] == s;
    }
  }

  /** `BaseChannel._handle_message`: unless the check is skipped, a sender that is not
      allowed publishes nothing; otherwise exactly one message is appended to the inbound
      queue, with `media or []` and `metadata or {}` defaults. */
  function HandleMessage(
    name: string, allowList: seq<string>, bus: seq<InboundMessage>,
    senderId: string, chatId: string, content: string,
    media: Option<seq<string>>, metadata: Option<Metadata>, skipAllowCheck: bool): (r: seq<InboundMessage>)
    ensures |r| == |bus| + (if skipAllowCheck || IsAllowed(allowList, senderId) then 1 else 0)
    ensures r[..|bus|] == bus
    ensures |r| > |bus| ==>
      && r[|bus|].channel == name && r[|bus|].senderId == senderId
      && r[|bus|].chatId == chatId && r[|bus|].content == content
      && r[|bus|].media == (if media.Some? then media.value else [])
      && r[|bus|].metadata == (if metadata.Some? then metadata.value else map[])
  {
    if !skipAllowCheck && !IsAllowed(allowList, senderId) then bus
    else
      var m := Inbound(name, senderId, chatId, content,
                       if media.Some? then media.value else [],
                       if metadata.Some? then metadata.value else map[]);
      bus + [m]
  }
}

=== FILE: clear_context.dfy ===
/** The admin-only `clear_context` tool over the session manager's cache. The backup of the
    memory files is filesystem work; its result is a parameter. */
module ClearContext {
  import opened Strings
  import opened Json
  import opened Events

  /** The tool's state: the admin flag as the loop last set it (None before the first call to
      `set_user_context`, read as False), and the user it was set for. */
  datatype ClearTool = ClearTool(isAdmin: Option<Json>, userId: Option<string>)

  const FreshTool := ClearTool(None, None)

  function SetUserContext(t: ClearTool, userId: string, isAdmin: Json): (r: ClearTool)
    ensures r.isAdmin == Some(isAdmin) && r.userId == Some(userId)
  {
    ClearTool(Some(isAdmin), Some(userId))
  }

  predicate IsAdmin(t: ClearTool)
  {
    t.isAdmin.Some? && Truthy(t.isAdmin.value)
  }

  /** What renaming the memory files to backups gave: their number, or the exception. */
  datatype Backup = BackedUp(files: nat) | BackupFailed(error: string)

  /** The reply, and the session cache afterwards (None when there is no session manager). */
  datatype Outcome = Outcome(reply: string, sessions: Option<Sessions>)

  const AdminOnly := "Error: This command is only available to the bot owner (admin)."
  const NeedsConfirm := "Error: Confirmation required. Set 'confirm: true' to proceed."
  const NoManager := "⚠️ Session manager not available. Context may not be fully cleared."
  const ErrorPrefix := "Error clearing context: "

  /** `session.clear_history()` on every cached session. */
  function ClearAll(s: Sessions): (r: Sessions)
    ensures r.Keys == s.Keys
    ensures forall k :: k in r ==> r[k] == []
  {
    map k | k in s :: []
  }

  /** The number of sessions the loops visit: every cached one, or none without a manager. */
  function Count(sessions: Option<Sessions>): nat
  {
    if sessions.Some? then |sessions.value.Keys| else 0
  }

  function Cleared(sessions: Option<Sessions>): (r: Option<Sessions>)
    ensures r.Some? <==> sessions.Some?
    ensures r.Some? ==> r.value.Keys == sessions.value.Keys && forall k :: k in r.value ==> r.value[k] == []
  {
    if sessions.Some? then Some(ClearAll(sessions.value)) else None
  }

  function SessionReply(n: nat): string
  {
    "✅ Cleared " + NatToString(n) + " active chat session(s). Context reset."
  }

  function TodayReply(n: nat): string
  {
    "✅ Cleared today's conversation history from " + NatToString(n) + " session(s)."
  }

  function FullResetReply(n: nat, files: nat): string
  {
    "✅ Full reset complete:\n- Cleared " + NatToString(n) + " session(s)\n- Backed up "
    + NatToString(files) + " memory file(s)\nContext is now clean."
  }

  function UnknownAction(action: string): string
  {
    "Error: Unknown action '" + action + "'. Use 'session', 'today', or 'all'."
  }

  predicate KnownAction(action: string)
  {
    action == "session" || action == "today" || action == "all"
  }

  /** `execute(action, confirm)` with the manager's cache `sessions`. */
  function Execute(t: ClearTool, action: string, confirm: Json, sessions: Option<Sessions>, backup: Backup): (r: Outcome)
    ensures !IsAdmin(t) ==> r == Outcome(AdminOnly, sessions)
    ensures IsAdmin(t) && !Truthy(confirm) ==> r == Outcome(NeedsConfirm, sessions)
    ensures IsAdmin(t) && Truthy(confirm) && !KnownAction(action) ==> r == Outcome(UnknownAction(action), sessions)
    ensures r.sessions == sessions || (IsAdmin(t) && Truthy(confirm) && KnownAction(action) && r.sessions == Cleared(sessions))
    ensures IsAdmin(t) && Truthy(confirm) && KnownAction(action) ==> r.sessions == Cleared(sessions)
    ensures IsAdmin(t) && Truthy(confirm) && action == "session" ==>
      r.reply == (if sessions.Some? then SessionReply(Count(sessions)) else NoManager)
    ensures IsAdmin(t) && Truthy(confirm) && action == "today" ==> r.reply == TodayReply(Count(sessions))
    ensures IsAdmin(t) && Truthy(confirm) && action == "all" ==>
      r.reply == (if backup.BackedUp? then FullResetReply(Count(sessions), backup.files) else ErrorPrefix + backup.error)
  {
    if !IsAdmin(t) then Outcome(AdminOnly, sessions)
    else if !Truthy(confirm) then Outcome(NeedsConfirm, sessions)
    else if action == "session" then
      Outcome(if sessions.Some? then SessionReply(Count(sessions)) else NoManager, Cleared(sessions))
    else if action == "today" then
      Outcome(TodayReply(Count(sessions)), Cleared(sessions))
    else if action == "all" then
      match backup
      case BackedUp(files) => Outcome(FullResetReply(Count(sessions), files), Cleared(sessions))
      case BackupFailed(e) => Outcome(ErrorPrefix + e, Cleared(sessions))
    else Outcome(UnknownAction(action), sessions)
  }

  /** A tool whose user context was never set refuses, whatever it is asked. */
  lemma FreshToolRefuses(action: string, confirm: Json, sessions: Option<Sessions>, backup: Backup)
    ensures Execute(FreshTool, action, confirm, sessions, backup) == Outcome(AdminOnly, sessions)
  {
  }

  /** Clearing is idempotent: a second confirmed clear finds nothing left and keeps every
      session key. */
  lemma ClearTwiceIsClearOnce(t: ClearTool, action: string, confirm: Json, sessions: Option<Sessions>,
                              b1: Backup, b2: Backup)
    requires IsAdmin(t) && Truthy(confirm) && KnownAction(action)
    ensures var once := Execute(t, action, confirm, sessions, b1).sessions;
      Execute(t, action, confirm, once, b2).sessions == once
  {
    if sessions.Some? {
      assert ClearAll(ClearAll(sessions.value)) == ClearAll(sessions.value);
    }
  }

  /** "session" empties the history of every chat, not only the caller's: after it, a
      session that had messages in another chat has none. */
  lemma SessionClearsOtherChats(t: ClearTool, confirm: Json, s: Sessions, backup: Backup, other: string)
    requires IsAdmin(t) && Truthy(confirm)
    requires other in s && s[other] != []
    ensures var r := Execute(t, "session", confirm, Some(s), backup);
      r.sessions.Some? && other in r.sessions.value && r.sessions.value[other] == [] != s[other]
  {
  }
}

=== FILE: context.dfy ===
/** The context builder: the system prompt, the message list sent to the model, the
    user-content gate for attached media, and the helpers that append assistant messages
    and tool results. File contents, mime guessing and image encoding are inputs. */
module Context {
  import opened Strings
  import opened Json
  import opened Events

  // ---------------------------------------------------------------- messages

  /** A tool call requested by the model; its arguments are already decoded. */
  datatype ToolCall = ToolCall(id: string, name: string, arguments: Json)

  datatype ContentPart =
    | MediaPart(url: string)          // {"type": "image_url", "image_url": {"url": ...}}
    | TextPart(text: string)          // {"type": "text", "text": ...}

  /** A user message's content: plain text or a list of parts. */
  datatype UserContent = Plain(text: string) | Parts(parts: seq<ContentPart>)

  datatype ChatMessage =
    | System(prompt: string)
    | Stored(entry: Entry)                                        // a history entry, verbatim
    | User(content: UserContent)
    | Assistant(text: string, toolCalls: Option<seq<ToolCall>>)   // None: no "tool_calls" key
    | ToolResult(callId: string, name: string, result: string)

  // ---------------------------------------------------------------- system prompt

  /** What the prompt is assembled from; the identity block is opaque. */
  datatype Workspace = Workspace(
    identity: string,
    persona: string,
    files: map<string, string>,     // bootstrap files that exist, by name
    memory: string,
    alwaysSkills: seq<string>,
    alwaysSkillsContent: string,
    skillsSummary: string)

  const BootstrapFiles: seq<string> := ["AGENTS.md", "SOUL.md", "USER.md", "TOOLS.md", "IDENTITY.md"]

  const SectionSeparator := "\n\n---\n\n"

  /** The names of `names` that exist, in order. */
  function ExistingFiles(names: seq<string>, files: map<string, string>): (r: seq<string>)
    ensures forall f :: f in r <==> f in names && f in files
    ensures |r| <= |names|
  {
    if names == [] then []
    else (if names[0] in files then [names[0]] else []) + ExistingFiles(names[1..], files)
  }

  /** The positions from `from` on of the names that exist. */
  function Positions(names: seq<string>, files: map<string, string>, from: nat): (r: seq<nat>)
    requires from <= |names|
    ensures forall i :: 0 <= i < |r| ==> from <= r[i] < |names|
    decreases |names| - from
  {
    if from == |names| then []
    else (if names[from] in files then [from] else []) + Positions(names, files, from + 1)
  }

  /** The positions are increasing, and they are exactly those of the names that exist. */
  lemma {:induction false} PositionsOfExisting(names: seq<string>, files: map<string, string>, from: nat)
    requires from <= |names|
    ensures var r := Positions(names, files, from);
      && (forall i, j :: 0 <= i < j < |r| ==> r[i] < r[j])
      && (forall j :: from <= j < |names| ==> (j in r <==> names[j] in files))
    decreases |names| - from
  {
    if from < |names| {
      PositionsOfExisting(names, files, from + 1);
      var rest := Positions(names, files, from + 1);
      var head: seq<nat> := if names[from] in files then [from] else [];
      assert Positions(names, files, from) == head + rest;
    }
  }

  /** The names at the given positions, in the order of the positions. */
  function Pick(names: seq<string>, positions: seq<nat>): (r: seq<string>)
    requires forall i :: 0 <= i < |positions| ==> positions[i] < |names|
  {
    seq(|positions|, (i: nat) requires i < |positions| => names[positions[i]])
  }

  /** The existing files are exactly the names at the increasing positions of the names
      that exist: the fixed order is kept and no name is repeated or skipped. */
  lemma ExistingFilesInOrder(names: seq<string>, files: map<string, string>)
    ensures ExistingFiles(names, files) == Pick(names, Positions(names, files, 0))
  {
    ExistingFilesFrom(names, files, 0);
    assert names[0..] == names;
  }

  lemma PickCons(names: seq<string>, x: nat, rest: seq<nat>)
    requires x < |names| && forall i :: 0 <= i < |rest| ==> rest[i] < |names|
    ensures Pick(names, [x] + rest) == [names[x]] + Pick(names, rest)
  {
    assert forall i :: 0 < i <= |rest| ==> ([x] + rest)[i] == rest[i - 1];
  }

  lemma {:induction false} ExistingFilesFrom(names: seq<string>, files: map<string, string>, from: nat)
    requires from <= |names|
    ensures ExistingFiles(names[from..], files) == Pick(names, Positions(names, files, from))
    decreases |names| - from
  {
    if from < |names| {
      ExistingFilesFrom(names, files, from + 1);
      assert names[from..][0] == names[from] && names[from..][1..] == names[from + 1..];
      var rest := Positions(names, files, from + 1);
      if names[from] in files {
        assert Positions(names, files, from) == [from] + rest;
        PickCons(names, from, rest);
      } else {
        assert Positions(names, files, from) == rest;
      }
    }
  }

  function BootstrapSections(names: seq<string>, files: map<string, string>): (r: seq<string>)
    requires forall f :: f in names ==> f in files
    ensures |r| == |names|
    ensures forall k :: 0 <= k < |names| ==> r[k] == "## " + names[k] + "\n\n" + files[names[k]]
  {
    if names == [] then []
    else ["## " + names[0] + "\n\n" + files[names[0]]] + BootstrapSections(names[1..], files)
  }

  /** `_load_bootstrap_files`: one "## name\n\ncontent" section per existing file, in the
      fixed order, joined by blank lines. */
  function LoadBootstrapFiles(files: map<string, string>): string
  {
    var present := ExistingFiles(BootstrapFiles, files);
    Join(BootstrapSections(present, files), "\n\n")
  }

  /** The bootstrap text is empty exactly when none of the files exists. */
  lemma BootstrapEmptyIffNoFiles(files: map<string, string>)
    ensures LoadBootstrapFiles(files) == "" <==> forall f :: f in BootstrapFiles ==> f !in files
  {
    var present := ExistingFiles(BootstrapFiles, files);
    var secs := BootstrapSections(present, files);
    if present != [] {
      assert present[0] in present;
      assert secs[0][0] == '#';
      JoinStartsWithFirst(secs, "\n\n");
    }
  }

  lemma JoinStartsWithFirst(parts: seq<string>, sep: string)
    requires parts != [] && parts[0] != ""
    ensures Join(parts, sep) != ""
    ensures Join(parts, sep)[0] == parts[0][0]
  {
  }

  datatype Section = IdentitySection | PersonaSection | BootstrapSection | MemorySection
                   | ActiveSkillsSection | SkillsSummarySection

  function Rank(s: Section): nat
  {
    match s
    case IdentitySection => 0
    case PersonaSection => 1
    case BootstrapSection => 2
    case MemorySection => 3
    case ActiveSkillsSection => 4
    case SkillsSummarySection => 5
  }

  const SkillsIntro := "# Skills\n\nThe following skills extend your capabilities. "
    + "To use a skill, read its SKILL.md file using the read_file tool.\n"
    + "Skills with available=\"false\" need dependencies installed first - "
    + "you can try installing them with apt/brew.\n\n"

  /** Whether a section is present in the prompt of `ws`. */
  predicate Present(ws: Workspace, s: Section)
  {
    match s
    case IdentitySection => true
    case PersonaSection => ws.persona != ""
    case BootstrapSection => LoadBootstrapFiles(ws.files) != ""
    case MemorySection => ws.memory != ""
    case ActiveSkillsSection => ws.alwaysSkills != [] && ws.alwaysSkillsContent != ""
    case SkillsSummarySection => ws.skillsSummary != ""
  }

  function SectionText(ws: Workspace, s: Section): string
  {
    match s
    case IdentitySection => ws.identity
    case PersonaSection => "# Persona & Style\n\n" + ws.persona
    case BootstrapSection => LoadBootstrapFiles(ws.files)
    case MemorySection => "# Memory\n\n" + ws.memory
    case ActiveSkillsSection => "# Active Skills\n\n" + ws.alwaysSkillsContent
    case SkillsSummarySection => SkillsIntro + ws.skillsSummary
  }

  const AllSections: seq<Section> := [IdentitySection, PersonaSection, BootstrapSection,
                                      MemorySection, ActiveSkillsSection, SkillsSummarySection]

  function PresentSections(ws: Workspace, all: seq<Section>): (r: seq<Section>)
    ensures forall s :: s in r <==> s in all && Present(ws, s)
    ensures |r| <= |all|
    ensures forall i :: 0 <= i < |r| ==> exists j :: 0 <= j < |all| && all[j] == r[i]
  {
    if all == [] then []
    else (if Present(ws, all[0]) then [all[0]] else []) + PresentSections(ws, all[1..])
  }

  /** The sections of the prompt: identity first, then each optional section exactly when
      its source is non-empty, in strictly increasing rank. */
  function Sections(ws: Workspace): (r: seq<Section>)
    ensures r != [] && r[0] == IdentitySection
    ensures forall s :: s in r <==> Present(ws, s)
    ensures forall i, j :: 0 <= i < j < |r| ==> Rank(r[i]) < Rank(r[j])
  {
    var r := PresentSections(ws, AllSections);
    assert r != [] && r[0] == IdentitySection by {
      IdentityFirst(ws, AllSections);
    }
    AllSectionsSorted();
    PresentSectionsOrdered(ws, AllSections);
    assert forall s :: s in r <==> Present(ws, s) by {
      forall s ensures s in AllSections { InAllSections(s); }
    }
    r
  }

  /** The fixed section order is the rank order. */
  lemma AllSectionsSorted()
    ensures RankSorted(AllSections)
  {
    assert forall i :: 0 <= i < |AllSections| ==> Rank(AllSections[i]) == i;
  }

  lemma IdentityFirst(ws: Workspace, all: seq<Section>)
    requires all != [] && all[0] == IdentitySection
    ensures PresentSections(ws, all) != [] && PresentSections(ws, all)[0] == IdentitySection
  {
  }

  lemma InAllSections(s: Section)
    ensures s in AllSections
  {
    match s
    case IdentitySection => assert AllSections[0] == s;
    case PersonaSection => assert AllSections[1] == s;
    case BootstrapSection => assert AllSections[2] == s;
    case MemorySection => assert AllSections[3] == s;
    case ActiveSkillsSection => assert AllSections[4] == s;
    case SkillsSummarySection => assert AllSections[5] == s;
  }

  predicate RankSorted(ss: seq<Section>)
  {
    forall i, j :: 0 <= i < j < |ss| ==> Rank(ss[i]) < Rank(ss[j])
  }

  lemma {:induction false} PresentSectionsOrdered(ws: Workspace, all: seq<Section>)
    requires RankSorted(all)
    ensures RankSorted(PresentSections(ws, all))
    decreases |all|
  {
    if all != [] {
      var rest := PresentSections(ws, all[1..]);
      PresentSectionsOrdered(ws, all[1..]);
      forall i | 0 <= i < |rest| ensures Rank(all[0]) < Rank(rest[i]) {
        var j :| 0 <= j < |all[1..]| && all[1..][j] == rest[i];
        assert all[j + 1] == rest[i];
      }
    }
  }

  function SectionTexts(ws: Workspace, ss: seq<Section>): (r: seq<string>)
    ensures |r| == |ss| && forall k :: 0 <= k < |ss| ==> r[k] == SectionText(ws, ss[k])
  {
    seq(|ss|, k requires 0 <= k < |ss| => SectionText(ws, ss[k]))
  }

  /** `build_system_prompt`. */
  function BuildSystemPrompt(ws: Workspace): string
  {
    Join(SectionTexts(ws, Sections(ws)), SectionSeparator)
  }

  /** The prompt starts with the identity block; with nothing else to add it is exactly that. */
  lemma PromptStartsWithIdentity(ws: Workspace)
    ensures IsPrefix(ws.identity, BuildSystemPrompt(ws))
    ensures (forall s :: s != IdentitySection ==> !Present(ws, s)) ==> BuildSystemPrompt(ws) == ws.identity
  {
    var ts := SectionTexts(ws, Sections(ws));
    assert ts[0] == ws.identity;
    JoinPrefix(ts, SectionSeparator);
    if forall s :: s != IdentitySection ==> !Present(ws, s) {
      OnlyIdentity(ws);
      assert ts == [ws.identity];
    }
  }

  /** With every optional source empty, the identity is the only section. */
  lemma OnlyIdentity(ws: Workspace)
    requires forall s :: s != IdentitySection ==> !Present(ws, s)
    ensures Sections(ws) == [IdentitySection]
  {
    var ss := Sections(ws);
    if |ss| > 1 {
      SecondIn(ss);
      assert false;
    }
  }

  lemma SecondIn(ss: seq<Section>)
    ensures |ss| > 1 ==> ss[1] in ss
  {
  }

  // ---------------------------------------------------------------- user content

  const AnalyzeKeywords: seq<string> := [
    "картинк", "изображен", "фото", "что на", "опиши", "покажи",
    "analyze", "image", "picture", "describe", "look at", "see",
    "gif", "гифк", "видео", "video"]

  /** What the file system, `mimetypes` and the image compressor say about one path. */
  datatype MediaFile = MediaFile(
    isFile: bool,
    mime: Option<string>,         // mimetypes.guess_type
    encoded: string,              // base64 of the file's own bytes
    compressedMime: string,       // mime after compression (image/jpeg, or unchanged)
    compressedEncoded: string)    // base64 of the compressed image

  predicate IsImageMime(m: string)
  {
    IsPrefix("image/", m)
  }

  predicate IsAudioVideoMime(m: string)
  {
    IsPrefix("audio/", m) || IsPrefix("video/", m)
  }

  function DataUrl(mime: string, payload: string): string
  {
    "data:" + mime + ";base64," + payload
  }

  predicate ShouldAnalyze(text: string)
  {
    ContainsAny(Lower(text), AnalyzeKeywords)
  }

  /** A path contributes a part when it is a file with a guessed image, audio or video type. */
  predicate Inlined(f: MediaFile)
  {
    f.isFile && f.mime.Some? && (IsImageMime(f.mime.value) || IsAudioVideoMime(f.mime.value))
  }

  /** The media parts of the loop over `media`, each file carrying its own bytes. */
  function MediaParts(media: seq<string>, probe: string -> MediaFile): (r: seq<ContentPart>)
    ensures |r| <= |media|
    ensures forall k :: 0 <= k < |r| ==> r[k].MediaPart?
  {
    if media == [] then []
    else
      var f := probe(media[0]);
      var here :=
        if !Inlined(f) then []
        else if IsImageMime(f.mime.value) then [MediaPart(DataUrl(f.compressedMime, f.compressedEncoded))]
        else [MediaPart(DataUrl(f.mime.value, f.encoded))];
      here + MediaParts(media[1..], probe)
  }

  function CountInlined(media: seq<string>, probe: string -> MediaFile): nat
  {
    if media == [] then 0 else (if Inlined(probe(media[0])) then 1 else 0) + CountInlined(media[1..], probe)
  }

  lemma {:induction false} MediaPartsCount(media: seq<string>, probe: string -> MediaFile)
    ensures |MediaParts(media, probe)| == CountInlined(media, probe)
    decreases |media|
  {
    if media != [] {
      MediaPartsCount(media[1..], probe);
    }
  }

  /** `_build_user_content` with each audio or video file encoded from its own bytes. */
  function BuildUserContent(text: string, media: Option<seq<string>>, probe: string -> MediaFile): (r: UserContent)
    ensures media.None? || media.value == [] ==> r == Plain(text)
    ensures !ShouldAnalyze(text) ==> r == Plain(text)
    ensures r.Parts? ==>
      && |r.parts| >= 2 && r.parts[|r.parts| - 1] == TextPart(text)
      && (forall k :: 0 <= k < |r.parts| - 1 ==> r.parts[k].MediaPart?)
  {
    if media.None? || media.value == [] then Plain(text)
    else if !ShouldAnalyze(text) then Plain(text)
    else
      var parts := MediaParts(media.value, probe);
      if parts == [] then Plain(text) else Parts(parts + [TextPart(text)])
  }

  /** Media are sent exactly when the text asks for analysis and some path is an inlinable
      file; then there is one part per such path plus the text. */
  lemma UserContentParts(text: string, media: seq<string>, probe: string -> MediaFile)
    ensures BuildUserContent(text, Some(media), probe).Parts? <==>
      ShouldAnalyze(text) && CountInlined(media, probe) > 0
    ensures BuildUserContent(text, Some(media), probe).Parts? ==>
      |BuildUserContent(text, Some(media), probe).parts| == CountInlined(media, probe) + 1
  {
    MediaPartsCount(media, probe);
  }

  /** The media loop as it is written: the audio/video branch formats the name `b64`, which
      only the image branch assigns. So it carries the last image's data, or raises
      UnboundLocalError when no image came before it. */
  function MediaPartsAsWritten(media: seq<string>, probe: string -> MediaFile, lastImage: Option<string>): (r: PartsResult)
    decreases |media|
  {
    if media == [] then PartsOk([])
    else
      var f := probe(media[0]);
      if !Inlined(f) then MediaPartsAsWritten(media[1..], probe, lastImage)
      else if IsImageMime(f.mime.value) then
        Prepend(MediaPart(DataUrl(f.compressedMime, f.compressedEncoded)),
                MediaPartsAsWritten(media[1..], probe, Some(f.compressedEncoded)))
      else if lastImage.None? then PartsRaised(UnboundB64)
      else
        Prepend(MediaPart(DataUrl(f.mime.value, lastImage.value)),
                MediaPartsAsWritten(media[1..], probe, lastImage))
  }

  const UnboundB64 := "cannot access local variable 'b64' " + "where it is not associated with a value"

  datatype PartsResult = PartsOk(parts: seq<ContentPart>) | PartsRaised(error: string)

  function Prepend(p: ContentPart, r: PartsResult): PartsResult
  {
    if r.PartsOk? then PartsOk([p] + r.parts) else r
  }

  datatype Built = Built(content: UserContent) | BuildRaised(error: string)

  /** `_build_user_content` as written. */
  function BuildUserContentAsWritten(text: string, media: Option<seq<string>>, probe: string -> MediaFile): Built
  {
    if media.None? || media.value == [] then Built(Plain(text))
    else if !ShouldAnalyze(text) then Built(Plain(text))
    else match MediaPartsAsWritten(media.value, probe, None)
      case PartsRaised(e) => BuildRaised(e)
      case PartsOk(parts) => Built(if parts == [] then Plain(text) else Parts(parts + [TextPart(text)]))
  }

  predicate HasAudioVideo(media: seq<string>, probe: string -> MediaFile)
  {
    exists k :: 0 <= k < |media| && Inlined(probe(media[k])) && !IsImageMime(probe(media[k]).mime.value)
  }

  lemma {:induction false} MediaPartsAgree(media: seq<string>, probe: string -> MediaFile, lastImage: Option<string>)
    requires !HasAudioVideo(media, probe)
    ensures MediaPartsAsWritten(media, probe, lastImage) == PartsOk(MediaParts(media, probe))
    decreases |media|
  {
    if media != [] {
      assert !HasAudioVideo(media[1..], probe) by {
        forall k | 0 <= k < |media[1..]| ensures !(Inlined(probe(media[1..][k])) && !IsImageMime(probe(media[1..][k]).mime.value)) {
          assert media[1..][k] == media[k + 1];
        }
      }
      var f := probe(media[0]);
      MediaPartsAgree(media[1..], probe, if Inlined(f) then Some(f.compressedEncoded) else lastImage);
    }
  }

  /** Without audio or video files the builder as written and the corrected one agree. */
  lemma AsWrittenAgreesWithoutAudio(text: string, media: Option<seq<string>>, probe: string -> MediaFile)
    requires media.Some? ==> !HasAudioVideo(media.value, probe)
    ensures BuildUserContentAsWritten(text, media, probe) == Built(BuildUserContent(text, media, probe))
  {
    if media.Some? {
      MediaPartsAgree(media.value, probe, None);
    }
  }

  /** A voice note sent with "опиши" makes the builder as written raise. */
  lemma AudioAloneRaises(probe: string -> MediaFile)
    requires probe("voice.ogg") == MediaFile(true, Some("audio/ogg"), "T2dn", "audio/ogg", "T2dn")
    ensures BuildUserContentAsWritten("опиши", Some(["voice.ogg"]), probe).BuildRaised?
  {
    assert Lower("опиши") == "опиши";
    assert OccursAt("опиши", "опиши", 0);
    ContainsIffOccurs("опиши", "опиши");
    assert AnalyzeKeywords[4] == "опиши";
    assert IsPrefix("audio/", "audio/ogg");
    assert !IsPrefix("image/", "audio/ogg");
    assert ["voice.ogg"][1..] == [];
  }

  lemma AnalyzesDescribe(text: string)
    requires text == "describe"
    ensures ShouldAnalyze(text)
  {
    assert Lower(text) == text;
    assert OccursAt(text, AnalyzeKeywords[9], 0);
    ContainsIffOccurs(text, AnalyzeKeywords[9]);
  }

  /** After an image, an audio file is sent with the image's bytes under its own type, while
      the corrected builder sends the audio's own bytes. */
  lemma AudioAfterImageCarriesImage(text: string, media: seq<string>, probe: string -> MediaFile)
    requires text == "describe" && media == ["a.png", "b.mp3"]
    requires probe("a.png") == MediaFile(true, Some("image/png"), "UE5H", "image/jpeg", "SlBH")
    requires probe("b.mp3") == MediaFile(true, Some("audio/mpeg"), "SUQz", "audio/mpeg", "SUQz")
    ensures BuildUserContentAsWritten(text, Some(media), probe)
      == Built(Parts([MediaPart(DataUrl("image/jpeg", "SlBH")), MediaPart(DataUrl("audio/mpeg", "SlBH")), TextPart(text)]))
    ensures BuildUserContent(text, Some(media), probe)
      == Parts([MediaPart(DataUrl("image/jpeg", "SlBH")), MediaPart(DataUrl("audio/mpeg", "SUQz")), TextPart(text)])
  {
    AnalyzesDescribe(text);
    var imagePart := MediaPart(DataUrl("image/jpeg", "SlBH"));
    var asWritten := [imagePart, MediaPart(DataUrl("audio/mpeg", "SlBH"))];
    var corrected := [imagePart, MediaPart(DataUrl("audio/mpeg", "SUQz"))];
    ImageThenAudioParts(media, probe);
    assert asWritten + [TextPart(text)] == [imagePart, MediaPart(DataUrl("audio/mpeg", "SlBH")), TextPart(text)];
    assert corrected + [TextPart(text)] == [imagePart, MediaPart(DataUrl("audio/mpeg", "SUQz")), TextPart(text)];
  }

  /** The media loop on an image followed by an audio file, as written and corrected. */
  lemma ImageThenAudioParts(media: seq<string>, probe: string -> MediaFile)
    requires media == ["a.png", "b.mp3"]
    requires probe("a.png") == MediaFile(true, Some("image/png"), "UE5H", "image/jpeg", "SlBH")
    requires probe("b.mp3") == MediaFile(true, Some("audio/mpeg"), "SUQz", "audio/mpeg", "SUQz")
    ensures MediaPartsAsWritten(media, probe, None)
      == PartsOk([MediaPart(DataUrl("image/jpeg", "SlBH")), MediaPart(DataUrl("audio/mpeg", "SlBH"))])
    ensures MediaParts(media, probe)
      == [MediaPart(DataUrl("image/jpeg", "SlBH")), MediaPart(DataUrl("audio/mpeg", "SUQz"))]
  {
    assert IsPrefix("image/", "image/png");
    assert IsPrefix("audio/", "audio/mpeg");
    assert !IsPrefix("image/", "audio/mpeg");
    assert media[1..] == ["b.mp3"] && media[1..][1..] == [];
    var imagePart := MediaPart(DataUrl("image/jpeg", "SlBH"));
    assert MediaPartsAsWritten(media[1..], probe, Some("SlBH"))
      == PartsOk([MediaPart(DataUrl("audio/mpeg", "SlBH"))]);
    assert MediaPartsAsWritten(media, probe, None)
      == Prepend(imagePart, MediaPartsAsWritten(media[1..], probe, Some("SlBH")));
    assert MediaParts(media[1..], probe) == [MediaPart(DataUrl("audio/mpeg", "SUQz"))];
  }

  // ---------------------------------------------------------------- message lists

  /** `build_messages`: the system prompt, the history verbatim, then one user turn. */
  function BuildMessages(ws: Workspace, history: seq<Entry>, current: string,
                         media: Option<seq<string>>, probe: string -> MediaFile): (r: seq<ChatMessage>)
    ensures |r| == |history| + 2
    ensures r[0] == System(BuildSystemPrompt(ws))
    ensures forall k :: 0 <= k < |history| ==> r[k + 1] == Stored(history[k])
    ensures r[|r| - 1] == User(BuildUserContent(current, media, probe))
  {
    [System(BuildSystemPrompt(ws))] + seq(|history|, k requires 0 <= k < |history| => Stored(history[k]))
      + [User(BuildUserContent(current, media, probe))]
  }

  /** `add_tool_result`. */
  function AddToolResult(messages: seq<ChatMessage>, callId: string, name: string, result: string): (r: seq<ChatMessage>)
    ensures |r| == |messages| + 1 && r[..|messages|] == messages
    ensures r[|messages|] == ToolResult(callId, name, result)
  {
    messages + [ToolResult(callId, name, result)]
  }

  /** `add_assistant_message`: missing content becomes "", and the calls are attached only
      when there are some. */
  function AddAssistantMessage(messages: seq<ChatMessage>, content: Option<string>, calls: seq<ToolCall>): (r: seq<ChatMessage>)
    ensures |r| == |messages| + 1 && r[..|messages|] == messages
    ensures r[|messages|].Assistant?
    ensures r[|messages|].text == (if content.Some? then content.value else "")
    ensures r[|messages|].toolCalls.Some? <==> calls != []
    ensures r[|messages|].toolCalls.Some? ==> r[|messages|].toolCalls.value == calls
  {
    messages + [Assistant(if content.Some? then content.value else "", if calls != [] then Some(calls) else None)]
  }
}

=== FILE: events.dfy ===
/** Bus messages and the per-chat session store that the agent loop works on. */
module Events {
  import opened Strings
  import opened Json

  type Metadata = map<string, Json>

  datatype InboundMessage = Inbound(
    channel: string,
    senderId: string,
    chatId: string,
    content: string,
    media: seq<string>,
    metadata: Metadata)

  datatype OutboundMessage = Outbound(
    channel: string,
    chatId: string,
    content: string,
    replyTo: Option<Json>,      // None stands for Python's None
    metadata: Metadata)

  /** `metadata.get(key)`. */
  function Meta(m: Metadata, key: string): Option<Json>
  {
    if key in m then Some(m[key]) else None
  }

  /** `bool(metadata.get(key))`. */
  predicate MetaFlag(m: Metadata, key: string)
  {
    key in m && Truthy(m[key])
  }

  /** The session key of a chat: "channel:chat_id". */
  function SessionKey(channel: string, chatId: string): string
  {
    channel + ":" + chatId
  }

  /** One stored history entry. */
  datatype Entry = Entry(role: string, content: string)

  /** The session manager's cache: session key to stored history. */
  type Sessions = map<string, seq<Entry>>

  /** `get_or_create(key)`: an unknown key gets an empty history, every other session is kept. */
  function GetOrCreate(s: Sessions, key: string): (r: Sessions)
    ensures r.Keys == s.Keys + {key}
    ensures r[key] == (if key in s then s[key] else [])
    ensures forall k :: k in s ==> r[k] == s[k]
  {
    if key in s then s else s[key := []]
  }

  /** `session.add_message("user", u)`, `session.add_message("assistant", a)`. */
  function AddTurn(s: Sessions, key: string, user: string, assistant: string): (r: Sessions)
    requires key in s
    ensures r.Keys == s.Keys
    ensures r[key] == s[key] + [Entry("user", user), Entry("assistant", assistant)]
    ensures forall k :: k in s && k != key ==> r[k] == s[k]
  {
    s[key := s[key] + [Entry("user", user), Entry("assistant", assistant)]]
  }
}

=== FILE: import_history.dfy ===
/** The `import_channel_history` tool: an admin-only import of a Telegram export into the
    chat's history file. The export is an already-decoded JSON value; the effect on the
    file is the sequence of post objects appended to it. */
module ImportHistory {
  import opened Strings
  import opened Json
  import ChannelHistory

  /** The tool's state: the admin flag as the loop last set it, and the current chat. */
  datatype ImportTool = ImportTool(isAdmin: Json, chatId: Option<string>)

  /** A freshly built tool: not admin, no chat. */
  const FreshTool := ImportTool(JBool(false), None)

  function SetUserContext(t: ImportTool, userId: string, isAdmin: Json): (r: ImportTool)
    ensures r.isAdmin == isAdmin && r.chatId == t.chatId
  {
    t.(isAdmin := isAdmin)
  }

  function SetChatContext(t: ImportTool, chatId: string): (r: ImportTool)
    ensures r.chatId == Some(chatId) && r.isAdmin == t.isAdmin
  {
    t.(chatId := Some(chatId))
  }

  // ---------------------------------------------------------------- one export message

  /** One normalised post, as written to the history file. */
  datatype Post = Post(id: Json, date: Json, from: Json, content: string, timestamp: Json)

  function PostJson(p: Post): Json
  {
    JObj([("id", p.id), ("date", p.date), ("from", p.from), ("content", JStr(p.content)), ("timestamp", p.timestamp)])
  }

  function PyStrs(items: seq<Json>): (r: seq<string>)
    ensures |r| == |items|
  {
    if items == [] then [] else [PyStr(items[0])] + PyStrs(items[1..])
  }

  /** The `text` of the dict entities that have one, as strings. */
  function EntityTexts(entities: seq<Json>): seq<string>
  {
    if entities == [] then []
    else
      var e := entities[0];
      (if HasKey(e, "text") then [PyStr(Get(e, "text").value)] else []) + EntityTexts(entities[1..])
  }

  /** The text of an export message: a list text is concatenated; a falsy text falls back to
      the entity texts when the message has `text_entities`; any other falsy text is "". */
  function MessageText(msg: Json): (r: Result<string>)
    requires msg.JObj?
    ensures var t := GetOr(msg, "text", JStr(""));
      && (t.JStr? && t.s != "" ==> r == Ok(t.s))
      && (t.JArr? && Concat(PyStrs(t.items)) != "" ==> r == Ok(Concat(PyStrs(t.items))))
      && (r.Raised? ==> HasKey(msg, "text_entities") && Iterate(Get(msg, "text_entities").value).None?)
    ensures var t := GetOr(msg, "text", JStr(""));
      var joined := if t.JArr? then JStr(Concat(PyStrs(t.items))) else t;
      && (Truthy(joined) ==> r == Ok(PyStr(joined)))
      && (!Truthy(joined) && !HasKey(msg, "text_entities") ==> r == Ok(""))
      && (!Truthy(joined) && HasKey(msg, "text_entities") ==>
            var entities := Get(msg, "text_entities").value;
            && (Iterate(entities).None? ==> r == Raised(NotIterable(entities)))
            && (Iterate(entities).Some? ==> r == Ok(Concat(EntityTexts(Iterate(entities).value)))))
  {
    var t0 := GetOr(msg, "text", JStr(""));
    var t1 := if t0.JArr? then JStr(Concat(PyStrs(t0.items))) else t0;
    if !Truthy(t1) && HasKey(msg, "text_entities") then
      var entities := Get(msg, "text_entities").value;
      match Iterate(entities)
      case None => Raised(NotIterable(entities))
      case Some(es) => Ok(Concat(EntityTexts(es)))
    else Ok(if Truthy(t1) then PyStr(t1) else "")
  }

  /** The post built from a kept message: missing fields take their defaults. */
  function MakePost(msg: Json, text: string, channelName: Json): (r: Post)
    ensures r.content == text
    ensures r.id == GetOr(msg, "id", JInt(0)) && r.date == GetOr(msg, "date", JStr("Unknown"))
    ensures r.from == GetOr(msg, "from", channelName) && r.timestamp == GetOr(msg, "date", JStr(""))
  {
    Post(GetOr(msg, "id", JInt(0)), GetOr(msg, "date", JStr("Unknown")), GetOr(msg, "from", channelName),
         text, GetOr(msg, "date", JStr("")))
  }

  predicate IsService(msg: Json)
  {
    Get(msg, "type") == Some(JStr("service"))
  }

  /** What one export item contributes: nothing, a post, or an exception. */
  function Item(msg: Json, channelName: Json): (r: Result<seq<Post>>)
    ensures !msg.JObj? || IsService(msg) ==> r == Ok([])
    ensures r.Ok? ==> |r.value| <= 1
    ensures r.Ok? && |r.value| == 1 ==>
      && MessageText(msg) == Ok(r.value[0].content)
      && r.value[0] == MakePost(msg, r.value[0].content, channelName)
      && Strip(r.value[0].content) != ""
    ensures msg.JObj? && !IsService(msg) ==>
      && (MessageText(msg).Raised? ==> r == Raised(MessageText(msg).error))
      && (MessageText(msg).Ok? && Strip(MessageText(msg).value) != "" ==>
            r == Ok([MakePost(msg, MessageText(msg).value, channelName)]))
      && (MessageText(msg).Ok? && Strip(MessageText(msg).value) == "" ==> r == Ok([]))
  {
    if !msg.JObj? || IsService(msg) then Ok([])
    else match MessageText(msg)
      case Raised(e) => Raised(e)
      case Ok(text) => if Strip(text) == "" then Ok([]) else Ok([MakePost(msg, text, channelName)])
  }

  /** What one item adds to the posts: its post, or nothing when it is skipped or raises. */
  function Contributed(msg: Json, channelName: Json): (r: seq<Post>)
    ensures |r| <= 1
  {
    var item := Item(msg, channelName);
    if item.Ok? then item.value else []
  }

  /** The posts the messages yield, in order (an item that would raise yields none). */
  function Posts(messages: seq<Json>, channelName: Json): (r: seq<Post>)
    ensures |r| <= |messages|
  {
    if messages == [] then [] else Contributed(messages[0], channelName) + Posts(messages[1..], channelName)
  }

  /** The exception of the first item that raises, if any. */
  function FirstRaise(messages: seq<Json>, channelName: Json): (r: Option<string>)
    ensures r.None? <==> forall k :: 0 <= k < |messages| ==> Item(messages[k], channelName).Ok?
  {
    if messages == [] then None
    else if Item(messages[0], channelName).Raised? then Some(Item(messages[0], channelName).error)
    else
      assert forall k :: 1 <= k < |messages| ==> messages[k] == messages[1..][k - 1];
      FirstRaise(messages[1..], channelName)
  }

  /** The filtering loop over the export's messages; the first exception ends it. */
  function Normalize(messages: seq<Json>, channelName: Json): (r: Result<seq<Post>>)
    ensures r.Ok? <==> forall k :: 0 <= k < |messages| ==> Item(messages[k], channelName).Ok?
    ensures r.Ok? ==> r.value == Posts(messages, channelName)
  {
    match FirstRaise(messages, channelName)
    case Some(e) => Raised(e)
    case None => Ok(Posts(messages, channelName))
  }

  /** A dict, non-service message whose text is not blank becomes a post. */
  lemma {:induction false} QualifyingMessageBecomesPost(messages: seq<Json>, channelName: Json, k: nat)
    requires k < |messages| && messages[k].JObj? && !IsService(messages[k])
    requires MessageText(messages[k]).Ok? && Strip(MessageText(messages[k]).value) != ""
    ensures MakePost(messages[k], MessageText(messages[k]).value, channelName) in Posts(messages, channelName)
    decreases k
  {
    var p := MakePost(messages[k], MessageText(messages[k]).value, channelName);
    assert Posts(messages, channelName) == Contributed(messages[0], channelName) + Posts(messages[1..], channelName);
    if k == 0 {
      assert Item(messages[0], channelName) == Ok([p]);
      assert Contributed(messages[0], channelName) == [p];
    } else {
      assert messages[1..][k - 1] == messages[k];
      QualifyingMessageBecomesPost(messages[1..], channelName, k - 1);
      assert p in Posts(messages[1..], channelName);
    }
  }

  /** Every post comes from one message: the post that message's item yields. */
  lemma {:induction false} PostComesFromMessage(messages: seq<Json>, channelName: Json, p: Post)
    requires p in Posts(messages, channelName)
    ensures exists k :: 0 <= k < |messages| && Item(messages[k], channelName) == Ok([p])
    decreases |messages|
  {
    if p in Contributed(messages[0], channelName) {
      assert Item(messages[0], channelName) == Ok([p]);
    } else {
      PostComesFromMessage(messages[1..], channelName, p);
      var k :| 0 <= k < |messages[1..]| && Item(messages[1..][k], channelName) == Ok([p]);
      assert messages[1..][k] == messages[k + 1];
    }
  }

  /** The filter keeps export order: the posts of two stretches of messages are the posts of
      the first followed by those of the second. */
  lemma {:induction false} PostsConcat(a: seq<Json>, b: seq<Json>, channelName: Json)
    ensures Posts(a + b, channelName) == Posts(a, channelName) + Posts(b, channelName)
    decreases |a|
  {
    if a != [] {
      PostsCons(a, b, channelName);
      PostsConcat(a[1..], b, channelName);
      var first := Contributed(a[0], channelName);
      assert Posts(a, channelName) == first + Posts(a[1..], channelName);
      AppendAssoc(first, Posts(a[1..], channelName), Posts(b, channelName));
    } else {
      assert a + b == b;
    }
  }

  /** One unfolding of the filter on a concatenation. */
  lemma PostsCons(a: seq<Json>, b: seq<Json>, channelName: Json)
    requires a != []
    ensures Posts(a + b, channelName) == Contributed(a[0], channelName) + Posts(a[1..] + b, channelName)
  {
    assert (a + b)[0] == a[0];
    assert (a + b)[1..] == a[1..] + b;
  }

  /** Every imported post can be read back by `read_channel_history`, which sees its content. */
  lemma ImportedPostReadable(p: Post)
    ensures ChannelHistory.Readable(PostJson(p))
    ensures ChannelHistory.ContentLower(PostJson(p)) == Ok(Lower(p.content))
  {
    var f := PostJson(p).fields;
    assert f[0].0 != "content" && f[1].0 != "content" && f[2].0 != "content";
    assert Lookup(f, "content") == Lookup(f[1..], "content") == Lookup(f[2..], "content") == Lookup(f[3..], "content") by {
      assert f[1..][1..] == f[2..] && f[2..][1..] == f[3..];
    }
    assert f[3..][0] == ("content", JStr(p.content));
  }

  // ---------------------------------------------------------------- the tool

  datatype ExportFile = NotFound | Undecodable | Decoded(data: Json)

  /** The tool's answer, the file it appends to, and the objects appended (one line each). */
  datatype Outcome = Outcome(reply: string, target: string, appended: seq<Json>)

  const AdminOnly := "Error: This command is only available to the bot owner (admin)."
  const BadFormat := "Error: Invalid Telegram export format. Expected 'messages' field."
  const NoPosts := "No valid posts found in the export file."
  const ErrorPrefix := "Error importing channel history: "
  /** The success mark as it appears in the source file (a mis-decoded check mark). */
  const SuccessMark := "\U{00E2}\U{0153}\U{2026}"

  function ChatContext(t: ImportTool): string
  {
    if t.chatId.Some? && t.chatId.value != "" then " for chat " + t.chatId.value else ""
  }

  function Success(count: nat, channelName: Json, t: ImportTool): string
  {
    SuccessMark + " Successfully imported " + NatToString(count) + " posts from " + PyStr(channelName)
    + " into channel history" + ChatContext(t) + "!"
  }

  function PostsJson(posts: seq<Post>): (r: seq<Json>)
    ensures |r| == |posts|
    ensures forall k :: 0 <= k < |posts| ==> r[k] == PostJson(posts[k])
  {
    seq(|posts|, k requires 0 <= k < |posts| => PostJson(posts[k]))
  }

  /** `execute(file_path)`. */
  function Execute(t: ImportTool, filePath: string, file: ExportFile): (r: Outcome)
    ensures r.target == ChannelHistory.HistoryFile(t.chatId)
    ensures !Truthy(t.isAdmin) ==> r.reply == AdminOnly && r.appended == []
    ensures file.Decoded? && !HasKey(file.data, "messages") ==> r.appended == []
    ensures r.appended != [] ==>
      && Truthy(t.isAdmin) && file.Decoded? && HasKey(file.data, "messages")
      && r.reply == Success(|r.appended|, GetOr(file.data, "name", JStr("Unknown Channel")), t)
    ensures Truthy(t.isAdmin) && file.NotFound? ==> r.reply == "Error: File not found at " + filePath
    ensures Truthy(t.isAdmin) && file.Undecodable? ==> r.reply == "Error: Invalid JSON file." && r.appended == []
    ensures Truthy(t.isAdmin) && file.Decoded? && !HasKey(file.data, "messages") ==> r.reply == BadFormat
    ensures Truthy(t.isAdmin) && file.Decoded? && HasKey(file.data, "messages") ==>
      var messages := Get(file.data, "messages").value;
      var channelName := GetOr(file.data, "name", JStr("Unknown Channel"));
      && (Iterate(messages).None? ==> r.reply == ErrorPrefix + NotIterable(messages) && r.appended == [])
      && (Iterate(messages).Some? && FirstRaise(Iterate(messages).value, channelName).Some? ==>
            r.reply == ErrorPrefix + FirstRaise(Iterate(messages).value, channelName).value && r.appended == [])
      && (Iterate(messages).Some? && FirstRaise(Iterate(messages).value, channelName).None? ==>
            && r.appended == PostsJson(Posts(Iterate(messages).value, channelName))
            && (r.appended == [] ==> r.reply == NoPosts))
  {
    var target := ChannelHistory.HistoryFile(t.chatId);
    if !Truthy(t.isAdmin) then Outcome(AdminOnly, target, [])
    else match file
      case NotFound => Outcome("Error: File not found at " + filePath, target, [])
      case Undecodable => Outcome("Error: Invalid JSON file.", target, [])
      case Decoded(data) =>
        if !HasKey(data, "messages") then Outcome(BadFormat, target, [])
        else
          var messages := Get(data, "messages").value;
          var channelName := GetOr(data, "name", JStr("Unknown Channel"));
          match Iterate(messages)
          case None => Outcome(ErrorPrefix + NotIterable(messages), target, [])
          case Some(items) =>
            match Normalize(items, channelName)
            case Raised(e) => Outcome(ErrorPrefix + e, target, [])
            case Ok(posts) =>
              if posts == [] then Outcome(NoPosts, target, [])
              else Outcome(Success(|posts|, channelName, t), target, PostsJson(posts))
  }

  /** A freshly built tool refuses to import and writes nothing. */
  lemma FreshToolRefuses(filePath: string, file: ExportFile)
    ensures Execute(FreshTool, filePath, file) == Outcome(AdminOnly, ChannelHistory.DefaultHistoryFile, [])
  {
  }

  /** An admin import of a well-formed export appends exactly the normalised posts, in
      order, and reports their number. */
  lemma AdminImportAppendsPosts(t: ImportTool, filePath: string, fields: seq<(string, Json)>, items: seq<Json>)
    requires Truthy(t.isAdmin)
    requires Lookup(fields, "messages") == Some(JArr(items))
    requires Normalize(items, GetOr(JObj(fields), "name", JStr("Unknown Channel"))).Ok?
    ensures var posts := Normalize(items, GetOr(JObj(fields), "name", JStr("Unknown Channel"))).value;
      var r := Execute(t, filePath, Decoded(JObj(fields)));
      && r.appended == PostsJson(posts)
      && (posts != [] ==> r.reply == Success(|posts|, GetOr(JObj(fields), "name", JStr("Unknown Channel")), t))
      && (posts == [] ==> r.reply == NoPosts)
  {
  }
}

=== FILE: ingest.dfy ===
/** The `ingest_history` tool: reads a chat export, keeps its text messages, and prints a
    summary with the most recent messages and a random sample. The export is an
    already-decoded JSON value; randomness is an oracle that draws positions. */
module Ingest {
  import opened Strings
  import opened Json

  // ---------------------------------------------------------------- the message list

  /** The message list of an export: a top-level list is the list itself, a dict with
      "messages" gives that field (of any type), anything else gives no messages. */
  function RawMessages(data: Json): (r: Json)
    ensures data.JArr? ==> r == data
    ensures data.JObj? && HasKey(data, "messages") ==> r == Get(data, "messages").value
    ensures !data.JArr? && !(data.JObj? && HasKey(data, "messages")) ==> r == JArr([])
  {
    if data.JArr? then data
    else if data.JObj? && HasKey(data, "messages") then Get(data, "messages").value
    else JArr([])
  }

  /** `len(messages)` followed by `for m in messages`: values without a length raise. */
  function MessageItems(messages: Json): (r: Result<seq<Json>>)
    ensures r.Ok? <==> messages.JArr? || messages.JStr? || messages.JObj?
    ensures messages.JArr? ==> r == Ok(messages.items)
  {
    match Iterate(messages)
    case Some(items) => Ok(items)
    case None => Raised("object of type '" + TypeName(messages) + "' has no len()")
  }

  // ---------------------------------------------------------------- text messages

  /** A kept message: its date and its (normalised) text. */
  datatype TextMessage = TextMessage(date: Json, text: string)

  /** The entity texts, which must all be strings for `"".join` to succeed. */
  function JoinEntityTexts(entities: seq<Json>, index: nat): (r: Result<string>)
    ensures r.Ok? <==> forall k :: 0 <= k < |entities| && entities[k].JObj? && HasKey(entities[k], "text") ==>
      Get(entities[k], "text").value.JStr?
    ensures entities == [] ==> r == Ok("")
    decreases |entities|
  {
    if entities == [] then Ok("")
    else
      var e := entities[0];
      if e.JObj? && HasKey(e, "text") then
        var t := Get(e, "text").value;
        if !t.JStr? then Raised("sequence item " + NatToString(index) + ": expected str instance, " + TypeName(t) + " found")
        else match JoinEntityTexts(entities[1..], index + 1)
          case Raised(err) => Raised(err)
          case Ok(rest) => Ok(t.s + rest)
      else JoinEntityTexts(entities[1..], index)
  }

  /** The text of one message as the tool sees it, before the keep test. */
  function RawText(m: Json): (r: Result<Json>)
    requires m.JObj?
    ensures Truthy(GetOr(m, "text", JStr(""))) || !HasKey(m, "text_entities") ==> r == Ok(GetOr(m, "text", JStr("")))
    ensures !Truthy(GetOr(m, "text", JStr(""))) && HasKey(m, "text_entities") ==>
      var entities := Get(m, "text_entities").value;
      && (Iterate(entities).None? ==> r == Raised(NotIterable(entities)))
      && (Iterate(entities).Some? && JoinEntityTexts(Iterate(entities).value, 0).Raised? ==>
            r == Raised(JoinEntityTexts(Iterate(entities).value, 0).error))
      && (Iterate(entities).Some? && JoinEntityTexts(Iterate(entities).value, 0).Ok? ==>
            r == Ok(JStr(JoinEntityTexts(Iterate(entities).value, 0).value)))
  {
    var text := GetOr(m, "text", JStr(""));
    if !Truthy(text) && HasKey(m, "text_entities") then
      var entities := Get(m, "text_entities").value;
      match Iterate(entities)
      case None => Raised(NotIterable(entities))
      case Some(es) =>
        match JoinEntityTexts(es, 0)
        case Raised(e) => Raised(e)
        case Ok(s) => Ok(JStr(s))
    else Ok(text)
  }

  /** Only string texts that are not blank are kept. */
  predicate KeepsText(t: Json)
  {
    t.JStr? && Strip(t.s) != ""
  }

  function Item(m: Json): (r: Result<seq<TextMessage>>)
    ensures !m.JObj? || Get(m, "type") == Some(JStr("service")) ==> r == Ok([])
    ensures r.Ok? ==> |r.value| <= 1
    ensures r.Ok? && |r.value| == 1 ==> Strip(r.value[0].text) != ""
    ensures m.JObj? && Get(m, "type") != Some(JStr("service")) ==>
      && (RawText(m).Raised? ==> r == Raised(RawText(m).error))
      && (RawText(m).Ok? && KeepsText(RawText(m).value) ==>
            r == Ok([TextMessage(GetOr(m, "date", JStr("Unknown date")), RawText(m).value.s)]))
      && (RawText(m).Ok? && !KeepsText(RawText(m).value) ==> r == Ok([]))
  {
    if !m.JObj? || Get(m, "type") == Some(JStr("service")) then Ok([])
    else match RawText(m)
      case Raised(e) => Raised(e)
      case Ok(t) => Ok(if KeepsText(t) then [TextMessage(GetOr(m, "date", JStr("Unknown date")), t.s)] else [])
  }

  /** What one item adds to the kept messages: its message, or nothing when it is skipped
      or raises. */
  function Contributed(m: Json): (r: seq<TextMessage>)
    ensures |r| <= 1
  {
    var item := Item(m);
    if item.Ok? then item.value else []
  }

  /** The kept messages, in order (an item that would raise yields none). */
  function Kept(items: seq<Json>): (r: seq<TextMessage>)
    ensures |r| <= |items|
  {
    if items == [] then [] else Contributed(items[0]) + Kept(items[1..])
  }

  function FirstRaise(items: seq<Json>): (r: Option<string>)
    ensures r.None? <==> forall k :: 0 <= k < |items| ==> Item(items[k]).Ok?
  {
    if items == [] then None
    else if Item(items[0]).Raised? then Some(Item(items[0]).error)
    else
      assert forall k :: 1 <= k < |items| ==> items[k] == items[1..][k - 1];
      FirstRaise(items[1..])
  }

  /** The filtering loop; the first exception ends it. */
  function TextMessages(items: seq<Json>): (r: Result<seq<TextMessage>>)
    ensures r.Ok? <==> forall k :: 0 <= k < |items| ==> Item(items[k]).Ok?
    ensures r.Ok? ==> r.value == Kept(items)
  {
    match FirstRaise(items)
    case Some(e) => Raised(e)
    case None => Ok(Kept(items))
  }

  /** A dict, non-service message whose text is a non-blank string is kept, with its date. */
  lemma {:induction false} QualifyingMessageKept(items: seq<Json>, k: nat)
    requires k < |items| && items[k].JObj? && Get(items[k], "type") != Some(JStr("service"))
    requires RawText(items[k]).Ok? && KeepsText(RawText(items[k]).value)
    ensures TextMessage(GetOr(items[k], "date", JStr("Unknown date")), RawText(items[k]).value.s) in Kept(items)
    decreases k
  {
    var t := TextMessage(GetOr(items[k], "date", JStr("Unknown date")), RawText(items[k]).value.s);
    assert Kept(items) == Contributed(items[0]) + Kept(items[1..]);
    if k == 0 {
      assert Item(items[0]) == Ok([t]);
      assert Contributed(items[0]) == [t];
    } else {
      assert items[1..][k - 1] == items[k];
      QualifyingMessageKept(items[1..], k - 1);
      assert t in Kept(items[1..]);
    }
  }

  /** Every kept message comes from one item: the message that item yields. */
  lemma {:induction false} KeptComesFromItem(items: seq<Json>, t: TextMessage)
    requires t in Kept(items)
    ensures exists k :: 0 <= k < |items| && Item(items[k]) == Ok([t])
    decreases |items|
  {
    if t in Contributed(items[0]) {
      assert Item(items[0]) == Ok([t]);
    } else {
      KeptComesFromItem(items[1..], t);
      var k :| 0 <= k < |items[1..]| && Item(items[1..][k]) == Ok([t]);
      assert items[1..][k] == items[k + 1];
    }
  }

  /** Filtering keeps the export's order. */
  lemma {:induction false} KeptConcat(a: seq<Json>, b: seq<Json>)
    ensures Kept(a + b) == Kept(a) + Kept(b)
    decreases |a|
  {
    if a != [] {
      KeptCons(a, b);
      KeptConcat(a[1..], b);
      var first := Contributed(a[0]);
      assert Kept(a) == first + Kept(a[1..]);
      AppendAssoc(first, Kept(a[1..]), Kept(b));
    } else {
      assert a + b == b;
    }
  }

  /** One unfolding of the filter on a concatenation. */
  lemma KeptCons(a: seq<Json>, b: seq<Json>)
    requires a != []
    ensures Kept(a + b) == Contributed(a[0]) + Kept(a[1..] + b)
  {
    assert (a + b)[0] == a[0];
    assert (a + b)[1..] == a[1..] + b;
  }

  // ---------------------------------------------------------------- sampling

  /** `random.sample(pop, k)`: k draws without replacement; `draw(i, n)` picks among the n
      elements still available at the i-th draw. */
  function Sample<T>(pop: seq<T>, k: nat, draw: (nat, nat) -> nat, i: nat): (r: seq<T>)
    requires k <= |pop|
    ensures |r| == k
    ensures multiset(r) <= multiset(pop)
    decreases k
  {
    if k == 0 then []
    else
      var j := draw(i, |pop|) % |pop|;
      var rest := pop[..j] + pop[j + 1..];
      assert pop == pop[..j] + [pop[j]] + pop[j + 1..];
      assert multiset(pop) == multiset(rest) + multiset{pop[j]};
      [pop[j]] + Sample(rest, k - 1, draw, i + 1)
  }

  /** The last ten kept messages, each cut to 200 characters. */
  function RecentLines(recent: seq<TextMessage>): (r: seq<string>)
    ensures |r| == |recent|
    ensures forall k :: 0 <= k < |recent| ==>
      r[k] == "- [" + PyStr(recent[k].date) + "] " + Take(recent[k].text, 200)
  {
    seq(|recent|, k requires 0 <= k < |recent| => "- [" + PyStr(recent[k].date) + "] " + Take(recent[k].text, 200))
  }

  function SampleLines(samples: seq<TextMessage>): (r: seq<string>)
    ensures |r| == |samples|
    ensures forall k :: 0 <= k < |samples| ==> r[k] == "- " + samples[k].text
  {
    seq(|samples|, k requires 0 <= k < |samples| => "- " + samples[k].text)
  }

  /** `text_messages[-10:]`. */
  function LastTen(kept: seq<TextMessage>): (r: seq<TextMessage>)
    ensures |r| == Min(10, |kept|)
    ensures r == kept[|kept| - |r|..]
  {
    if |kept| <= 10 then kept else kept[|kept| - 10..]
  }

  function Summary(kept: seq<TextMessage>, samples: seq<TextMessage>): string
  {
    Join(["Successfully ingested " + NatToString(|kept|) + " messages.", "", "## Recent Messages"]
         + RecentLines(LastTen(kept)) + ["", "## Random Samples"] + SampleLines(samples), "\n")
  }

  // ---------------------------------------------------------------- the tool

  datatype HistoryFile = NotFound | Undecodable | Decoded(data: Json)

  const NoTextMessages := "No text messages found in the file."
  const ErrorPrefix := "Error ingesting history: "

  /** `execute(file_path, sample_size)`. */
  function Execute(filePath: string, file: HistoryFile, sampleSize: int, draw: (nat, nat) -> nat): (r: string)
    ensures file.NotFound? ==> r == "Error: File not found at " + filePath
    ensures file.Undecodable? ==> r == "Error: Invalid JSON file."
    ensures file.Decoded? ==>
      var raw := RawMessages(file.data);
      && (!(raw.JArr? || raw.JStr? || raw.JObj?) ==> r == ErrorPrefix + "object of type '" + TypeName(raw) + "' has no len()")
      && (MessageItems(raw).Ok? && FirstRaise(MessageItems(raw).value).Some? ==>
            r == ErrorPrefix + FirstRaise(MessageItems(raw).value).value)
      && (MessageItems(raw).Ok? && FirstRaise(MessageItems(raw).value).None? ==>
            var kept := Kept(MessageItems(raw).value);
            && (kept == [] ==> r == NoTextMessages)
            && (kept != [] && sampleSize < 0 ==> r == ErrorPrefix + "Sample larger than population or is negative")
            && (kept != [] && sampleSize >= 0 ==> r == Summary(kept, Sample(kept, Min(sampleSize, |kept|), draw, 0))))
  {
    match file
    case NotFound => "Error: File not found at " + filePath
    case Undecodable => "Error: Invalid JSON file."
    case Decoded(data) =>
      match MessageItems(RawMessages(data))
      case Raised(e) => ErrorPrefix + e
      case Ok(items) =>
        match TextMessages(items)
        case Raised(e) => ErrorPrefix + e
        case Ok(kept) =>
          if kept == [] then NoTextMessages
          else
            var k := Min(sampleSize, |kept|);
            if k < 0 then ErrorPrefix + "Sample larger than population or is negative"
            else Summary(kept, Sample(kept, k, draw, 0))
  }

  /** An export whose top level is neither a list nor a dict with "messages" has no messages. */
  lemma UnknownFormatHasNoMessages(filePath: string, data: Json, sampleSize: int, draw: (nat, nat) -> nat)
    requires !data.JArr? && !(data.JObj? && HasKey(data, "messages"))
    ensures Execute(filePath, Decoded(data), sampleSize, draw) == NoTextMessages
  {
    assert Kept([]) == [];
  }

  /** For a readable export with text messages and a non-negative sample size, the summary
      counts every kept message, shows the last ten of them, and samples
      min(sample_size, total) of them without replacement. */
  lemma SummaryShape(kept: seq<TextMessage>, sampleSize: nat, draw: (nat, nat) -> nat)
    requires kept != []
    ensures var samples := Sample(kept, Min(sampleSize, |kept|), draw, 0);
      && |samples| == Min(sampleSize, |kept|)
      && multiset(samples) <= multiset(kept)
      && IsPrefix("Successfully ingested " + NatToString(|kept|) + " messages.", Summary(kept, samples))
  {
    var samples := Sample(kept, Min(sampleSize, |kept|), draw, 0);
    JoinPrefix(["Successfully ingested " + NatToString(|kept|) + " messages.", "", "## Recent Messages"]
               + RecentLines(LastTen(kept)) + ["", "## Random Samples"] + SampleLines(samples), "\n");
  }

  /** A message whose text is a non-empty list is dropped here, because only string texts are
      kept (the importer concatenates such lists instead). */
  lemma ListTextDropped(m: Json)
    requires m.JObj? && Get(m, "type") != Some(JStr("service"))
    requires GetOr(m, "text", JStr("")).JArr? && GetOr(m, "text", JStr("")).items != []
    ensures Item(m) == Ok([])
  {
    var t := GetOr(m, "text", JStr(""));
    assert Truthy(t);
    assert RawText(m) == Ok(t);
    assert !KeepsText(t);
  }

  /** A message with a falsy text whose `text_entities` cannot be iterated raises the
      iteration TypeError, which ends the whole ingest. */
  lemma EntitiesNotIterableRaise(m: Json)
    requires m.JObj? && Get(m, "type") != Some(JStr("service"))
    requires !Truthy(GetOr(m, "text", JStr(""))) && HasKey(m, "text_entities")
    requires Iterate(Get(m, "text_entities").value).None?
    ensures Item(m) == Raised(NotIterable(Get(m, "text_entities").value))
    ensures FirstRaise([m]) == Some(NotIterable(Get(m, "text_entities").value))
  {
  }
}

=== FILE: json.dfy ===
/** Already-decoded JSON values, and the Python operations the tools apply to them:
    truthiness, `dict.get`, iteration and `str()`. Floats are not represented. */
module Json {
  import opened Strings

  datatype Json =
    | JNull
    | JBool(b: bool)
    | JInt(i: int)
    | JStr(s: string)
    | JArr(items: seq<Json>)
    | JObj(fields: seq<(string, Json)>)   // insertion order, keys as decoded

  /** A Python operation that either yields a value or raises with the given message. */
  datatype Result<T> = Ok(value: T) | Raised(error: string)

  /** Python `bool(v)`. */
  predicate Truthy(j: Json)
  {
    match j
    case JNull => false
    case JBool(b) => b
    case JInt(i) => i != 0
    case JStr(s) => s != ""
    case JArr(items) => items != []
    case JObj(fields) => fields != []
  }

  function Lookup(fields: seq<(string, Json)>, key: string): (r: Option<Json>)
    ensures r.Some? <==> exists k :: 0 <= k < |fields| && fields[k].0 == key
  {
    if fields == [] then None
    else if fields[0].0 == key then Some(fields[0].1)
    else Lookup(fields[1..], key)
  }

  /** `key in d` for a dict; false for every other value. */
  predicate HasKey(j: Json, key: string)
  {
    j.JObj? && Lookup(j.fields, key).Some?
  }

  /** `d.get(key)` for a dict (None when `j` is not a dict or the key is absent). */
  function Get(j: Json, key: string): Option<Json>
  {
    if j.JObj? then Lookup(j.fields, key) else None
  }

  /** `d.get(key, default)`. */
  function GetOr(j: Json, key: string, default: Json): Json
  {
    match Get(j, key)
    case Some(v) => v
    case None => default
  }

  /** `v.get(key, default)` where `v` need not be a dict: anything else raises AttributeError. */
  function DictGet(v: Json, key: string, default: Json): (r: Result<Json>)
    ensures r.Ok? <==> v.JObj?
    ensures v.JObj? ==> r.value == GetOr(v, key, default)
  {
    if v.JObj? then Ok(GetOr(v, key, default))
    else Raised("'" + TypeName(v) + "' object has no attribute 'get'")
  }

  /** Python's name of the value's type, as quoted in its error messages. */
  function TypeName(j: Json): string
  {
    match j
    case JNull => "NoneType"
    case JBool(_) => "bool"
    case JInt(_) => "int"
    case JStr(_) => "str"
    case JArr(_) => "list"
    case JObj(_) => "dict"
  }

  /** `for x in j`: a list yields its items, a string its characters, a dict its keys;
      anything else raises TypeError (None here). */
  function Iterate(j: Json): (r: Option<seq<Json>>)
    ensures r.Some? <==> (j.JArr? || j.JStr? || j.JObj?)
    ensures j.JArr? ==> r == Some(j.items)
    ensures j.JStr? || j.JObj? ==> forall k :: 0 <= k < |r.value| ==> r.value[k].JStr?
  {
    match j
    case JArr(items) => Some(items)
    case JStr(s) => Some(seq(|s|, k requires 0 <= k < |s| => JStr([s[k]])))
    case JObj(fields) => Some(seq(|fields|, k requires 0 <= k < |fields| => JStr(fields[k].0)))
    case _ => None
  }

  function NotIterable(j: Json): string
  {
    "'" + TypeName(j) + "' object is not iterable"
  }

  /** Python `str(v)`. String escaping inside `repr` is not modelled. */
  function PyStr(j: Json): string
    decreases j, 3, 0
  {
    match j
    case JStr(s) => s
    case _ => PyRepr(j)
  }

  /** Python `repr(v)`. */
  function PyRepr(j: Json): string
    decreases j, 2, 0
  {
    match j
    case JNull => "None"
    case JBool(b) => if b then "True" else "False"
    case JInt(i) => IntToString(i)
    case JStr(s) => "'" + s + "'"
    case JArr(items) => "[" + Join(ReprItems(j, items), ", ") + "]"
    case JObj(fields) => "{" + Join(ReprFields(j, fields), ", ") + "}"
  }

  function ReprItems(parent: Json, items: seq<Json>): seq<string>
    requires forall k :: 0 <= k < |items| ==> items[k] < parent
    decreases parent, 1, |items|
  {
    if items == [] then [] else [PyRepr(items[0])] + ReprItems(parent, items[1..])
  }

  function ReprFields(parent: Json, fields: seq<(string, Json)>): seq<string>
    requires forall k :: 0 <= k < |fields| ==> fields[k].1 < parent
    decreases parent, 1, |fields|
  {
    if fields == [] then []
    else ["'" + fields[0].0 + "': " + PyRepr(fields[0].1)] + ReprFields(parent, fields[1..])
  }
}

=== FILE: memory_tools.dfy ===
/** The `add_to_memory` and `update_persona` tools. The long-term memory file and the persona
    file are plain strings here; a missing persona file reads as "". */
module MemoryTools {
  import opened Strings
  import Context

  const MemoryAdded := "Successfully added to long-term memory."
  const PersonaUpdated := "Successfully updated persona."

  /** The bullet one call adds. */
  function Bullet(content: string): string
  {
    "- " + content
  }

  /** `add_to_memory(content)` on the current long-term memory: the reply and the new memory.
      An empty memory becomes the bullet; otherwise the bullet follows a blank line. */
  function AddToMemory(current: string, content: string): (r: (string, string))
    ensures r.0 == MemoryAdded
    ensures current == "" ==> r.1 == Bullet(content)
    ensures current != "" ==> IsPrefix(current, r.1) && r.1[|current|..] == "\n\n" + Bullet(content)
  {
    var next := if current != "" then current + "\n\n" + Bullet(content) else Bullet(content);
    assert current != "" ==> next[|current|..] == "\n\n" + Bullet(content);
    (MemoryAdded, next)
  }

  /** Adding several entries one call at a time, starting from `current`. */
  function AddAll(current: string, contents: seq<string>): string
    decreases |contents|
  {
    if contents == [] then current else AddAll(AddToMemory(current, contents[0]).1, contents[1..])
  }

  function Bullets(contents: seq<string>): (r: seq<string>)
    ensures |r| == |contents| && forall k :: 0 <= k < |contents| ==> r[k] == Bullet(contents[k])
  {
    seq(|contents|, k requires 0 <= k < |contents| => Bullet(contents[k]))
  }

  /** Starting from an empty memory, the memory after the calls holds one bullet per call, in
      call order, separated by blank lines. */
  lemma {:induction false} AddAllFromEmpty(contents: seq<string>)
    ensures AddAll("", contents) == Join(Bullets(contents), "\n\n")
  {
    if contents != [] {
      AddAllOnto(Bullet(contents[0]), contents[1..]);
      assert Bullets(contents) == [Bullet(contents[0])] + Bullets(contents[1..]);
    }
  }

  /** Further calls append their bullets after a non-empty memory. */
  lemma {:induction false} AddAllOnto(current: string, contents: seq<string>)
    requires current != ""
    ensures AddAll(current, contents) == Join([current] + Bullets(contents), "\n\n")
    decreases |contents|
  {
    if contents == [] {
      assert [current] + Bullets(contents) == [current];
    } else {
      var next := current + "\n\n" + Bullet(contents[0]);
      AddAllOnto(next, contents[1..]);
      JoinFold(current, Bullet(contents[0]), Bullets(contents[1..]), "\n\n");
      assert Bullets(contents) == [Bullet(contents[0])] + Bullets(contents[1..]);
      assert [current] + Bullets(contents) == [current] + ([Bullet(contents[0])] + Bullets(contents[1..]));
    }
  }

  /** Joining `a`, `b` and the rest is joining `a + sep + b` and the rest. */
  lemma {:induction false} JoinFold(a: string, b: string, rest: seq<string>, sep: string)
    ensures Join([a + sep + b] + rest, sep) == Join([a] + ([b] + rest), sep)
  {
    assert ([a] + ([b] + rest))[1..] == [b] + rest;
    if rest == [] {
      assert [a + sep + b] + rest == [a + sep + b];
      assert ([b] + rest) == [b];
    } else {
      assert ([a + sep + b] + rest)[1..] == rest;
      assert ([b] + rest)[1..] == rest;
    }
  }

  /** `update_persona(content)`: the reply and the persona file afterwards. Whatever the
      file held before, it exists afterwards and `get_persona()` reads back the content. */
  function UpdatePersona(persona: Option<string>, content: string): (r: (string, Option<string>))
    ensures r.0 == PersonaUpdated
    ensures r.1.Some? && GetPersona(r.1) == content
  {
    (PersonaUpdated, Some(content))
  }

  /** `get_persona()`. */
  function GetPersona(persona: Option<string>): (r: string)
    ensures persona.None? ==> r == ""
    ensures persona.Some? ==> r == persona.value
  {
    if persona.Some? then persona.value else ""
  }

  /** After an update, the persona read back is the content, and the next system prompt has a
      persona section exactly when that content is not empty. */
  lemma PersonaRoundTrip(persona: Option<string>, content: string, ws: Context.Workspace)
    ensures GetPersona(UpdatePersona(persona, content).1) == content
    ensures var next := ws.(persona := GetPersona(UpdatePersona(persona, content).1));
      Context.PersonaSection in Context.Sections(next) <==> content != ""
  {
  }
}

=== FILE: reminder.dfy ===
/** The `create_reminder` tool: the natural-language time parser on an integer clock of
    seconds (days of 86400 seconds, no time zones), and the checks `execute` makes before it
    schedules a one-shot job. */
module Reminder {
  import opened Strings

  const Minute := 60
  const Hour := 3600
  const Day := 86400

  /** Midnight of the day `now` falls in. */
  function DayStart(now: nat): (r: nat)
    ensures r <= now < r + Day && r % Day == 0
  {
    now - now % Day
  }

  /** A day later is the next day's midnight plus the same time of day. */
  lemma DayStartNext(now: nat)
    ensures DayStart(now + Day) == DayStart(now) + Day
  {
    assert (now + Day) % Day == now % Day;
  }

  /** `now.replace(hour=h, minute=m, second=0)`, moved to the next day when it is already past. */
  function NextClock(now: nat, h: nat, m: nat): (r: nat)
    requires h < 24 && m < 60
    ensures now <= r < now + Day
    ensures r % Day == h * Hour + m * Minute
  {
    var today := DayStart(now) + h * Hour + m * Minute;
    if today < now then today + Day else today
  }

  // ---------------------------------------------------------------- pattern helpers

  predicate Space(c: char) { IsSpace(c) }
  predicate Digit(c: char) { IsDigit(c) }

  const Via := "через"

  /** Where `через\s+(\d+)\s+<unit>` matches at `i`, the digits of the group. Each run is
      followed by a character the next part needs and the run cannot give back, so the
      greedy runs are the only way to match. */
  function RelativeAt(s: string, unit: string, i: nat): (r: Option<string>)
    ensures r.Some? ==> OccursAt(s, Via, i) && r.value != [] && forall k :: 0 <= k < |r.value| ==> IsDigit(r.value[k])
  {
    if !OccursAt(s, Via, i) then None
    else
      var a := i + |Via|;
      var w1 := Run(s, a, Space);
      var d := Run(s, a + w1, Digit);
      if w1 == 0 || d == 0 then None
      else
        var w2 := Run(s, a + w1 + d, Space);
        if w2 == 0 || !OccursAt(s, unit, a + w1 + d + w2) then None
        else Some(s[a + w1..a + w1 + d])
  }

  /** The least position in [from, to) where `p` holds: where a left-to-right scan such as
      `re.search` stops. */
  function First(p: nat -> bool, from: nat, to: nat): (r: Option<nat>)
    ensures r.Some? ==> from <= r.value < to && p(r.value)
    ensures r.None? ==> (forall j: nat :: from <= j < to ==> !p(j))
    decreases (to as int) - (from as int)
  {
    if from >= to then None
    else if p(from) then Some(from)
    else First(p, from + 1, to)
  }

  /** Nothing before the position found satisfies `p`. */
  lemma {:induction false} FirstLeftmost(p: nat -> bool, from: nat, to: nat)
    requires First(p, from, to).Some?
    ensures forall j: nat :: from <= j < First(p, from, to).value ==> !p(j)
    decreases (to as int) - (from as int)
  {
    if !p(from) {
      FirstLeftmost(p, from + 1, to);
    }
  }

  /** The positions where the relative pattern matches. */
  function RelativeHere(s: string, unit: string): nat -> bool
  {
    (i: nat) => RelativeAt(s, unit, i).Some?
  }

  /** The digits `re.search` of the relative pattern captures. */
  function SearchRelative(s: string, unit: string, from: nat): (r: Option<string>)
    ensures r.Some? ==> exists i: nat :: from <= i < |s| && RelativeAt(s, unit, i) == r
    ensures r.None? ==> forall i: nat :: from <= i < |s| ==> RelativeAt(s, unit, i).None?
  {
    match First(RelativeHere(s, unit), from, |s|)
    case None =>
      assert forall i: nat :: from <= i < |s| ==> RelativeAt(s, unit, i).None? by {
        forall i: nat | from <= i < |s| ensures RelativeAt(s, unit, i).None? {
          assert !RelativeHere(s, unit)(i);
        }
      }
      None
    case Some(i) => RelativeAt(s, unit, i)
  }

  /** `re.search` reports the leftmost match of the relative pattern, and none only when it
      matches nowhere. */
  lemma SearchRelativeLeftmost(s: string, unit: string)
    ensures SearchRelative(s, unit, 0).Some? ==>
      exists i: nat :: i < |s| && RelativeAt(s, unit, i) == SearchRelative(s, unit, 0)
        && (forall j: nat :: j < i ==> RelativeAt(s, unit, j).None?)
    ensures SearchRelative(s, unit, 0).None? <==> forall i: nat :: i < |s| ==> RelativeAt(s, unit, i).None?
  {
    var f := First(RelativeHere(s, unit), 0, |s|);
    if f.Some? {
      FirstLeftmost(RelativeHere(s, unit), 0, |s|);
      assert RelativeHere(s, unit)(f.value);
      assert RelativeAt(s, unit, f.value) == SearchRelative(s, unit, 0);
      assert forall j: nat :: j < f.value ==> RelativeAt(s, unit, j).None? by {
        forall j: nat | j < f.value ensures RelativeAt(s, unit, j).None? {
          assert !RelativeHere(s, unit)(j);
        }
      }
    }
  }

  function D(c: char): nat
    requires IsDigit(c)
  {
    DigitValue(c)
  }

  /** Where `(\d{1,2}):(\d{2})` matches at `i`: two hour digits are tried before one. */
  function ClockAt(s: string, i: nat): (r: Option<(nat, nat)>)
    ensures r.Some? ==> r.value.0 < 100 && r.value.1 < 100
  {
    if i + 5 <= |s| && IsDigit(s[i]) && IsDigit(s[i + 1]) && s[i + 2] == ':' && IsDigit(s[i + 3]) && IsDigit(s[i + 4])
    then Some((D(s[i]) * 10 + D(s[i + 1]), D(s[i + 3]) * 10 + D(s[i + 4])))
    else if i + 4 <= |s| && IsDigit(s[i]) && s[i + 1] == ':' && IsDigit(s[i + 2]) && IsDigit(s[i + 3])
    then Some((D(s[i]), D(s[i + 2]) * 10 + D(s[i + 3])))
    else None
  }

  /** The positions where the clock pattern matches. */
  function ClockHere(s: string): nat -> bool
  {
    (i: nat) => ClockAt(s, i).Some?
  }

  /** The hour and minute `re.search` of the clock pattern captures. */
  function SearchClock(s: string, from: nat): (r: Option<(nat, nat)>)
    ensures r.Some? ==> exists i: nat :: from <= i < |s| && ClockAt(s, i) == r
    ensures r.None? ==> forall i: nat :: from <= i < |s| ==> ClockAt(s, i).None?
  {
    match First(ClockHere(s), from, |s|)
    case None =>
      assert forall i: nat :: from <= i < |s| ==> ClockAt(s, i).None? by {
        forall i: nat | from <= i < |s| ensures ClockAt(s, i).None? {
          assert !ClockHere(s)(i);
        }
      }
      None
    case Some(i) => ClockAt(s, i)
  }

  /** `re.search` reports the leftmost match of the clock pattern, and none only when it
      matches nowhere. */
  lemma SearchClockLeftmost(s: string)
    ensures SearchClock(s, 0).Some? ==>
      exists i: nat :: i < |s| && ClockAt(s, i) == SearchClock(s, 0) && (forall j: nat :: j < i ==> ClockAt(s, j).None?)
    ensures SearchClock(s, 0).None? <==> forall i: nat :: i < |s| ==> ClockAt(s, i).None?
  {
    var f := First(ClockHere(s), 0, |s|);
    if f.Some? {
      FirstLeftmost(ClockHere(s), 0, |s|);
      assert ClockHere(s)(f.value);
      assert ClockAt(s, f.value) == SearchClock(s, 0);
      assert forall j: nat :: j < f.value ==> ClockAt(s, j).None? by {
        forall j: nat | j < f.value ensures ClockAt(s, j).None? {
          assert !ClockHere(s)(j);
        }
      }
    }
  }

  // ---------------------------------------------------------------- _parse_time

  /** What `_parse_time` returns: a time, or the ValueError `datetime.replace` raises. */
  datatype Parsed = At(time: nat) | BadTime(error: string)

  predicate IsEvening(w: string) { Contains(w, "вечер") || Contains(w, "evening") }
  predicate IsMorning(w: string) { Contains(w, "утр") || Contains(w, "morning") }
  predicate IsTomorrow(w: string) { Contains(w, "завтра") || Contains(w, "tomorrow") }

  /** The normalised request: lowercased, then stripped. */
  function Normal(when: string): string
  {
    Strip(Lower(when))
  }

  /** The rule of `_parse_time` that applies to a normalised request; the first one in the
      source's order wins. */
  datatype Rule =
    | Evening | Morning | Tomorrow
    | InHours(n: nat) | InMinutes(n: nat) | InSeconds(n: nat)
    | ClockTime(h: nat, m: nat)
    | Default

  function Amount(m: Option<string>): nat
    requires m.Some? ==> forall k :: 0 <= k < |m.value| ==> IsDigit(m.value[k])
  {
    if m.Some? then ParseNat(m.value) else 0
  }

  function Classify(w: string): (r: Rule)
    ensures r.Evening? <==> IsEvening(w)
    ensures r.Morning? <==> !IsEvening(w) && IsMorning(w)
    ensures r.Tomorrow? <==> !IsEvening(w) && !IsMorning(w) && IsTomorrow(w)
    ensures r.InHours? || r.InMinutes? || r.InSeconds? || r.ClockTime? || r.Default? ==>
      !IsEvening(w) && !IsMorning(w) && !IsTomorrow(w)
    ensures r.InHours? ==> SearchRelative(w, "час", 0).Some? && r.n == Amount(SearchRelative(w, "час", 0))
    ensures r.InMinutes? ==>
      && SearchRelative(w, "час", 0).None? && SearchRelative(w, "мин", 0).Some?
      && r.n == Amount(SearchRelative(w, "мин", 0))
    ensures r.InSeconds? ==>
      && SearchRelative(w, "час", 0).None? && SearchRelative(w, "мин", 0).None?
      && SearchRelative(w, "сек", 0).Some? && r.n == Amount(SearchRelative(w, "сек", 0))
    ensures r.ClockTime? ==>
      && SearchRelative(w, "час", 0).None? && SearchRelative(w, "мин", 0).None?
      && SearchRelative(w, "сек", 0).None? && SearchClock(w, 0) == Some((r.h, r.m))
    ensures r.Default? <==>
      && !IsEvening(w) && !IsMorning(w) && !IsTomorrow(w)
      && SearchRelative(w, "час", 0).None? && SearchRelative(w, "мин", 0).None?
      && SearchRelative(w, "сек", 0).None? && SearchClock(w, 0).None?
  {
    if IsEvening(w) then Evening
    else if IsMorning(w) then Morning
    else if IsTomorrow(w) then Tomorrow
    else if SearchRelative(w, "час", 0).Some? then InHours(Amount(SearchRelative(w, "час", 0)))
    else if SearchRelative(w, "мин", 0).Some? then InMinutes(Amount(SearchRelative(w, "мин", 0)))
    else if SearchRelative(w, "сек", 0).Some? then InSeconds(Amount(SearchRelative(w, "сек", 0)))
    else match SearchClock(w, 0)
      case Some((h, m)) => ClockTime(h, m)
      case None => Default
  }

  /** The time a rule gives at `now`, or the error `datetime.replace` raises for an
      out-of-range clock time (the hour is checked first). */
  function TimeOf(rule: Rule, now: nat): (r: Parsed)
    ensures r.BadTime? <==> rule.ClockTime? && (rule.h > 23 || rule.m > 59)
    ensures r.At? ==> r.time >= now
    ensures rule.Evening? ==> r.time % Day == 18 * Hour && r.time < now + Day
    ensures rule.Morning? || rule.Tomorrow? ==> r.time % Day == 9 * Hour
    ensures rule.Morning? ==> r.time < now + Day
    ensures rule.Tomorrow? ==> DayStart(r.time) == DayStart(now) + Day
    ensures rule.InHours? ==> r.time == now + rule.n * Hour
    ensures rule.InMinutes? ==> r.time == now + rule.n * Minute
    ensures rule.InSeconds? ==> r.time == now + rule.n
    ensures r.At? && rule.ClockTime? ==> r.time < now + Day && r.time % Day == rule.h * Hour + rule.m * Minute
    ensures rule.Default? ==> r.time == now + Hour
  {
    match rule
    case Evening => At(NextClock(now, 18, 0))
    case Morning => At(NextClock(now, 9, 0))
    case Tomorrow =>
      DayStartNext(now);
      var t := DayStart(now + Day) + 9 * Hour;
      assert t % Day == 9 * Hour && DayStart(t) == DayStart(now) + Day by { MidnightPlus(DayStart(now + Day), 9 * Hour); }
      At(t)
    case InHours(n) => At(now + n * Hour)
    case InMinutes(n) => At(now + n * Minute)
    case InSeconds(n) => At(now + n)
    case ClockTime(h, m) =>
      if h > 23 then BadTime("hour must be in 0..23")
      else if m > 59 then BadTime("minute must be in 0..59")
      else At(NextClock(now, h, m))
    case Default => At(now + Hour)
  }

  /** A midnight plus a time of day less than a day. */
  lemma MidnightPlus(midnight: nat, t: nat)
    requires midnight % Day == 0 && t < Day
    ensures (midnight + t) % Day == t && DayStart(midnight + t) == midnight
  {
  }

  /** `_parse_time(when)` at time `now`. It never comes back empty: a request no rule
      recognises is an hour from now, and only an out-of-range HH:MM fails, by raising. */
  function ParseTime(when: string, now: nat): (r: Parsed)
    ensures r.At? ==> r.time >= now
    ensures r.BadTime? <==>
      && Classify(Normal(when)).ClockTime? && SearchClock(Normal(when), 0).Some?
      && (SearchClock(Normal(when), 0).value.0 > 23 || SearchClock(Normal(when), 0).value.1 > 59)
  {
    TimeOf(Classify(Normal(when)), now)
  }

  /** "завтра утром" (tomorrow morning) is read as "morning", which is tested first: the
      next 09:00, which may be today. */
  lemma TomorrowMorningIsMorning(when: string, now: nat)
    requires Normal(when) == "завтра утром"
    ensures ParseTime(when, now).At? && ParseTime(when, now).time < now + Day
    ensures ParseTime(when, now).time % Day == 9 * Hour
  {
    var w := Normal(when);
    assert !IsEvening(w) && IsMorning(w) by { TomorrowMorningWords(w); }
    var rule := Classify(w);
    assert rule.Morning?;
    assert ParseTime(when, now) == TimeOf(rule, now);
  }

  /** "завтра утром" mentions the morning and not the evening. */
  lemma TomorrowMorningWords(w: string)
    requires w == "завтра утром"
    ensures !IsEvening(w) && IsMorning(w)
  {
    NotContainedByLetters(w, "вечер", 'е');
    NotContainedByLetters(w, "evening", 'e');
    assert OccursAt(w, "утр", 7);
    ContainsIffOccurs(w, "утр");
  }

  /** A word that holds a letter the text lacks does not occur in it. */
  lemma NotContainedByLetters(s: string, sub: string, c: char)
    requires c in sub && c !in s
    ensures !Contains(s, sub)
  {
    ContainsIffOccurs(s, sub);
  }

  // ---------------------------------------------------------------- execute

  /** The tool's state: whether a cron service was given, and the chat the loop last set. */
  datatype ReminderTool = ReminderTool(hasCron: bool, chatId: Option<string>)

  /** `set_chat_context(chat_id)`: the chat later calls fall back to. */
  function SetChatContext(t: ReminderTool, chatId: string): (r: ReminderTool)
    ensures r.chatId == Some(chatId) && r.hasCron == t.hasCron
  {
    t.(chatId := Some(chatId))
  }

  /** A scheduled one-shot job. */
  datatype Job = Job(atMs: nat, message: string, channel: string, to: string, deleteAfterRun: bool)

  const NoCron := "❌ Reminder system not available (cron service not initialized)."
  const NoChat := "❌ No chat ID available. Cannot create reminder."
  const FailedPrefix := "❌ Failed to create reminder: "

  function Truthy(s: Option<string>): bool
  {
    s.Some? && s.value != ""
  }

  /** `chat_id or self._current_chat_id`: the chat the reminder goes to, if any. */
  function TargetChat(chatId: Option<string>, current: Option<string>): (r: Option<string>)
    ensures r.Some? <==> Truthy(chatId) || Truthy(current)
    ensures r.Some? ==> r.value != "" && (r == chatId || r == current)
    ensures Truthy(chatId) ==> r == chatId
  {
    if Truthy(chatId) then chatId else if Truthy(current) then current else None
  }

  function ReminderText(message: string): string
  {
    "⏰ Reminder:\n\n" + message
  }

  function Created(time: string, message: string): string
  {
    "✅ Reminder created! I'll send this message at " + time + ":\n\n" + message
  }

  /** `execute(message, when, chat_id)` at time `now`: the reply and the jobs after the call.
      `timeText` renders a time as the reply shows it. */
  function Execute(t: ReminderTool, message: string, when: string, chatId: Option<string>, now: nat,
                   timeText: nat -> string, jobs: seq<Job>): (r: (string, seq<Job>))
    ensures !t.hasCron ==> r == (NoCron, jobs)
    ensures t.hasCron && ParseTime(when, now).BadTime? ==> r == (FailedPrefix + ParseTime(when, now).error, jobs)
    ensures t.hasCron && ParseTime(when, now).At? && TargetChat(chatId, t.chatId).None? ==> r == (NoChat, jobs)
    ensures r.1 == jobs || (|r.1| == |jobs| + 1 && r.1 == jobs + [r.1[|jobs|]])
    ensures r.1 != jobs <==> t.hasCron && ParseTime(when, now).At? && TargetChat(chatId, t.chatId).Some?
    ensures r.1 != jobs ==>
      r.1[|jobs|] == Job(ParseTime(when, now).time * 1000, ReminderText(message), "telegram",
                         TargetChat(chatId, t.chatId).value, true)
    ensures r.1 != jobs ==> r.0 == Created(timeText(ParseTime(when, now).time), message)
  {
    if !t.hasCron then (NoCron, jobs)
    else match ParseTime(when, now)
      case BadTime(e) => (FailedPrefix + e, jobs)
      case At(target) =>
        match TargetChat(chatId, t.chatId)
        case None => (NoChat, jobs)
        case Some(to) =>
          var job := Job(target * 1000, ReminderText(message), "telegram", to, true);
          assert (jobs + [job])[|jobs|] == job;
          (Created(timeText(target), message), jobs + [job])
  }

  /** A request made only of digits and colons holds none of the keywords and no relative
      form, so its first HH:MM decides. */
  lemma DigitsAndColonsAreClock(w: string)
    requires forall k :: 0 <= k < |w| ==> IsDigit(w[k]) || w[k] == ':'
    requires ClockAt(w, 0).Some?
    ensures Classify(w) == ClockTime(ClockAt(w, 0).value.0, ClockAt(w, 0).value.1)
  {
    NoKeywords(w);
    NoRelativeForm(w);
  }

  lemma NoKeywords(w: string)
    requires forall k :: 0 <= k < |w| ==> IsDigit(w[k]) || w[k] == ':'
    ensures !IsEvening(w) && !IsMorning(w) && !IsTomorrow(w)
  {
    NotContainedByLetters(w, "вечер", 'в');
    NotContainedByLetters(w, "evening", 'e');
    NotContainedByLetters(w, "утр", 'у');
    NotContainedByLetters(w, "morning", 'm');
    NotContainedByLetters(w, "завтра", 'з');
    NotContainedByLetters(w, "tomorrow", 't');
  }

  lemma NoRelativeForm(w: string)
    requires forall k :: 0 <= k < |w| ==> IsDigit(w[k]) || w[k] == ':'
    ensures SearchRelative(w, "час", 0).None? && SearchRelative(w, "мин", 0).None? && SearchRelative(w, "сек", 0).None?
  {
    NoRelativeUnit(w, "час");
    NoRelativeUnit(w, "мин");
    NoRelativeUnit(w, "сек");
  }

  lemma NoRelativeUnit(w: string, unit: string)
    requires forall k :: 0 <= k < |w| ==> IsDigit(w[k]) || w[k] == ':'
    ensures SearchRelative(w, unit, 0).None?
  {
    forall i | 0 <= i < |w| ensures RelativeAt(w, unit, i).None? {
      NoViaAt(w, i);
    }
  }

  lemma NoViaAt(w: string, i: nat)
    requires forall k :: 0 <= k < |w| ==> IsDigit(w[k]) || w[k] == ':'
    ensures !OccursAt(w, Via, i)
  {
    if i + |Via| <= |w| {
      assert w[i..i + |Via|][0] == w[i];
    }
  }

  /** An hour past 23 is reported as a failure even when no chat is known, because the time
      is parsed before the chat is looked at. */
  lemma OutOfRangeHourReported(t: ReminderTool, message: string, when: string, now: nat,
                               timeText: nat -> string, jobs: seq<Job>)
    requires t.hasCron
    requires forall k :: 0 <= k < |Normal(when)| ==> IsDigit(Normal(when)[k]) || Normal(when)[k] == ':'
    requires ClockAt(Normal(when), 0).Some? && ClockAt(Normal(when), 0).value.0 > 23
    ensures Execute(t, message, when, None, now, timeText, jobs) == (FailedPrefix + "hour must be in 0..23", jobs)
  {
    DigitsAndColonsAreClock(Normal(when));
  }
}

=== FILE: strings.dfy ===
/** String helpers with the meaning of the Python `str` operations the bot uses:
    `lower`, `strip`, `in`, slicing, `split`, `join` and single-character `replace`. */
module Strings {

  datatype Option<T> = None | Some(value: T)

  /** Python `str.lower` on the alphabets the bot meets: ASCII and Cyrillic. */
  function LowerChar(c: char): char
  {
    if 'A' <= c <= 'Z' then (c as int + 32) as char
    else if '\U{410}' <= c <= '\U{42F}' then (c as int + 0x20) as char
    else if '\U{400}' <= c <= '\U{40F}' then (c as int + 0x50) as char
    else c
  }

  function Lower(s: string): (r: string)
    ensures |r| == |s|
    ensures forall i :: 0 <= i < |s| ==> r[i] == LowerChar(s[i])
  {
    if s == [] then [] else [LowerChar(s[0])] + Lower(s[1..])
  }

  /** Python `str.isspace` (also what `\s` matches in a `str` pattern). */
  predicate IsSpace(c: char)
  {
    c == ' ' || '\t' <= c <= '\r' || '\U{1C}' <= c <= '\U{1F}' || c == '\U{85}' || c == '\U{A0}'
    || c == '\U{1680}' || '\U{2000}' <= c <= '\U{200A}' || c == '\U{2028}' || c == '\U{2029}'
    || c == '\U{202F}' || c == '\U{205F}' || c == '\U{3000}'
  }

  /** `\d` restricted to ASCII digits. */
  predicate IsDigit(c: char)
  {
    '0' <= c <= '9'
  }

  /** `\w` on ASCII, Latin-1 and Cyrillic letters and digits, plus `_`. */
  predicate IsWordChar(c: char)
  {
    'a' <= c <= 'z' || 'A' <= c <= 'Z' || IsDigit(c) || c == '_'
    || c == '\U{AA}' || c == '\U{B2}' || c == '\U{B3}' || c == '\U{B5}' || c == '\U{B9}' || c == '\U{BA}'
    || '\U{BC}' <= c <= '\U{BE}' || '\U{C0}' <= c <= '\U{D6}' || '\U{D8}' <= c <= '\U{F6}'
    || '\U{F8}' <= c <= '\U{FF}' || '\U{400}' <= c <= '\U{481}' || '\U{48A}' <= c <= '\U{52F}'
  }

  function TrimStart(s: string): (r: string)
    ensures |r| <= |s| && r == s[|s| - |r|..]
    ensures r == [] || !IsSpace(r[0])
  {
    if s != [] && IsSpace(s[0]) then TrimStart(s[1..]) else s
  }

  function TrimEnd(s: string): (r: string)
    ensures |r| <= |s| && r == s[..|r|]
    ensures r == [] || !IsSpace(r[|r| - 1])
  {
    if s != [] && IsSpace(s[|s| - 1]) then TrimEnd(s[..|s| - 1]) else s
  }

  /** Python `str.strip()`. */
  function Strip(s: string): string
  {
    TrimEnd(TrimStart(s))
  }

  predicate AllSpace(s: string)
  {
    forall i :: 0 <= i < |s| ==> IsSpace(s[i])
  }

  /** `s.strip()` is empty exactly when `s` is all whitespace. */
  lemma {:induction false} StripEmptyIffAllSpace(s: string)
    ensures Strip(s) == [] <==> AllSpace(s)
    decreases |s|
  {
    if s != [] && IsSpace(s[0]) {
      StripEmptyIffAllSpace(s[1..]);
      assert forall i :: 1 <= i < |s| ==> s[i] == s[1..][i - 1];
    } else if s != [] {
      assert TrimStart(s) == s;
      TrimEndKeepsNonSpaceHead(s);
    }
  }

  lemma {:induction false} TrimEndKeepsNonSpaceHead(s: string)
    requires s != [] && !IsSpace(s[0])
    ensures TrimEnd(s) != []
    decreases |s|
  {
    if |s| > 1 && IsSpace(s[|s| - 1]) {
      TrimEndKeepsNonSpaceHead(s[..|s| - 1]);
    }
  }

  /** Python `s[:n]` for `n >= 0`. */
  function Take(s: string, n: nat): (r: string)
    ensures |r| == if |s| <= n then |s| else n
    ensures r == s[..|r|]
  {
    if |s| <= n then s else s[..n]
  }

  predicate IsPrefix(p: string, s: string)
  {
    |p| <= |s| && s[..|p|] == p
  }

  /** Python `sub in s`. */
  predicate Contains(s: string, sub: string)
    decreases |s|
  {
    IsPrefix(sub, s) || (s != [] && Contains(s[1..], sub))
  }

  /** `sub` occurs in `s` at position `i`. */
  predicate OccursAt(s: string, sub: string, i: nat)
  {
    i + |sub| <= |s| && s[i..i + |sub|] == sub
  }

  /** `Contains` means: there is a position where `sub` occurs. */
  lemma {:induction false} ContainsIffOccurs(s: string, sub: string)
    ensures Contains(s, sub) <==> exists i: nat :: OccursAt(s, sub, i)
    decreases |s|
  {
    if IsPrefix(sub, s) {
      assert OccursAt(s, sub, 0);
    } else if s != [] {
      ContainsIffOccurs(s[1..], sub);
      if Contains(s[1..], sub) {
        var i: nat :| OccursAt(s[1..], sub, i);
        assert s[i + 1..i + 1 + |sub|] == s[1..][i..i + |sub|];
        assert OccursAt(s, sub, i + 1);
      } else {
        forall i: nat | OccursAt(s, sub, i) ensures i >= 1 && OccursAt(s[1..], sub, i - 1) {
          assert s[1..][i - 1..i - 1 + |sub|] == s[i..i + |sub|];
        }
      }
    }
  }

  /** A substring of a prefix or suffix is a substring of the whole. */
  lemma ContainsInConcat(a: string, b: string, sub: string)
    ensures Contains(a, sub) ==> Contains(a + b, sub)
    ensures Contains(b, sub) ==> Contains(a + b, sub)
  {
    ContainsIffOccurs(a, sub);
    ContainsIffOccurs(b, sub);
    ContainsIffOccurs(a + b, sub);
    if Contains(a, sub) {
      var i: nat :| OccursAt(a, sub, i);
      assert (a + b)[i..i + |sub|] == a[i..i + |sub|];
      assert OccursAt(a + b, sub, i);
    }
    if Contains(b, sub) {
      var i: nat :| OccursAt(b, sub, i);
      assert (a + b)[|a| + i..|a| + i + |sub|] == b[i..i + |sub|];
      assert OccursAt(a + b, sub, |a| + i);
    }
  }

  /** Python `s.find(sub, from)`: the first position at or after `from` where `sub` occurs. */
  function Find(s: string, sub: string, from: nat): (r: Option<nat>)
    ensures r.Some? ==> from <= r.value && OccursAt(s, sub, r.value)
    ensures r.Some? ==> forall k: nat :: from <= k < r.value ==> !OccursAt(s, sub, k)
    ensures r.None? ==> forall k: nat :: from <= k ==> !OccursAt(s, sub, k)
    decreases |s| + 1 - from
  {
    if from + |sub| > |s| then None
    else if s[from..from + |sub|] == sub then Some(from)
    else Find(s, sub, from + 1)
  }

  /** Replacing a character distributes over concatenation. */
  lemma {:induction false} ReplaceCharConcat(a: string, b: string, c: char, r: string)
    ensures ReplaceChar(a + b, c, r) == ReplaceChar(a, c, r) + ReplaceChar(b, c, r)
    decreases |a|
  {
    if a != [] {
      assert (a + b)[1..] == a[1..] + b;
      ReplaceCharConcat(a[1..], b, c, r);
    } else {
      assert a + b == b;
    }
  }

  /** True when some element of `phrases` is a substring of `s` (Python `any(p in s ...)`). */
  predicate ContainsAny(s: string, phrases: seq<string>)
  {
    exists k :: 0 <= k < |phrases| && Contains(s, phrases[k])
  }

  /** Python `sep.join(parts)`. */
  function Join(parts: seq<string>, sep: string): string
  {
    if |parts| == 0 then ""
    else if |parts| == 1 then parts[0]
    else parts[0] + sep + Join(parts[1..], sep)
  }

  /** A joined text starts with its first part. */
  lemma JoinPrefix(parts: seq<string>, sep: string)
    requires parts != []
    ensures IsPrefix(parts[0], Join(parts, sep))
  {
  }

  function Min(a: int, b: int): int
  {
    if a <= b then a else b
  }

  /** The length of the run of characters satisfying `p` that starts at `i` (none when `i`
      is past the end). */
  function Run(s: string, i: nat, p: char -> bool): (n: nat)
    ensures i + n <= |s| || n == 0
    ensures forall k :: i <= k < i + n ==> p(s[k])
    ensures i + n < |s| ==> !p(s[i + n])
    decreases |s| - i
  {
    if i < |s| && p(s[i]) then 1 + Run(s, i + 1, p) else 0
  }

  /** `Join` on two and on three parts. */
  lemma JoinFew(parts: seq<string>, sep: string)
    ensures |parts| == 2 ==> Join(parts, sep) == parts[0] + sep + parts[1]
    ensures |parts| == 3 ==> Join(parts, sep) == parts[0] + sep + parts[1] + sep + parts[2]
  {
    if |parts| == 3 {
      assert parts[1..][1..] == [parts[2]];
    }
  }

  /** Concatenation is associative (stated once so that proofs need not re-derive it on
      sequences of large elements). */
  lemma AppendAssoc<T>(x: seq<T>, y: seq<T>, z: seq<T>)
    ensures x + (y + z) == (x + y) + z
  {
  }

  /** Python `"".join(parts)`. */
  function Concat(parts: seq<string>): string
  {
    if parts == [] then "" else parts[0] + Concat(parts[1..])
  }

  /** Python `s.split(c)` for a one-character separator. */
  function Split(s: string, c: char): (r: seq<string>)
    ensures |r| >= 1
    decreases |s|
  {
    if s == [] then [""]
    else
      var rest := Split(s[1..], c);
      if s[0] == c then [""] + rest else [[s[0]] + rest[0]] + rest[1..]
  }

  /** No part of `s.split(c)` contains `c`. */
  lemma {:induction false} SplitPartsFree(s: string, c: char)
    ensures forall k :: 0 <= k < |Split(s, c)| ==> c !in Split(s, c)[k]
    decreases |s|
  {
    if s != [] {
      SplitPartsFree(s[1..], c);
    }
  }

  /** Joining the parts of `s.split(c)` with `c` gives back `s`. */
  lemma {:induction false} SplitJoin(s: string, c: char)
    ensures Join(Split(s, c), [c]) == s
    decreases |s|
  {
    if s != [] {
      var rest := Split(s[1..], c);
      SplitJoin(s[1..], c);
      if s[0] == c {
        assert Split(s, c) == [""] + rest;
        assert Join([""] + rest, [c]) == "" + [c] + Join(rest, [c]);
        assert s == [c] + s[1..];
      } else {
        var parts := [[s[0]] + rest[0]] + rest[1..];
        assert Split(s, c) == parts;
        if |rest| == 1 {
          assert Join(parts, [c]) == [s[0]] + rest[0];
          assert Join(rest, [c]) == rest[0];
        } else {
          assert parts[1..] == rest[1..];
          assert Join(parts, [c]) == [s[0]] + rest[0] + [c] + Join(rest[1..], [c]);
          assert Join(rest, [c]) == rest[0] + [c] + Join(rest[1..], [c]);
        }
        assert s == [s[0]] + s[1..];
      }
    }
  }

  /** Python `s.replace(c, r)` for a one-character pattern. */
  function ReplaceChar(s: string, c: char, r: string): string
  {
    if s == [] then "" else (if s[0] == c then r else [s[0]]) + ReplaceChar(s[1..], c, r)
  }

  /** After replacing every `c` by a text free of `d`, `d` survives only where it already was. */
  lemma {:induction false} ReplaceCharFree(s: string, c: char, r: string, d: char)
    requires d !in r
    requires d != c ==> d !in s
    ensures d !in ReplaceChar(s, c, r)
    decreases |s|
  {
    if s != [] {
      ReplaceCharFree(s[1..], c, r, d);
      assert s[0] in s;
    }
  }

  /** The digits of `n` in base 10 (Python `str(n)` for `n >= 0`). */
  function NatToString(n: nat): (r: string)
    ensures r != []
    ensures forall i :: 0 <= i < |r| ==> IsDigit(r[i])
  {
    if n < 10 then [DigitChar(n)] else NatToString(n / 10) + [DigitChar(n % 10)]
  }

  function DigitChar(d: nat): (c: char)
    requires d < 10
    ensures IsDigit(c)
  {
    ('0' as int + d) as char
  }

  function DigitValue(c: char): (d: nat)
    requires IsDigit(c)
    ensures d < 10
  {
    c as int - '0' as int
  }

  /** Python `int(s)` for a non-empty run of ASCII digits. */
  function ParseNat(s: string): nat
    requires forall i :: 0 <= i < |s| ==> IsDigit(s[i])
    decreases |s|
  {
    if s == [] then 0 else ParseNat(s[..|s| - 1]) * 10 + DigitValue(s[|s| - 1])
  }

  /** Reading back the digits of `n` gives `n`. */
  lemma {:induction false} ParseNatToString(n: nat)
    ensures ParseNat(NatToString(n)) == n
  {
    if n >= 10 {
      var r := NatToString(n);
      assert r[..|r| - 1] == NatToString(n / 10);
      ParseNatToString(n / 10);
    }
  }

  /** Python `str(i)` for any integer. */
  function IntToString(i: int): string
  {
    if i < 0 then "-" + NatToString(-i) else NatToString(i)
  }
}

=== FILE: telegram.dfy ===
/** The pure decisions of the Telegram adapter: sender ids, the chat whitelist, the
    group-chat response rule, media extensions, inline-answer capping and the gate that
    decides whether an incoming Telegram message reaches the bus. */
module Telegram {
  import opened Strings
  import opened Json
  import opened Events
  import Channels

  const ChannelName := "telegram"

  // ---------------------------------------------------------------- sender ids

  /** `str(user.id)`, followed by "|username" when the user has a username. */
  function SenderId(userId: int, username: string): string
  {
    if username != "" then IntToString(userId) + "|" + username else IntToString(userId)
  }

  lemma IntToStringNoBar(i: int)
    ensures '|' !in IntToString(i)
  {
    var r := NatToString(if i < 0 then -i else i);
    assert forall k :: 0 <= k < |r| ==> r[k] != '|';
    if i < 0 { assert IntToString(i) == "-" + r; }
  }

  /** A Telegram sender is admitted by the allow-list iff the list is empty, or it lists
      the numeric id, the username or the combined "id|username". */
  lemma SenderIdAllowed(allowList: seq<string>, userId: int, username: string)
    requires '|' !in username
    ensures Channels.IsAllowed(allowList, SenderId(userId, username)) <==>
      allowList == [] || SenderId(userId, username) in allowList
      || IntToString(userId) in allowList || (username != "" && username in allowList)
  {
    IntToStringNoBar(userId);
    if username != "" {
      Channels.AllowedComposite(allowList, IntToString(userId), username);
    }
  }

  // ---------------------------------------------------------------- chat whitelist

  function Abs(i: int): nat
  {
    if i < 0 then -i else i
  }

  /** Group and channel-post messages pass only from whitelisted chats (by the signed id or
      its absolute value); private messages and an empty whitelist always pass. */
  predicate ChatWhitelisted(allowChats: seq<string>, chatId: int, isGroup: bool, isChannelPost: bool)
  {
    allowChats == [] || !(isGroup || isChannelPost)
    || IntToString(chatId) in allowChats || IntToString(Abs(chatId)) in allowChats
  }

  // ---------------------------------------------------------------- meaningful replies

  /** `re.sub(r'[^\w\s]', '', s)`. */
  function KeepWordOrSpace(s: string): (r: string)
    ensures forall k :: 0 <= k < |r| ==> IsWordChar(r[k]) || IsSpace(r[k])
    ensures |r| <= |s|
  {
    if s == [] then ""
    else (if IsWordChar(s[0]) || IsSpace(s[0]) then [s[0]] else "") + KeepWordOrSpace(s[1..])
  }

  /** At least three characters remain after dropping punctuation/emoji and trimming. */
  predicate IsMeaningful(content: string)
  {
    |Strip(KeepWordOrSpace(content))| >= 3
  }

  /** Text made only of punctuation and emoji is never meaningful. */
  lemma {:induction false} NoWordCharsNotMeaningful(content: string)
    requires forall k :: 0 <= k < |content| ==> !IsWordChar(content[k])
    ensures !IsMeaningful(content)
  {
    var kept := KeepWordOrSpace(content);
    KeptAreSpaces(content);
    StripEmptyIffAllSpace(kept);
  }

  lemma {:induction false} KeptAreSpaces(s: string)
    requires forall k :: 0 <= k < |s| ==> !IsWordChar(s[k])
    ensures AllSpace(KeepWordOrSpace(s))
    decreases |s|
  {
    if s != [] {
      KeptAreSpaces(s[1..]);
    }
  }

  // ---------------------------------------------------------------- whole-word triggers

  /** Python's `\b` at position `i`: exactly one side is a word character. */
  predicate Boundary(s: string, i: nat)
    requires i <= |s|
  {
    (i > 0 && IsWordChar(s[i - 1])) != (i < |s| && IsWordChar(s[i]))
  }

  /** `\bw\b` matches at position `i`. */
  predicate WordAt(s: string, w: string, i: nat)
  {
    OccursAt(s, w, i) && Boundary(s, i) && Boundary(s, i + |w|)
  }

  /** `re.search(r'\b' + re.escape(w) + r'\b', s)` succeeds at or after `from`. */
  function WordFrom(s: string, w: string, from: nat): (r: bool)
    ensures r <==> exists i: nat :: from <= i && WordAt(s, w, i)
    decreases |s| + 1 - from
  {
    if from > |s| then
      assert forall i: nat :: from <= i ==> !OccursAt(s, w, i);
      false
    else WordAt(s, w, from) || WordFrom(s, w, from + 1)
  }

  predicate ContainsWord(s: string, w: string)
  {
    WordFrom(s, w, 0)
  }

  /** The index of the first trigger (in list order) that occurs as a whole word. */
  function FirstWordTrigger(s: string, triggers: seq<string>): (r: Option<nat>)
    ensures r.Some? ==>
      && r.value < |triggers| && ContainsWord(s, triggers[r.value])
      && forall j :: 0 <= j < r.value ==> !ContainsWord(s, triggers[j])
    ensures r.None? ==> forall j :: 0 <= j < |triggers| ==> !ContainsWord(s, triggers[j])
  {
    if triggers == [] then None
    else if ContainsWord(s, triggers[0]) then Some(0)
    else
      match FirstWordTrigger(s, triggers[1..])
      case None => None
      case Some(k) => Some(k + 1)
  }

  /** The first context trigger (in list order) that occurs as a whole word and whose
      random draw (`random.random() < 0.2`, an oracle here) succeeds. */
  function FirstLuckyTrigger(s: string, triggers: seq<string>, lucky: string -> bool): (r: Option<nat>)
    ensures r.Some? ==> r.value < |triggers| && ContainsWord(s, triggers[r.value]) && lucky(triggers[r.value])
    ensures r.Some? ==> forall j :: 0 <= j < r.value ==> !(ContainsWord(s, triggers[j]) && lucky(triggers[j]))
    ensures r.None? ==> forall j :: 0 <= j < |triggers| ==> !(ContainsWord(s, triggers[j]) && lucky(triggers[j]))
  {
    if triggers == [] then None
    else if ContainsWord(s, triggers[0]) && lucky(triggers[0]) then Some(0)
    else
      match FirstLuckyTrigger(s, triggers[1..], lucky)
      case None => None
      case Some(k) => Some(k + 1)
  }

  datatype Verdict = Verdict(respond: bool, reason: string)

  /** `_should_respond_in_group`. */
  function ShouldRespondInGroup(text: string, hasMention: bool, direct: seq<string>,
                                context: seq<string>, lucky: string -> bool): (r: Verdict)
    ensures text == "" ==> r == Verdict(false, "no_text")
    ensures text != "" && hasMention ==> r == Verdict(true, "direct_mention")
    ensures text != "" && !hasMention ==>
      match FirstWordTrigger(Lower(text), direct)
      case Some(k) => r == Verdict(true, "trigger_" + direct[k])
      case None =>
        && (r.respond <==> exists j :: 0 <= j < |context| && ContainsWord(Lower(text), context[j]) && lucky(context[j]))
        && (!r.respond ==> r.reason == "no_trigger")
        && (r.respond ==>
              exists k :: 0 <= k < |context| && r.reason == "random_context_" + context[k] &&
                ContainsWord(Lower(text), context[k]) && lucky(context[k]) &&
                forall j :: 0 <= j < k ==> !(ContainsWord(Lower(text), context[j]) && lucky(context[j])))
  {
    if text == "" then Verdict(false, "no_text")
    else
      var lower := Lower(text);
      if hasMention then Verdict(true, "direct_mention")
      else match FirstWordTrigger(lower, direct)
        case Some(k) => Verdict(true, "trigger_" + direct[k])
        case None =>
          match FirstLuckyTrigger(lower, context, lucky)
          case Some(k) => Verdict(true, "random_context_" + context[k])
          case None => Verdict(false, "no_trigger")
  }

  /** Without a mention or a lucky draw, a group message is answered exactly when one of
      the direct triggers occurs as a whole word. */
  lemma RespondWithoutLuck(text: string, direct: seq<string>, context: seq<string>)
    requires text != ""
    ensures ShouldRespondInGroup(text, false, direct, context, _ => false).respond <==>
      exists j :: 0 <= j < |direct| && ContainsWord(Lower(text), direct[j])
  {
  }

  // ---------------------------------------------------------------- media extensions

  const MimeExtensions: map<string, string> := map[
    "image/jpeg" := ".jpg", "image/png" := ".png", "image/gif" := ".gif",
    "audio/ogg" := ".ogg", "audio/mpeg" := ".mp3", "audio/mp4" := ".m4a"]

  const TypeExtensions: map<string, string> := map[
    "image" := ".jpg", "voice" := ".ogg", "audio" := ".mp3", "file" := ""]

  /** `_get_extension`: a known mime type wins, then the media-type default, else "". */
  function GetExtension(mediaType: string, mime: Option<string>): (r: string)
    ensures mime.Some? && mime.value in MimeExtensions ==> r == MimeExtensions[mime.value]
    ensures !(mime.Some? && mime.value in MimeExtensions) ==>
      r == (if mediaType in TypeExtensions then TypeExtensions[mediaType] else "")
  {
    if mime.Some? && mime.value != "" && mime.value in MimeExtensions then MimeExtensions[mime.value]
    else if mediaType in TypeExtensions then TypeExtensions[mediaType]
    else ""
  }

  /** Every extension produced is one of the seven the adapter knows. */
  lemma ExtensionRange(mediaType: string, mime: Option<string>)
    ensures GetExtension(mediaType, mime) in {".jpg", ".png", ".gif", ".ogg", ".mp3", ".m4a", ""}
  {
  }

  // ---------------------------------------------------------------- inline answers

  const InlineLimit := 500

  /** An inline answer over 500 characters becomes its first 500 plus "...". */
  function CapInlineAnswer(answer: string): (r: string)
    ensures |answer| <= InlineLimit ==> r == answer
    ensures |answer| > InlineLimit ==> r == answer[..InlineLimit] + "..." && |r| == InlineLimit + 3
  {
    if |answer| > InlineLimit then answer[..InlineLimit] + "..." else answer
  }

  /** Capping an already capped answer changes nothing. */
  lemma CapIdempotent(answer: string)
    ensures CapInlineAnswer(CapInlineAnswer(answer)) == CapInlineAnswer(answer)
  {
    if |answer| > InlineLimit {
      var c := answer[..InlineLimit] + "...";
      assert c[..InlineLimit] == answer[..InlineLimit];
    }
  }

  // ---------------------------------------------------------------- bot mentions

  datatype Entity = Entity(kind: string, offset: nat, length: nat)

  /** Python `s[a:b]` for non-negative bounds. */
  function Slice(s: string, a: nat, b: nat): string
  {
    var lo := if a < |s| then a else |s|;
    var hi := if b < |s| then b else |s|;
    if hi <= lo then "" else s[lo..hi]
  }

  predicate MentionsHandle(text: string, e: Entity, handle: string)
  {
    e.kind == "mention" && text != "" && Contains(Lower(Slice(text, e.offset, e.offset + e.length)), handle)
  }

  /** The scan over `message.entities` for a mention entity whose text names `handle`. */
  function MentionIn(entities: seq<Entity>, text: string, handle: string): (r: bool)
    ensures r <==> exists k :: 0 <= k < |entities| && MentionsHandle(text, entities[k], handle)
  {
    if entities == [] then false
    else MentionsHandle(text, entities[0], handle) || MentionIn(entities[1..], text, handle)
  }

  /** The handle the adapter compares mentions against, as written. */
  const WrittenHandle := "cloptbot_bot"
  /** The bot's handle as its own inline help text spells it. */
  const BotHandle := "clopbot_bot"

  /** Mention detection as written in the adapter. */
  function HasMentionAsWritten(entities: seq<Entity>, text: string): bool
  {
    MentionIn(entities, text, WrittenHandle)
  }

  /** Mention detection with the bot's handle. */
  function HasMention(entities: seq<Entity>, text: string): (r: bool)
    ensures r <==> exists k :: 0 <= k < |entities| && MentionsHandle(text, entities[k], BotHandle)
  {
    MentionIn(entities, text, BotHandle)
  }

  lemma ContainsShortSub(s: string, sub: string)
    requires |sub| >= |s|
    ensures Contains(s, sub) ==> sub == s
  {
    ContainsIffOccurs(s, sub);
    if Contains(s, sub) {
      var i: nat :| OccursAt(s, sub, i);
      assert i == 0;
    }
  }

  lemma LowerOfLowercase(s: string)
    requires forall i :: 0 <= i < |s| ==> 'a' <= s[i] <= 'z' || s[i] == '@' || s[i] == '_'
    ensures Lower(s) == s
  {
  }

  lemma NotWrittenHandle(t: string)
    requires t == "@clopbot_bot"
    ensures !Contains(t, WrittenHandle)
  {
    ContainsShortSub(t, WrittenHandle);
    assert t[0] != WrittenHandle[0];
  }

  lemma HasBotHandle(t: string)
    requires t == "@clopbot_bot"
    ensures Contains(t, BotHandle)
  {
    assert t[1..12] == BotHandle;
    assert OccursAt(t, BotHandle, 1);
    ContainsIffOccurs(t, BotHandle);
  }

  lemma SampleMentionSlice(t: string, e: Entity)
    requires t == "@clopbot_bot" && e == Entity("mention", 0, 12)
    ensures Lower(Slice(t, e.offset, e.offset + e.length)) == t
  {
    assert Slice(t, 0, 12) == t;
    LowerOfLowercase(t);
  }

  /** The mention "@clopbot_bot" is missed by the check as written and found with the
      bot's handle. */
  lemma MentionTypoMissesBot(t: string, e: Entity)
    requires t == "@clopbot_bot" && e == Entity("mention", 0, 12)
    ensures !HasMentionAsWritten([e], t)
    ensures HasMention([e], t)
  {
    SampleMentionSlice(t, e);
    NotWrittenHandle(t);
    HasBotHandle(t);
    assert !MentionsHandle(t, e, WrittenHandle);
    assert MentionsHandle(t, e, BotHandle);
    MentionInOne(e, t, WrittenHandle);
    MentionInOne(e, t, BotHandle);
  }

  lemma MentionInOne(e: Entity, text: string, handle: string)
    ensures MentionIn([e], text, handle) == MentionsHandle(text, e, handle)
  {
    assert [e][1..] == [];
  }

  // ---------------------------------------------------------------- content and admin flag

  datatype MediaOutcome = NoMedia | Downloaded(kind: string, path: string) | DownloadFailed(kind: string)

  /** The note a media attachment adds: its saved path, or that the download failed. */
  function MediaNote(media: MediaOutcome): string
    requires !media.NoMedia?
  {
    match media
    case Downloaded(kind, path) => "[" + kind + ": " + path + "]"
    case DownloadFailed(kind) => "[" + kind + ": download failed]"
  }

  /** The text, the caption and a media note joined by newlines, or "[empty message]":
      whichever of text and caption is non-empty, newline-separated, then the note on a
      line of its own. */
  function MessageContent(text: string, caption: string, media: MediaOutcome): (r: string)
    ensures r != ""
    ensures text != "" ==> IsPrefix(text, r)
    ensures var written := if text != "" && caption != "" then text + "\n" + caption else text + caption;
      && (media.NoMedia? ==> r == (if written == "" then "[empty message]" else written))
      && (!media.NoMedia? ==> r == (if written == "" then MediaNote(media) else written + "\n" + MediaNote(media)))
  {
    var note: seq<string> := if media.NoMedia? then [] else [MediaNote(media)];
    var parts := (if text != "" then [text] else []) + (if caption != "" then [caption] else []) + note;
    JoinFew(parts, "\n");
    if parts == [] then "[empty message]" else Join(parts, "\n")
  }

  datatype SenderChat = SenderChat(id: int, title: Option<string>)

  /** The owner flag: the user id is in allowFrom, or (for a channel post) the channel id
      or its absolute value is. */
  predicate IsAdminSender(allowFrom: seq<string>, userId: int, isChannelPost: bool, senderChat: Option<SenderChat>)
  {
    allowFrom != [] &&
    (IntToString(userId) in allowFrom
     || (isChannelPost && senderChat.Some?
         && (IntToString(senderChat.value.id) in allowFrom || IntToString(Abs(senderChat.value.id)) in allowFrom)))
  }

  // ---------------------------------------------------------------- the message gate

  datatype TgConfig = TgConfig(
    allowFrom: seq<string>, allowChats: seq<string>,
    directTriggers: seq<string>, contextTriggers: seq<string>)

  datatype TgUpdate = TgUpdate(
    userId: int, username: string, firstName: string,
    chatId: int, chatType: string, messageId: int,
    text: string, caption: string, media: MediaOutcome,
    senderChat: Option<SenderChat>, isAutoForward: bool,
    replyToBot: bool, entities: seq<Entity>)

  predicate IsGroup(u: TgUpdate)
  {
    u.chatType == "group" || u.chatType == "supergroup"
  }

  /** A channel post auto-forwarded into the discussion group. */
  predicate IsChannelPost(u: TgUpdate)
  {
    u.senderChat.Some? && u.isAutoForward
  }

  /** The group-chat decision order: a reply to the bot needs meaningful text, an
      auto-forwarded channel post is always answered, anything else goes through the
      trigger rule. */
  function GroupAnswered(cfg: TgConfig, u: TgUpdate, content: string, lucky: string -> bool): bool
  {
    if u.replyToBot then IsMeaningful(content)
    else if IsChannelPost(u) then true
    else ShouldRespondInGroup(content, HasMention(u.entities, u.text),
                              cfg.directTriggers, cfg.contextTriggers, lucky).respond
  }

  function MediaPaths(m: MediaOutcome): seq<string>
  {
    if m.Downloaded? then [m.path] else []
  }

  /** The keys every published message's metadata has. */
  const BaseKeys: set<string> := {"message_id", "user_id", "username", "first_name", "chat_id", "is_group", "is_admin"}

  /** The metadata every message gets, before the channel-post keys. */
  function BaseMetadata(cfg: TgConfig, u: TgUpdate): (r: Metadata)
    ensures r.Keys == BaseKeys
  {
    map[
      "message_id" := JInt(u.messageId), "user_id" := JInt(u.userId),
      "username" := (if u.username != "" then JStr(u.username) else JNull),
      "first_name" := JStr(u.firstName), "chat_id" := JInt(u.chatId),
      "is_group" := JBool(IsGroup(u)),
      "is_admin" := JBool(IsAdminSender(cfg.allowFrom, u.userId, IsChannelPost(u), u.senderChat))]
  }

  /** The metadata published with a message: ids, names, the group and admin flags, and
      for a channel post its title and the post to reply to. */
  function Metadata(cfg: TgConfig, u: TgUpdate): (r: Metadata)
    ensures "message_id" in r && r["message_id"] == JInt(u.messageId)
    ensures "is_group" in r && r["is_group"] == JBool(IsGroup(u))
    ensures "is_admin" in r && r["is_admin"] == JBool(IsAdminSender(cfg.allowFrom, u.userId, IsChannelPost(u), u.senderChat))
    ensures "is_channel_post" in r <==> IsChannelPost(u)
    ensures "reply_to" in r <==> IsChannelPost(u)
    ensures IsChannelPost(u) ==> r["reply_to"] == JInt(u.messageId)
    ensures "user_id" in r && r["user_id"] == JInt(u.userId)
    ensures "username" in r && r["username"] == (if u.username != "" then JStr(u.username) else JNull)
    ensures "first_name" in r && r["first_name"] == JStr(u.firstName)
    ensures "chat_id" in r && r["chat_id"] == JInt(u.chatId)
    ensures "channel_title" in r <==> IsChannelPost(u)
    ensures IsChannelPost(u) ==>
      r["channel_title"] == (if u.senderChat.value.title.Some? then JStr(u.senderChat.value.title.value) else JNull)
    ensures r.Keys == BaseKeys + (if IsChannelPost(u) then {"is_channel_post", "channel_title", "reply_to"} else {})
  {
    var base := BaseMetadata(cfg, u);
    if IsChannelPost(u) then
      base["is_channel_post" := JBool(true)]
          ["channel_title" := (if u.senderChat.value.title.Some? then JStr(u.senderChat.value.title.value) else JNull)]
          ["reply_to" := JInt(u.messageId)]
    else base
  }

  /** `_on_message` (without the history-upload state): whitelist, group rule, then the
      base channel's allow-list check for private chats; at most one message is published. */
  function OnMessage(cfg: TgConfig, bus: seq<InboundMessage>, u: TgUpdate, lucky: string -> bool): (r: seq<InboundMessage>)
    ensures |bus| <= |r| <= |bus| + 1 && r[..|bus|] == bus
    ensures !ChatWhitelisted(cfg.allowChats, u.chatId, IsGroup(u), IsChannelPost(u)) ==> r == bus
    ensures IsGroup(u) && ChatWhitelisted(cfg.allowChats, u.chatId, true, IsChannelPost(u)) ==>
      (|r| == |bus| + 1 <==> GroupAnswered(cfg, u, MessageContent(u.text, u.caption, u.media), lucky))
    ensures !IsGroup(u) && ChatWhitelisted(cfg.allowChats, u.chatId, false, IsChannelPost(u)) ==>
      (|r| == |bus| + 1 <==> Channels.IsAllowed(cfg.allowFrom, SenderId(u.userId, u.username)))
    ensures |r| == |bus| + 1 ==>
      && r[|bus|].channel == ChannelName
      && r[|bus|].chatId == IntToString(u.chatId)
      && r[|bus|].senderId == SenderId(u.userId, u.username)
      && r[|bus|].content == MessageContent(u.text, u.caption, u.media)
      && r[|bus|].media == MediaPaths(u.media)
      && r[|bus|].metadata == Metadata(cfg, u)
  {
    var content := MessageContent(u.text, u.caption, u.media);
    var group := IsGroup(u);
    if !ChatWhitelisted(cfg.allowChats, u.chatId, group, IsChannelPost(u)) then bus
    else if group && !GroupAnswered(cfg, u, content, lucky) then bus
    else
      Channels.HandleMessage(ChannelName, cfg.allowFrom, bus, SenderId(u.userId, u.username),
        IntToString(u.chatId), content, Some(MediaPaths(u.media)), Some(Metadata(cfg, u)), group)
  }

  /** In a group, a reply to the bot made only of emoji and punctuation is dropped. */
  lemma EmojiReplyDropped(cfg: TgConfig, bus: seq<InboundMessage>, u: TgUpdate, lucky: string -> bool)
    requires IsGroup(u) && u.replyToBot
    requires forall k :: 0 <= k < |MessageContent(u.text, u.caption, u.media)| ==>
      !IsWordChar(MessageContent(u.text, u.caption, u.media)[k])
    ensures OnMessage(cfg, bus, u, lucky) == bus
  {
    NoWordCharsNotMeaningful(MessageContent(u.text, u.caption, u.media));
  }
}

=== FILE: telegram_html.dfy ===
/** The code-protecting and escaping part of the Markdown to Telegram-HTML converter:
    fenced code blocks and inline code spans are cut out of the text, the remaining text is
    HTML-escaped, and the code is put back escaped inside `<pre><code>` / `<code>` tags. */
module TelegramHtml {
  import opened Strings

  // ---------------------------------------------------------------- escaping

  /** The escape of one character: `&`, `<` and `>` become entities. */
  function EscapeChar(c: char): string
  {
    if c == '&' then "&amp;" else if c == '<' then "&lt;" else if c == '>' then "&gt;" else [c]
  }

  function Escape(s: string): string
  {
    if s == [] then "" else EscapeChar(s[0]) + Escape(s[1..])
  }

  /** The converter's escape: replace `&` first, then `<`, then `>`. */
  function ChainedReplace(s: string): string
  {
    ReplaceChar(ReplaceChar(ReplaceChar(s, '&', "&amp;"), '<', "&lt;"), '>', "&gt;")
  }

  /** The three chained `str.replace` calls escape every character exactly once: the `&`
      introduced by "&lt;" and "&gt;" is not escaped again because `&` goes first. */
  lemma {:induction false} ChainedReplaceIsEscape(s: string)
    ensures ChainedReplace(s) == Escape(s)
    decreases |s|
  {
    if s != [] {
      assert s == [s[0]] + s[1..];
      ChainedConcat([s[0]], s[1..]);
      ChainedChar(s[0]);
      ChainedReplaceIsEscape(s[1..]);
    }
  }

  /** The chained replacement works piece by piece. */
  lemma ChainedConcat(a: string, b: string)
    ensures ChainedReplace(a + b) == ChainedReplace(a) + ChainedReplace(b)
  {
    ReplaceCharConcat(a, b, '&', "&amp;");
    var a1, b1 := ReplaceChar(a, '&', "&amp;"), ReplaceChar(b, '&', "&amp;");
    ReplaceCharConcat(a1, b1, '<', "&lt;");
    ReplaceCharConcat(ReplaceChar(a1, '<', "&lt;"), ReplaceChar(b1, '<', "&lt;"), '>', "&gt;");
  }

  /** On one character the chained replacement is the escape of that character. */
  lemma ChainedChar(c: char)
    ensures ChainedReplace([c]) == EscapeChar(c)
  {
    if c == '&' {
      ReplaceOne(c, "&amp;");
      ReplaceNone("&amp;", '<', "&lt;");
      ReplaceNone("&amp;", '>', "&gt;");
    } else if c == '<' {
      ReplaceNone([c], '&', "&amp;");
      ReplaceOne(c, "&lt;");
      ReplaceNone("&lt;", '>', "&gt;");
    } else if c == '>' {
      ReplaceNone([c], '&', "&amp;");
      ReplaceNone([c], '<', "&lt;");
      ReplaceOne(c, "&gt;");
    } else {
      ReplaceNone([c], '&', "&amp;");
      ReplaceNone([c], '<', "&lt;");
      ReplaceNone([c], '>', "&gt;");
    }
  }

  lemma ReplaceOne(c: char, r: string)
    ensures ReplaceChar([c], c, r) == r
  {
    assert [c][1..] == [];
  }

  /** Replacing a character that does not occur changes nothing. */
  lemma {:induction false} ReplaceNone(s: string, c: char, r: string)
    requires c !in s
    ensures ReplaceChar(s, c, r) == s
    decreases |s|
  {
    if s != [] {
      assert s[1..] == s[1..] && (forall x :: x in s[1..] ==> x in s);
      ReplaceNone(s[1..], c, r);
    }
  }

  lemma {:induction false} EscapeConcat(a: string, b: string)
    ensures Escape(a + b) == Escape(a) + Escape(b)
    decreases |a|
  {
    if a != [] {
      assert (a + b)[1..] == a[1..] + b;
      EscapeConcat(a[1..], b);
    } else {
      assert a + b == b;
    }
  }

  /** Escaped text holds no raw angle bracket. */
  lemma {:induction false} EscapeHasNoAngles(s: string)
    ensures '<' !in Escape(s) && '>' !in Escape(s)
    decreases |s|
  {
    if s != [] {
      EscapeHasNoAngles(s[1..]);
    }
  }

  /** Reading the entities back. */
  function Unescape(s: string): string
    decreases |s|
  {
    if s == [] then ""
    else if IsPrefix("&amp;", s) then "&" + Unescape(s[5..])
    else if IsPrefix("&lt;", s) then "<" + Unescape(s[4..])
    else if IsPrefix("&gt;", s) then ">" + Unescape(s[4..])
    else [s[0]] + Unescape(s[1..])
  }

  /** Reading back the escape of one character gives that character. */
  lemma UnescapeStep(c: char, rest: string)
    ensures Unescape(EscapeChar(c) + rest) == [c] + Unescape(rest)
  {
    if c == '&' {
      UnescapeAmp(rest);
    } else if c == '<' {
      UnescapeLt(rest);
    } else if c == '>' {
      UnescapeGt(rest);
    } else {
      UnescapePlain(c, rest);
    }
  }

  lemma UnescapeAmp(rest: string)
    ensures Unescape("&amp;" + rest) == "&" + Unescape(rest)
  {
    var e := "&amp;" + rest;
    assert IsPrefix("&amp;", e) && e[5..] == rest;
  }

  lemma UnescapeLt(rest: string)
    ensures Unescape("&lt;" + rest) == "<" + Unescape(rest)
  {
    var e := "&lt;" + rest;
    assert !IsPrefix("&amp;", e) by { assert e[1] == 'l'; }
    assert IsPrefix("&lt;", e) && e[4..] == rest;
  }

  lemma UnescapeGt(rest: string)
    ensures Unescape("&gt;" + rest) == ">" + Unescape(rest)
  {
    var e := "&gt;" + rest;
    assert !IsPrefix("&amp;", e) by { assert e[1] == 'g'; }
    assert !IsPrefix("&lt;", e) by { assert e[1] == 'g'; }
    assert IsPrefix("&gt;", e) && e[4..] == rest;
  }

  lemma UnescapePlain(c: char, rest: string)
    requires c != '&'
    ensures Unescape([c] + rest) == [c] + Unescape(rest)
  {
    var e := [c] + rest;
    assert e[0] == c && e[1..] == rest;
    assert !IsPrefix("&amp;", e) && !IsPrefix("&lt;", e) && !IsPrefix("&gt;", e) by {
      assert e[..1] == [c];
    }
  }

  /** Escaping loses nothing. */
  lemma {:induction false} UnescapeEscape(s: string)
    ensures Unescape(Escape(s)) == s
    decreases |s|
  {
    if s != [] {
      UnescapeStep(s[0], Escape(s[1..]));
      UnescapeEscape(s[1..]);
      assert s == [s[0]] + s[1..];
    }
  }

  // ---------------------------------------------------------------- code blocks

  /** The text after the fenced-code pass: ordinary characters and protected blocks
      ("```" + language + optional newline + code + "```"). */
  datatype Tok = Ch(c: char) | CodeBlock(lang: string, newline: bool, code: string)

  function Chars(s: string): (r: seq<Tok>)
    ensures |r| == |s| && forall k :: 0 <= k < |s| ==> r[k] == Ch(s[k])
  {
    seq(|s|, k requires 0 <= k < |s| => Ch(s[k]))
  }

  /** The length of the run of word characters starting at `i` (`Run` with the word-character
      test, spelled out first-order to keep the block proofs small). */
  function WordRun(s: string, i: nat): (n: nat)
    ensures i + n <= |s| || (i > |s| && n == 0)
    ensures forall k :: i <= k < i + n ==> IsWordChar(s[k])
    ensures i + n < |s| ==> !IsWordChar(s[i + n])
    decreases |s| - i
  {
    if i < |s| && IsWordChar(s[i]) then 1 + WordRun(s, i + 1) else 0
  }

  const Fence := "```"

  /** Where a fenced block sits in the text: the opening fence at `start`, the language
      tag up to `langEnd`, an optional newline, the code from `codeStart` to `codeEnd`, and
      the closing fence at `codeEnd`. */
  datatype BlockMatch = BlockMatch(start: nat, langEnd: nat, newline: bool, codeStart: nat, codeEnd: nat)

  predicate ValidMatch(s: string, m: BlockMatch)
  {
    && m.start + 3 <= m.langEnd <= m.codeStart <= m.codeEnd && m.codeEnd + 3 <= |s|
    && s[m.start..m.start + 3] == Fence && s[m.codeEnd..m.codeEnd + 3] == Fence
    && (m.newline ==> m.codeStart == m.langEnd + 1 && s[m.langEnd] == '\n')
    && (!m.newline ==> m.codeStart == m.langEnd)
  }

  /** The first match of `r'```[\w]*\n?([\s\S]*?)```'`: the first fence opens a block
      whose language tag is the longest word run after it, an optional newline follows, and
      the code ends at the next fence. */
  function FirstBlock(s: string): (r: Option<BlockMatch>)
    ensures r.Some? ==> ValidMatch(s, r.value)
  {
    match Find(s, Fence, 0)
    case None => None
    case Some(i) =>
      var c0 := i + 3 + WordRun(s, i + 3);
      var nl := c0 < |s| && s[c0] == '\n';
      var c := if nl then c0 + 1 else c0;
      match Find(s, Fence, c)
      case None => None
      case Some(j) => Some(BlockMatch(i, c0, nl, c, j))
  }

  /** Where the block comes from: its opening fence is the first fence in the text, and its
      closing fence the first one after the language tag and newline. */
  lemma FirstBlockFinds(s: string)
    requires FirstBlock(s).Some?
    ensures Find(s, Fence, 0) == Some(FirstBlock(s).value.start)
    ensures Find(s, Fence, FirstBlock(s).value.codeStart) == Some(FirstBlock(s).value.codeEnd)
  {
  }

  /** The block found is the leftmost fence and its code holds no fence (the lazy match). */
  lemma FirstBlockLeftmost(s: string)
    requires FirstBlock(s).Some?
    ensures forall k: nat :: k < FirstBlock(s).value.start ==> !OccursAt(s, Fence, k)
    ensures forall k: nat :: FirstBlock(s).value.codeStart <= k < FirstBlock(s).value.codeEnd ==> !OccursAt(s, Fence, k)
  {
    FirstBlockFinds(s);
  }

  /** Without a closing fence there is no match at all, since no later opening fence could
      find one either. */
  lemma UnclosedFenceNoBlock(s: string)
    requires FirstBlock(s).None? && Find(s, Fence, 0).Some?
    ensures forall k: nat :: Find(s, Fence, 0).value + 3 <= k ==> !OccursAt(s, Fence, k)
  {
    var i := Find(s, Fence, 0).value;
    var c0 := i + 3 + WordRun(s, i + 3);
    var nl := c0 < |s| && s[c0] == '\n';
    var c := if nl then c0 + 1 else c0;
    assert Find(s, Fence, c).None?;
    forall k: nat | i + 3 <= k < c ensures !OccursAt(s, Fence, k) {
      if k < c0 { assert IsWordChar(s[k]); } else { assert s[k] == '\n'; }
    }
  }

  /** The protected block a match cuts out. */
  function BlockTok(s: string, m: BlockMatch): Tok
    requires ValidMatch(s, m)
  {
    CodeBlock(s[m.start + 3..m.langEnd], m.newline, s[m.codeStart..m.codeEnd])
  }

  /** The fenced-code pass. */
  function ExtractBlocks(s: string): seq<Tok>
    decreases |s|, 1
  {
    ExtractWith(s, FirstBlock(s))
  }

  /** The fenced-code pass, given where its first block is. */
  function ExtractWith(s: string, f: Option<BlockMatch>): seq<Tok>
    requires f.Some? ==> ValidMatch(s, f.value)
    decreases |s|, 0
  {
    match f
    case None => Chars(s)
    case Some(m) => Chars(s[..m.start]) + [BlockTok(s, m)] + ExtractBlocks(s[m.codeEnd + 3..])
  }

  function TokText(t: Tok): string
  {
    match t
    case Ch(c) => [c]
    case CodeBlock(lang, nl, code) => Fence + lang + (if nl then "\n" else "") + code + Fence
  }

  function ToksText(ts: seq<Tok>): string
  {
    if ts == [] then "" else TokText(ts[0]) + ToksText(ts[1..])
  }

  lemma {:induction false} ToksTextConcat(a: seq<Tok>, b: seq<Tok>)
    ensures ToksText(a + b) == ToksText(a) + ToksText(b)
    decreases |a|
  {
    if a != [] {
      assert (a + b)[1..] == a[1..] + b;
      ToksTextConcat(a[1..], b);
    } else {
      assert a + b == b;
    }
  }

  lemma {:induction false} CharsText(s: string)
    ensures ToksText(Chars(s)) == s
    decreases |s|
  {
    if s != [] {
      assert Chars(s)[1..] == Chars(s[1..]);
      CharsText(s[1..]);
    }
  }

  lemma SliceSplit(s: string, a: nat, b: nat, c: nat)
    requires a <= b <= c <= |s|
    ensures s[a..c] == s[a..b] + s[b..c]
  {
  }

  /** A slice cut at four inner points is the concatenation of the five pieces. */
  lemma SliceFive(s: string, a: nat, b: nat, c: nat, d: nat, e: nat, f: nat)
    requires a <= b <= c <= d <= e <= f <= |s|
    ensures s[a..f] == s[a..b] + s[b..c] + s[c..d] + s[d..e] + s[e..f]
  {
    SliceSplit(s, a, e, f);
    SliceSplit(s, a, d, e);
    SliceSplit(s, a, c, d);
    SliceSplit(s, a, b, c);
  }

  /** The source text of a block is the slice it was cut from. */
  lemma BlockText(s: string, m: BlockMatch)
    requires ValidMatch(s, m)
    ensures TokText(BlockTok(s, m)) == s[m.start..m.codeEnd + 3]
  {
    var lang, nl, code := s[m.start + 3..m.langEnd], s[m.langEnd..m.codeStart], s[m.codeStart..m.codeEnd];
    assert s[m.start..m.codeEnd + 3] == Fence + lang + nl + code + Fence by {
      SliceFive(s, m.start, m.start + 3, m.langEnd, m.codeStart, m.codeEnd, m.codeEnd + 3);
    }
    assert nl == (if m.newline then "\n" else "") by {
      NewlineSlice(s, m);
    }
  }

  lemma NewlineSlice(s: string, m: BlockMatch)
    requires ValidMatch(s, m)
    ensures s[m.langEnd..m.codeStart] == (if m.newline then "\n" else "")
  {
    if m.newline {
      assert s[m.langEnd..m.codeStart] == [s[m.langEnd]];
    }
  }

  /** One step of the fenced-code pass keeps the text: the characters before the block,
      the block, and whatever the rest becomes, written back. */
  lemma BlocksTextStep(s: string, m: BlockMatch, tail: seq<Tok>)
    requires ValidMatch(s, m)
    requires ToksText(tail) == s[m.codeEnd + 3..]
    ensures ToksText(Chars(s[..m.start]) + [BlockTok(s, m)] + tail) == s
  {
    var b := BlockTok(s, m);
    var pre := Chars(s[..m.start]);
    calc {
      ToksText(pre + [b] + tail);
      == { ToksTextConcat(pre + [b], tail); }
      ToksText(pre + [b]) + ToksText(tail);
      == { ToksTextConcat(pre, [b]); }
      ToksText(pre) + ToksText([b]) + s[m.codeEnd + 3..];
      == { CharsText(s[..m.start]); OneTokText(b); BlockText(s, m); }
      s[..m.start] + s[m.start..m.codeEnd + 3] + s[m.codeEnd + 3..];
      == { SliceThree(s, m.start, m.codeEnd + 3); }
      s;
    }
  }

  lemma OneTokText(t: Tok)
    ensures ToksText([t]) == TokText(t)
  {
    assert [t][1..] == [];
  }

  lemma SliceThree(s: string, a: nat, b: nat)
    requires a <= b <= |s|
    ensures s[..a] + s[a..b] + s[b..] == s
  {
  }

  /** One unfolding of the fenced-code pass at its first block. */
  lemma UnfoldBlocks(s: string, m: BlockMatch)
    requires FirstBlock(s) == Some(m)
    ensures ValidMatch(s, m) && |s[m.codeEnd + 3..]| < |s|
    ensures ExtractBlocks(s) == Chars(s[..m.start]) + [BlockTok(s, m)] + ExtractBlocks(s[m.codeEnd + 3..])
  {
    assert ExtractBlocks(s) == ExtractWith(s, Some(m));
  }

  /** Cutting out the code blocks loses nothing: writing the pieces back gives the text. */
  lemma {:induction false} ExtractBlocksText(s: string)
    ensures ToksText(ExtractBlocks(s)) == s
    decreases |s|
  {
    match FirstBlock(s)
    case Some(m) =>
      UnfoldBlocks(s, m);
      ExtractBlocksText(s[m.codeEnd + 3..]);
      BlocksTextStep(s, m, ExtractBlocks(s[m.codeEnd + 3..]));
    case None =>
      assert ExtractBlocks(s) == Chars(s);
      CharsText(s);
  }

  /** Text without a fence contains no code block. */
  lemma NoFenceNoBlocks(s: string)
    requires '`' !in s
    ensures ExtractBlocks(s) == Chars(s)
  {
    forall k: nat | k + 3 <= |s| ensures !OccursAt(s, Fence, k) {
      assert s[k] in s;
    }
    assert FirstBlock(s).None?;
  }

  // ---------------------------------------------------------------- inline code

  /** The text after the inline-code pass. */
  datatype Piece = Plain(c: char) | Block(lang: string, newline: bool, code: string) | Inline(body: seq<Tok>)

  /** The index of the first backtick at or after `from`. */
  function NextTick(ts: seq<Tok>, from: nat): (r: Option<nat>)
    ensures r.Some? ==> from <= r.value < |ts| && ts[r.value] == Ch('`')
    ensures r.Some? ==> forall k :: from <= k < r.value ==> ts[k] != Ch('`')
    ensures r.None? ==> forall k :: from <= k < |ts| ==> ts[k] != Ch('`')
    decreases |ts| - from
  {
    if from >= |ts| then None
    else if ts[from] == Ch('`') then Some(from)
    else NextTick(ts, from + 1)
  }

  function AsPiece(t: Tok): Piece
  {
    match t
    case Ch(c) => Plain(c)
    case CodeBlock(l, n, code) => Block(l, n, code)
  }

  /** `re.sub(r'`([^`]+)`', ...)`: a backtick opens a span when a later backtick closes it
      with at least one non-backtick in between; otherwise it stays a plain backtick. */
  function ExtractInline(ts: seq<Tok>): (r: seq<Piece>)
    decreases |ts|
  {
    if ts == [] then []
    else if ts[0] == Ch('`') then
      match NextTick(ts, 1)
      case Some(k) =>
        if k > 1 then [Inline(ts[1..k])] + ExtractInline(ts[k + 1..])
        else [Plain('`')] + ExtractInline(ts[1..])
      case None => [Plain('`')] + ExtractInline(ts[1..])
    else [AsPiece(ts[0])] + ExtractInline(ts[1..])
  }

  function PieceToks(p: Piece): seq<Tok>
  {
    match p
    case Plain(c) => [Ch(c)]
    case Block(l, n, code) => [CodeBlock(l, n, code)]
    case Inline(body) => [Ch('`')] + body + [Ch('`')]
  }

  function PiecesToks(ps: seq<Piece>): seq<Tok>
  {
    if ps == [] then [] else PieceToks(ps[0]) + PiecesToks(ps[1..])
  }

  lemma PiecesToksCons(p: Piece, rest: seq<Piece>)
    ensures PiecesToks([p] + rest) == PieceToks(p) + PiecesToks(rest)
  {
    assert ([p] + rest)[0] == p && ([p] + rest)[1..] == rest;
  }

  lemma SpanStep(ts: seq<Tok>, k: nat, rest: seq<Piece>)
    requires 1 < k < |ts| && ts[0] == Ch('`') && ts[k] == Ch('`')
    requires PiecesToks(rest) == ts[k + 1..]
    ensures PiecesToks([Inline(ts[1..k])] + rest) == ts
  {
    PiecesToksCons(Inline(ts[1..k]), rest);
    assert ts == [ts[0]] + ts[1..k] + [ts[k]] + ts[k + 1..];
  }

  lemma PlainStep(ts: seq<Tok>, p: Piece, rest: seq<Piece>)
    requires ts != [] && PieceToks(p) == [ts[0]]
    requires PiecesToks(rest) == ts[1..]
    ensures PiecesToks([p] + rest) == ts
  {
    PiecesToksCons(p, rest);
    assert ts == [ts[0]] + ts[1..];
  }

  /** Cutting out the inline spans loses nothing either. */
  lemma {:induction false} ExtractInlineToks(ts: seq<Tok>)
    ensures PiecesToks(ExtractInline(ts)) == ts
    decreases |ts|
  {
    if ts != [] {
      var nt := NextTick(ts, 1);
      if ts[0] == Ch('`') && nt.Some? && nt.value > 1 {
        var k := nt.value;
        ExtractInlineToks(ts[k + 1..]);
        SpanStep(ts, k, ExtractInline(ts[k + 1..]));
      } else {
        var p := if ts[0] == Ch('`') then Plain('`') else AsPiece(ts[0]);
        assert PieceToks(p) == [ts[0]] by {
          match ts[0]
          case Ch(c) =>
          case CodeBlock(l, n, code) =>
        }
        ExtractInlineToks(ts[1..]);
        PlainStep(ts, p, ExtractInline(ts[1..]));
      }
    }
  }

  /** Every inline span is non-empty and holds no backtick. */
  lemma {:induction false} InlineSpansClean(ts: seq<Tok>)
    ensures forall k :: 0 <= k < |ExtractInline(ts)| && ExtractInline(ts)[k].Inline? ==>
      ExtractInline(ts)[k].body != [] && Ch('`') !in ExtractInline(ts)[k].body
    decreases |ts|
  {
    if ts != [] {
      if ts[0] == Ch('`') && NextTick(ts, 1).Some? && NextTick(ts, 1).value > 1 {
        var k := NextTick(ts, 1).value;
        InlineSpansClean(ts[k + 1..]);
        assert forall x :: 1 <= x < k ==> ts[x] != Ch('`');
        assert Ch('`') !in ts[1..k];
      } else if ts[0] == Ch('`') {
        InlineSpansClean(ts[1..]);
      } else {
        InlineSpansClean(ts[1..]);
      }
    }
  }

  // ---------------------------------------------------------------- rendering

  function RenderBlock(code: string): string
  {
    "<pre><code>" + Escape(code) + "</code></pre>"
  }

  function RenderTok(t: Tok): string
  {
    match t
    case Ch(c) => EscapeChar(c)
    case CodeBlock(_, _, code) => RenderBlock(code)
  }

  function RenderToks(ts: seq<Tok>): string
  {
    if ts == [] then "" else RenderTok(ts[0]) + RenderToks(ts[1..])
  }

  function RenderPiece(p: Piece): string
  {
    match p
    case Plain(c) => EscapeChar(c)
    case Block(_, _, code) => RenderBlock(code)
    case Inline(body) => "<code>" + RenderToks(body) + "</code>"
  }

  function RenderPieces(ps: seq<Piece>): string
  {
    if ps == [] then "" else RenderPiece(ps[0]) + RenderPieces(ps[1..])
  }

  /** `_markdown_to_telegram_html` restricted to code protection, escaping and restore. */
  function MarkdownToHtml(text: string): (r: string)
    ensures text == "" ==> r == ""
  {
    if text == "" then "" else RenderPieces(ExtractInline(ExtractBlocks(text)))
  }

  lemma {:induction false} InlineOfChars(s: string)
    requires '`' !in s
    ensures RenderPieces(ExtractInline(Chars(s))) == Escape(s)
    decreases |s|
  {
    if s != [] {
      assert s[0] in s;
      assert Chars(s)[1..] == Chars(s[1..]);
      assert forall x :: x in s[1..] ==> x in s;
      InlineOfChars(s[1..]);
    }
  }

  /** Text without backticks is just escaped, and so carries no raw angle bracket. */
  lemma PlainTextIsEscaped(text: string)
    requires '`' !in text
    ensures MarkdownToHtml(text) == Escape(text)
    ensures '<' !in MarkdownToHtml(text) && '>' !in MarkdownToHtml(text)
  {
    NoFenceNoBlocks(text);
    InlineOfChars(text);
    EscapeHasNoAngles(text);
  }

  /** A lone fenced block is found whole: the fence at 0, no language tag, no newline, and
      the closing fence right after the code. */
  lemma LoneFenceBlock(code: string)
    requires '`' !in code && code != [] && code[0] != '\n' && !IsWordChar(code[0])
    ensures FirstBlock(Fence + code + Fence) == Some(BlockMatch(0, 3, false, 3, 3 + |code|))
  {
    var s := Fence + code + Fence;
    assert OccursAt(s, Fence, 0);
    assert WordRun(s, 3) == 0;
    var j := 3 + |code|;
    assert OccursAt(s, Fence, j);
    forall k: nat | 3 <= k < j
      ensures !OccursAt(s, Fence, k)
    {
      assert s[k] == code[k - 3];
    }
    assert Find(s, Fence, 0) == Some(0);
    assert Find(s, Fence, 3) == Some(j);
  }

  /** A single fenced block is rendered as its escaped code inside `<pre><code>`. */
  lemma FencedBlock(code: string)
    requires '`' !in code && code != [] && code[0] != '\n' && !IsWordChar(code[0])
    ensures MarkdownToHtml(Fence + code + Fence) == RenderBlock(code)
  {
    var s := Fence + code + Fence;
    var j := 3 + |code|;
    var m := BlockMatch(0, 3, false, 3, j);
    LoneFenceBlock(code);
    UnfoldBlocks(s, m);
    assert s[3..j] == code && s[3..3] == "";
    assert s[..0] == [] && s[j + 3..] == [];
    var b := CodeBlock("", false, code);
    assert BlockTok(s, m) == b;
    assert ExtractBlocks([]) == [];
    assert ExtractBlocks(s) == [b];
    assert ExtractInline([b]) == [Block("", false, code)] + ExtractInline([]);
    assert RenderPieces([Block("", false, code)]) == RenderBlock(code) + RenderPieces([]);
  }

  /** Both protection passes together lose nothing: the pieces spell the original text. */
  lemma ProtectionLosesNothing(text: string)
    ensures ToksText(PiecesToks(ExtractInline(ExtractBlocks(text)))) == text
  {
    ExtractInlineToks(ExtractBlocks(text));
    ExtractBlocksText(text);
  }
}

=== FILE: youtube.dfy ===
/** The YouTube summary tool: video-id extraction from a URL, transcript joining and
    truncation, and the tool's error-as-text behaviour. The transcript service is an oracle.
    The link detector the agent loop runs before calling the model lives here too, since it
    is the same kind of pattern. */
module YouTube {
  import opened Strings

  // ---------------------------------------------------------------- pattern matching

  /** `(?:a1|a2|...)` followed by one character of the id class matches at `j` with `a`. */
  predicate AltMatch(s: string, j: nat, a: string, idChar: char -> bool)
  {
    OccursAt(s, a, j) && j + |a| < |s| && idChar(s[j + |a|])
  }

  predicate AnyAltMatch(s: string, j: nat, alts: seq<string>, idChar: char -> bool)
  {
    exists k :: 0 <= k < |alts| && AltMatch(s, j, alts[k], idChar)
  }

  /** The first alternative, in pattern order, that matches at `j`. */
  function FirstAlt(s: string, j: nat, alts: seq<string>, idChar: char -> bool): (r: Option<nat>)
    ensures r.Some? ==> r.value < |alts| && AltMatch(s, j, alts[r.value], idChar)
    ensures r.None? ==> !AnyAltMatch(s, j, alts, idChar)
  {
    if alts == [] then None
    else if AltMatch(s, j, alts[0], idChar) then Some(0)
    else
      match FirstAlt(s, j, alts[1..], idChar)
      case None =>
        assert forall k :: 1 <= k < |alts| ==> alts[k] == alts[1..][k - 1];
        None
      case Some(k) => Some(k + 1)
  }

  /** A match of `(?:alts)([idChar]+)`: where it starts, which alternative, where the id
      starts and ends. */
  datatype Match = Match(start: nat, alt: nat, idStart: nat, idEnd: nat)

  /** `re.search`: the leftmost position with a matching alternative; the id is greedy. */
  function Search(s: string, alts: seq<string>, idChar: char -> bool, from: nat): (r: Option<Match>)
    ensures r.Some? ==>
      && from <= r.value.start && r.value.alt < |alts|
      && AltMatch(s, r.value.start, alts[r.value.alt], idChar)
      && r.value.idStart == r.value.start + |alts[r.value.alt]|
      && r.value.idStart < r.value.idEnd <= |s|
      && (forall k :: r.value.idStart <= k < r.value.idEnd ==> idChar(s[k]))
      && (r.value.idEnd < |s| ==> !idChar(s[r.value.idEnd]))
      && (forall k :: 0 <= k < r.value.alt ==> !AltMatch(s, r.value.start, alts[k], idChar))
    ensures r.Some? ==> forall j: nat :: from <= j < r.value.start ==> !AnyAltMatch(s, j, alts, idChar)
    ensures r.None? ==> forall j: nat :: from <= j ==> !AnyAltMatch(s, j, alts, idChar)
    decreases |s| + 1 - from
  {
    if from > |s| then
      assert forall j: nat :: from <= j ==> !AnyAltMatch(s, j, alts, idChar);
      None
    else
      match FirstAlt(s, from, alts, idChar)
      case Some(k) =>
        var idStart := from + |alts[k]|;
        FirstAltIsFirst(s, from, alts, idChar);
        Some(Match(from, k, idStart, idStart + Run(s, idStart, idChar)))
      case None => Search(s, alts, idChar, from + 1)
  }

  lemma {:induction false} FirstAltIsFirst(s: string, j: nat, alts: seq<string>, idChar: char -> bool)
    requires FirstAlt(s, j, alts, idChar).Some?
    ensures forall k :: 0 <= k < FirstAlt(s, j, alts, idChar).value ==> !AltMatch(s, j, alts[k], idChar)
    decreases |alts|
  {
    if !AltMatch(s, j, alts[0], idChar) {
      FirstAltIsFirst(s, j, alts[1..], idChar);
    }
  }

  // ---------------------------------------------------------------- video ids

  /** `[^&\n?#]`. */
  predicate ToolIdChar(c: char)
  {
    c != '&' && c != '\n' && c != '?' && c != '#'
  }

  const WatchAlts: seq<string> := ["youtube.com/watch?v=", "youtu.be/", "youtube.com/embed/", "youtube.com/v/"]
  const ShortsAlts: seq<string> := ["youtube.com/shorts/"]

  /** `_extract_video_id`: the watch/short-link/embed/v pattern first, then the shorts
      pattern; the id is the captured group. */
  function ExtractVideoId(url: string): (r: Option<string>)
    ensures r.Some? ==> r.value != "" && forall k :: 0 <= k < |r.value| ==> ToolIdChar(r.value[k])
    ensures r.None? <==>
      (forall j: nat :: !AnyAltMatch(url, j, WatchAlts, ToolIdChar))
      && (forall j: nat :: !AnyAltMatch(url, j, ShortsAlts, ToolIdChar))
  {
    match Search(url, WatchAlts, ToolIdChar, 0)
    case Some(m) =>
      assert AnyAltMatch(url, m.start, WatchAlts, ToolIdChar);
      Some(url[m.idStart..m.idEnd])
    case None =>
      match Search(url, ShortsAlts, ToolIdChar, 0)
      case Some(m) =>
        assert AnyAltMatch(url, m.start, ShortsAlts, ToolIdChar);
        Some(url[m.idStart..m.idEnd])
      case None => None
  }

  /** The watch pattern wins over the shorts pattern wherever the two occur. */
  lemma WatchBeforeShorts(url: string, j: nat)
    requires AnyAltMatch(url, j, WatchAlts, ToolIdChar)
    ensures ExtractVideoId(url).Some?
    ensures var m := Search(url, WatchAlts, ToolIdChar, 0).value;
      ExtractVideoId(url) == Some(url[m.idStart..m.idEnd])
  {
  }

  /** An id written after a short link comes back out unchanged. */
  lemma ShortLinkRoundTrip(id: string)
    requires id != [] && forall k :: 0 <= k < |id| ==> ToolIdChar(id[k])
    ensures ExtractVideoId("youtu.be/" + id) == Some(id)
  {
    var url := "youtu.be/" + id;
    assert AltMatch(url, 0, WatchAlts[1], ToolIdChar) by {
      assert url[0..9] == "youtu.be/";
      assert url[9] == id[0];
    }
    assert !AltMatch(url, 0, WatchAlts[0], ToolIdChar) by {
      assert url[5] == '.';
    }
    assert AnyAltMatch(url, 0, WatchAlts, ToolIdChar);
    var m := Search(url, WatchAlts, ToolIdChar, 0).value;
    assert m.start == 0 && m.alt == 1 && m.idStart == 9;
    assert forall k :: 9 <= k < |url| ==> url[k] == id[k - 9];
    assert m.idEnd == |url|;
    assert url[9..] == id;
    assert url[m.idStart..m.idEnd] == id;
    assert ExtractVideoId(url) == Some(id);
  }

  // ---------------------------------------------------------------- links in chat messages

  /** `[^\s&\n?#]`: the id class of the detector the agent loop runs on incoming text. */
  predicate LinkIdChar(c: char)
  {
    !IsSpace(c) && c != '&' && c != '?' && c != '#'
  }

  const LinkAlts: seq<string> := ["youtube.com/watch?v=", "youtu.be/", "youtube.com/shorts/", "youtube.com/embed/"]

  /** The whole matched text (`group(0)`) of the first YouTube link in a message. */
  function FindLink(text: string): (r: Option<string>)
    ensures r.Some? ==> exists k :: 0 <= k < |LinkAlts| && IsPrefix(LinkAlts[k], r.value) && |r.value| > |LinkAlts[k]|
    ensures r.None? <==> forall j: nat :: !AnyAltMatch(text, j, LinkAlts, LinkIdChar)
  {
    match Search(text, LinkAlts, LinkIdChar, 0)
    case Some(m) =>
      var link := text[m.start..m.idEnd];
      assert link[..|LinkAlts[m.alt]|] == LinkAlts[m.alt];
      assert AnyAltMatch(text, m.start, LinkAlts, LinkIdChar);
      Some(link)
    case None => None
  }

  /** Every link the detector finds is one the tool extracts an id from. */
  lemma DetectedLinkHasId(text: string)
    requires FindLink(text).Some?
    ensures ExtractVideoId(FindLink(text).value).Some?
  {
    var link := FindLink(text).value;
    var m := Search(text, LinkAlts, LinkIdChar, 0).value;
    assert OccursAt(link, LinkAlts[m.alt], 0) && |link| > |LinkAlts[m.alt]| && LinkIdChar(link[|LinkAlts[m.alt]|]) by {
      assert link == text[m.start..m.idEnd];
      assert link[|LinkAlts[m.alt]|] == text[m.idStart];
    }
    LinkHasId(link, m.alt);
  }

  /** A text that starts with a detector alternative and an id character is a URL the tool
      extracts an id from: every detector alternative is one of the tool's. */
  lemma LinkHasId(link: string, alt: nat)
    requires alt < |LinkAlts| && OccursAt(link, LinkAlts[alt], 0) && |link| > |LinkAlts[alt]|
    requires LinkIdChar(link[|LinkAlts[alt]|])
    ensures ExtractVideoId(link).Some?
  {
    if alt == 2 {
      assert AltMatch(link, 0, ShortsAlts[0], ToolIdChar);
      assert AnyAltMatch(link, 0, ShortsAlts, ToolIdChar);
    } else {
      var w := if alt == 0 then 0 else if alt == 1 then 1 else 2;
      assert LinkAlts[alt] == WatchAlts[w];
      assert AltMatch(link, 0, WatchAlts[w], ToolIdChar);
      assert AnyAltMatch(link, 0, WatchAlts, ToolIdChar);
    }
  }

  // ---------------------------------------------------------------- transcripts

  const MaxTranscript := 16000
  const TruncationNote := "...\n[Transcript truncated due to length]"

  /** A transcript over 16000 characters keeps its first 16000 and gains the note. */
  function TruncateTranscript(t: string): (r: string)
    ensures |t| <= MaxTranscript ==> r == t
    ensures |t| > MaxTranscript ==> r == t[..MaxTranscript] + TruncationNote
  {
    if |t| > MaxTranscript then t[..MaxTranscript] + TruncationNote else t
  }

  /** Truncation keeps a prefix of the transcript and bounds its length. */
  lemma TruncationBounds(t: string)
    ensures IsPrefix(Take(t, MaxTranscript), TruncateTranscript(t))
    ensures |TruncateTranscript(t)| <= MaxTranscript + |TruncationNote|
  {
  }

  const NotInstalledHint := "youtube-transcript-api not installed. " + "Run: pip install youtube-transcript-api"

  /** One lookup of the transcript service. */
  datatype FetchOutcome =
    | Segments(texts: seq<string>)
    | NoTranscript(error: string)     // TranscriptsDisabled or NoTranscriptFound
    | FetchFailed(error: string)      // any other exception

  /** The service's answer for one id, asked first for Russian or English and, if that
      raises, for any language. */
  function Lookup(id: string, fetch: (string, bool) -> FetchOutcome): FetchOutcome
  {
    if fetch(id, true).Segments? then fetch(id, true) else fetch(id, false)
  }

  /** The tool's text for a looked-up transcript. */
  function Answer(id: string, got: FetchOutcome): (r: string)
    ensures got.Segments? ==>
      r == "YouTube Video Transcript (ID: " + id + "):\n\n" + TruncateTranscript(Join(got.texts, " "))
    ensures got.NoTranscript? ==> r == "Error: " + "No transcript available for this video. (" + got.error + ")"
    ensures got.FetchFailed? ==> r == "Error: " + "Failed to get transcript: " + got.error
  {
    match got
    case Segments(texts) =>
      "YouTube Video Transcript (ID: " + id + "):\n\n" + TruncateTranscript(Join(texts, " "))
    case NoTranscript(e) => "Error: " + "No transcript available for this video. (" + e + ")"
    case FetchFailed(e) => "Error: " + "Failed to get transcript: " + e
  }

  /** `execute`: every failure comes back as text; `fetch(id, preferred)` is the service. */
  function Execute(installed: bool, url: string, fetch: (string, bool) -> FetchOutcome): (r: string)
    ensures !installed ==> r == "Error: " + NotInstalledHint
    ensures installed && ExtractVideoId(url).None? ==>
      r == "Error: " + "Could not extract video ID from URL: " + url
    ensures installed && ExtractVideoId(url).Some? ==>
      r == Answer(ExtractVideoId(url).value, Lookup(ExtractVideoId(url).value, fetch))
  {
    if !installed then "Error: " + NotInstalledHint
    else match ExtractVideoId(url)
      case None => "Error: " + "Could not extract video ID from URL: " + url
      case Some(id) => Answer(id, Lookup(id, fetch))
  }

  lemma AnswerAnswersOrExplains(id: string, got: FetchOutcome)
    ensures IsPrefix("YouTube Video Transcript (ID: ", Answer(id, got)) || IsPrefix("Error: ", Answer(id, got))
  {
    match got
    case Segments(texts) =>
      PrefixOfConcat("YouTube Video Transcript (ID: ", id + "):\n\n" + TruncateTranscript(Join(texts, " ")));
    case NoTranscript(e) =>
      PrefixOfConcat("Error: ", "No transcript available for this video. (" + e + ")");
    case FetchFailed(e) =>
      PrefixOfConcat("Error: ", "Failed to get transcript: " + e);
  }

  /** Whatever the service does, the tool answers with either a transcript or an error text. */
  lemma ExecuteAnswersOrExplains(installed: bool, url: string, fetch: (string, bool) -> FetchOutcome)
    ensures IsPrefix("YouTube Video Transcript (ID: ", Execute(installed, url, fetch))
         || IsPrefix("Error: ", Execute(installed, url, fetch))
  {
    if !installed {
      PrefixOfConcat("Error: ", NotInstalledHint);
    } else if ExtractVideoId(url).None? {
      PrefixOfConcat("Error: ", "Could not extract video ID from URL: " + url);
    } else {
      var id := ExtractVideoId(url).value;
      AnswerAnswersOrExplains(id, Lookup(id, fetch));
    }
  }

  lemma PrefixOfConcat(p: string, x: string)
    ensures IsPrefix(p, p + x)
  {
    assert (p + x)[..|p|] == p;
  }
}
